=== FILE: README.md ===
# Bar-theme editor core, modelled in Dafny

A model of the non-DOM logic of the TRX bar-theme editor, a browser tool for
editing the health/air/enemy bar colour themes of a `ui.json5` document:

- **the layered workspace store**: an immutable document (theme key to
  section) resolved against whole-theme overrides, legacy per-bar edits and
  deletion tombstones, with every store mutation;
- **ordered bar maps**: insertion-ordered association lists with the
  default-theme and key-swap helpers;
- **bar values**: default ramps, the swatch edit (current and legacy
  versions) and the absolute HSL adjustment;
- **the hex colour codec**: normalisation, byte parsing and clamped encoding;
- **the theme projection** used for previews and tooltips;
- **the preview renderer's geometry**, as a list of abstract draw commands;
- **the draft transaction** of the bar being edited, and the application's
  event handlers on top of it.

JavaScript values are modelled generically (`JsValues.Value`: string,
array, null, array hole, other scalar), because the code's shape tests and
out-of-range writes produce shapes a fixed flat/pair type cannot hold. Bar
maps are `seq<(string, Value)>` with distinct keys. Theme maps are
`map<string, Section>`. Numbers are exact reals and integers, and the
JavaScript operations that truncate (`| 0`, `Math.floor`, `Math.round`) are
written out. Store and draft operations are pure state-to-state functions,
and each handler is the composition of the store calls and draft updates it
makes, the last draft written winning.

Modules, in dependency order:

| Module | File | Models |
|---|---|---|
| `Wrappers` | wrappers.dfy | `Option` |
| `JsValues` | js_values.dfy | values, `Array(n).fill`, spread, index writes |
| `OrderedMap` | ordered_map.dfy | bar maps: get, put, delete, rename |
| `Document` | document.dfy | sections and their string properties |
| `WorkspaceOps` | workspace_ops.dfy | `src/lib/workspace-ops.js` |
| `HexColor` | hex_color.dfy | `src/lib/hsl.js` |
| `BarValues` | bar_values.dfy | `src/lib/bar-values.js`, `src/lib/bar-edit.js` |
| `EditorView` | editor_view.dfy | the pure methods of `static/bars/views/editor-view.js` |
| `Theme` | theme.dfy | `src/lib/theme.js` |
| `Draw` | draw.dfy | `src/lib/draw.js` |
| `StateStore` | state_store.dfy | `src/lib/state-store.js` |
| `Draft` | draft.dfy | `src/ui/hooks/useDraft.js` |
| `App` | app.dfy | the handlers of `src/ui/App.jsx` |

## Model

| member | source | states |
|---|---|---|
| JsValues.Spread | src/lib/bar-values.js:25 | `[...a]` has `a`'s length and no holes: each present element is copied as it is and each hole becomes undefined (null) |
| JsValues.SetAt | src/lib/bar-values.js:33-35 | `a[i] = v` sets slot `i`, keeps every other slot, and past the end it lengthens the array to `i + 1`, leaving holes in between |
| OrderedMap.Put | src/lib/state-store.js:253 | after `colors[bar] = v`, `bar` holds `v` and every other key its old value; a new key is appended last |
| OrderedMap.PutAll | src/lib/state-store.js:160-162 | overlaying a bar map gives the overlay's value for its keys and the old value for all others |
| OrderedMap.Remove | src/lib/state-store.js:281 | `delete colors[bar]` removes exactly that key and keeps the order of the rest |
| OrderedMap.RenameInPlace | src/lib/state-store.js:264-272 | rebuilding the bars entry by entry under the new name equals relabelling `from` to `to` in place, when `to` is fresh |
| OrderedMap.Rename | src/lib/state-store.js:264-272 | the rebuilt bars keep every key other than `from` and `to` with its value, no longer hold `from` (when `to` differs), and hold `to` whenever `from` was present |
| OrderedMap.RelabelGet | src/lib/state-store.js:266-268 | after a rename, `to` holds the value `from` had |
| WorkspaceOps.CreateDefaultTheme | src/lib/workspace-ops.js:1-20 | "ps1" in any case gives style ps1, scale 1, four black corners and no bars; any other kind gives style pc, white and dark-grey borders and no bars |
| WorkspaceOps.SwapKeyOrder | src/lib/workspace-ops.js:22-42 | an absent key or an out-of-range target gives the input back; otherwise positions `idx` and `idx + delta` are exchanged |
| WorkspaceOps.FromKeysInOrder | src/lib/workspace-ops.js:37-41 | rebuilding an object from a list of distinct keys gives the entries in that key order with their values |
| WorkspaceOps.SwapKeepsEntries | src/lib/workspace-ops.js:22-42 | a swap changes no key's value and adds or loses no key |
| WorkspaceOps.SwapBackRestores | src/lib/workspace-ops.js:32-41 | when the first move lands in range, swapping a key by `delta` and then by `-delta` restores the original order |
| WorkspaceOps.ExchangeTwice | src/lib/workspace-ops.js:32-35 | exchanging two positions twice is the identity |
| HexColor.Normalize | src/lib/hsl.js:1-8 | succeeds exactly when the trimmed input is `#` and six hex digits; the result is canonical (`#` and six lower-case digits) and equals the trimmed input up to case |
| HexColor.NormalizeOrBlack | src/lib/bar-values.js:19 | `normalizeHexColor(x) \|\| "#000000"` is always canonical |
| HexColor.NormalizeCanonical | src/lib/hsl.js:1-8 | a canonical colour normalises to itself |
| HexColor.NormalizeIdempotent | src/lib/hsl.js:1-8 | normalising a successful result again changes nothing |
| HexColor.DigitRoundTrip | src/lib/hsl.js:20-22 | decoding and re-encoding a lower-case hex digit gives the digit back |
| HexColor.HexDigitRoundTrip | src/lib/hsl.js:28-30 | encoding and decoding a value below 16 gives the value back |
| HexColor.Parse | src/lib/hsl.js:10-25 | an invalid colour parses to opaque black; every parse has byte channels and alpha 255 |
| HexColor.ClampByte | src/lib/hsl.js:28 | the clamp lands in 0..255, keeps values already there, sends negatives to 0 and values above 255 to 255 |
| HexColor.ToInt32 | src/lib/hsl.js:28 | `x \| 0` is a signed 32-bit integer, and for `\|x\| < 2^31` it is `x` truncated toward zero |
| HexColor.ByteDigits | src/lib/hsl.js:28-30 | `n.toString(16).padStart(2, "0")` for a byte is its two lower-case hex digits |
| HexColor.RgbaToHex | src/lib/hsl.js:27-38 | the output is always canonical, so normalisation accepts it unchanged |
| HexColor.RgbToHex | src/lib/hsl.js:40-42 | the output is always canonical |
| HexColor.ParseThenEncode | src/lib/hsl.js:10-38 | for a valid colour, encoding its parse gives its normalised form |
| HexColor.EncodeThenParse | src/lib/hsl.js:10-42 | for channels in 0..255, parsing their encoding gives them back with alpha 255 |
| HexColor.AdjustHexHsl | src/lib/hsl.js:123-134 | the result is always canonical, and an invalid input gives `#000000` |
| BarValues.DefaultBarValue | src/lib/bar-values.js:3-9 | "ps1" in any case gives a pair of two N-long black ramps, and anything else one N-long black ramp |
| BarValues.ReplaceSwatch | src/lib/bar-values.js:22-44 | PS1 edits only the right ramp when the ramp index is 1 and only the left otherwise, copying the other ramp; PC edits the ramp; a malformed ramp is first replaced by N blacks; the edited ramp differs from its source only at the index |
| BarValues.ApplySwatchChange | src/lib/bar-values.js:11-44 | the swatch edit stores the normalised colour (black when invalid) at the one index, with the ramp rules above |
| BarValues.SwatchChangeIdempotent | src/lib/bar-values.js:11-44 | repeating the same in-range swatch edit changes nothing |
| BarValues.AdjustElement | src/lib/bar-edit.js:5-6 | each present element becomes a canonical colour, black when invalid; a hole stays a hole |
| BarValues.AdjustRamp | src/lib/bar-edit.js:5 | `map` keeps the length and the holes; every present element becomes a canonical colour, its own colour shifted, or black when it is not a valid colour |
| BarValues.AdjustBarValueAbsolute | src/lib/bar-edit.js:3-13 | a pair maps to a pair with both ramp lengths kept, element by element; a flat array maps element by element; any other value is returned unchanged |
| BarValues.SpreadHoleFree | src/lib/bar-values.js:25 | a spread copy has no holes, and copies a hole-free array exactly |
| EditorView.CurrentBar | static/bars/views/editor-view.js:541 | the bar's value, null when the section, its colours or the bar is missing |
| EditorView.LegacyApplySwatchChange | static/bars/views/editor-view.js:540-561 | a missing bar gives null back; otherwise the same ramp rules as the library version, with the colour stored exactly as given |
| EditorView.LegacyAgreesOnCanonical | static/bars/views/editor-view.js:551-559 | the legacy and library swatch edits agree exactly when the colour is already canonical |
| EditorView.LegacyHexToRgb | static/bars/views/editor-view.js:744-756 | invalid input gives opaque black; otherwise byte channels and alpha 255 |
| EditorView.LegacyHexToRgbIsParse | static/bars/views/editor-view.js:744-756 | the legacy parse equals the library parse on every input |
| EditorView.LegacyRgbToHex | static/bars/views/editor-view.js:758-763 | the output is canonical and normalises to itself |
| EditorView.LegacyRgbToHexRoundTrip | static/bars/views/editor-view.js:758-763 | for byte channels, the legacy encoder equals the library one and its output parses back to the channels |
| Theme.BuildThemeFromSection | src/lib/theme.js:1-30 | ps1 in any case gives a PS1 theme whose empty or missing corners default to black, with the pair's ramps unchecked or two N-long black ramps; anything else gives a PC theme with white and dark-grey default borders and the array value or N blacks |
| Theme.NewBarPreviewsBlack | src/lib/theme.js:1-30 | a freshly added bar previews as all-black ramps of N steps |
| Theme.SwatchChangeShows | src/lib/theme.js:14-29 | after a swatch edit the projected theme shows the new colour at the index, and a PS1 edit leaves the other ramp as it was |
| Theme.DescribeThemeTooltip | src/lib/theme.js:32-37 | the tooltip begins with the bar name and a newline |
| Theme.JoinIsSpaced | src/lib/theme.js:33-36 | `join(" ")`, built from the back, equals the reference join built from the front: the first text, then a separator and the next text for each further element |
| Theme.SpacedLength | src/lib/theme.js:33-36 | a non-empty join is as long as its texts together plus one separator per element after the first |
| Theme.TooltipShape | src/lib/theme.js:32-37 | for ramps of any texts, the tooltip is the name, a newline and the ramp's texts separated by single spaces; PS1 puts ` \| ` between the left and right ramps |
| Theme.TooltipLength | src/lib/theme.js:32-37 | the tooltip's length is the name's, plus every colour text's, plus one per colour (newline and spaces), plus two for PS1's ` \| `; an empty PC ramp leaves only the name's line |
| Theme.JoinCanonical | src/lib/theme.js:33-36 | joining canonical colours with spaces gives `8k - 1` characters listing colour `j` at offset `8j` |
| Theme.TooltipListsColours | src/lib/theme.js:32-37 | for canonical colours: a PC tooltip lists the ramp right after the name, each colour but the last followed by a space, and ends with the last colour; a PS1 tooltip lists the left ramp there, then ` \| `, then the right ramp to the end |
| Draw.Clamp01 | src/lib/draw.js:22-23 | the fill fraction lies in [0, 1] and keeps in-range values |
| Draw.Border | src/lib/draw.js:19-20 | the border is `max(1, floor(h / (N + 4)))`, so at least 1 |
| Draw.InnerRect | src/lib/draw.js:43-48 | the inner rect is inset by the border on every side, with its size clamped at 0 |
| Draw.FillRect | src/lib/draw.js:51-56 | the fill is inset by the padding, its height clamped at 0 and its width between 0 and the available width, full at 100% and empty at 0%; widths in between are computed in exact arithmetic |
| Draw.Band | src/lib/draw.js:98-103 | band `i` spans the fill's width from its floor-divided top, and is at least 1 high |
| Draw.BandsCover | src/lib/draw.js:93-105 | the first band starts at the fill's top, each ends where the next begins, the last ends at the fill's bottom, and all lie inside |
| Draw.BandsTile | src/lib/draw.js:126-134 | when the fill is at least N high, the band heights add up to exactly its height |
| Draw.BandCount | src/lib/draw.js:68-69 | never more bands than steps: one per step normally, and in smooth mode one fewer than the steps (one per neighbouring pair), so none for a single step |
| Draw.Lerp | src/lib/draw.js:186-194 | for byte channels, every channel of the blend is a whole number between the two colours' channels |
| Draw.LerpEndpoints | src/lib/draw.js:186-194 | the interpolation clamps `t`: at or below 0 it gives the first colour and at or above 1 the second |
| Draw.Mix | src/lib/draw.js:196-200 | a mixed colour is always canonical |
| Draw.EncodeParsed | src/lib/draw.js:196-200 | encoding a parsed colour gives its normalised form, or black |
| Draw.MixEndpoints | src/lib/draw.js:186-200 | mixing at 100% or more gives the second colour normalised, and at 0% or less the first |
| Draw.Frame | src/lib/draw.js:25-49 | PS1 first draws one quad over the whole canvas with the four corner colours, each black when empty; PC first draws the light colour (default `#ffffff`) over the whole canvas and then the dark colour (default `#404040`) at `(border, border)`, `w - border` by `h - border`, unclamped; last comes the black inner rect |
| Draw.DrawBarPreview | src/lib/draw.js:19-135 | the frame comes first; bands follow only when the fill has area and a PC ramp has exactly N steps; band `i` covers the floor-partition band of the fill |
| Draw.BandColours | src/lib/draw.js:68-133 | PC bands are solid steps or step-to-next gradients; PS1 quads have the left colour on the left edge and the mixed colour on the right, exactly the right colour at 100% |
| StateStore.WithColors | src/lib/state-store.js:136-149 | every resolved section gets a colours map, empty when it had none |
| StateStore.BuildWorkspaceData | src/lib/state-store.js:126-166 | a tombstoned key is absent whatever else holds it; a key is present exactly when the document or an override has it and it is not tombstoned; every present theme has colours |
| StateStore.BuildMatchesResolve | src/lib/state-store.js:126-166 | the three passes agree, key by key, with the layer rule: tombstone, else override, else document section, then legacy bar edits |
| StateStore.SameResolution | src/lib/state-store.js:126-166 | two stores that resolve every key alike build the same workspace |
| StateStore.UnresolvedEditsIgnored | src/lib/state-store.js:156-159 | legacy edits for a key that does not resolve change nothing |
| StateStore.Editable | src/lib/state-store.js:168-192 | the editable copy has the existing override's properties, scale and bars, else the document section's, else it is an empty theme with no bars; it always has a colours map |
| StateStore.EnsureEditable | src/lib/state-store.js:168-192 | afterwards the override exists with colours: an existing override is kept, given an empty colours map if it had none; otherwise it is a copy of the document section with its properties, scale and bars, or an empty theme; no other key or collection changes |
| StateStore.EnsureEditableInvisible | src/lib/state-store.js:168-192 | making a theme that resolves editable does not change the workspace |
| StateStore.SetBarValue | src/lib/state-store.js:251-255 | the bar is written into the theme's override, replacing its value in place when the bar exists and appended after the other bars otherwise; the override's other bars, its fields and scale, and every other override stay as they were |
| StateStore.SetBarValueResolves | src/lib/state-store.js:251-255 | unless tombstoned or shadowed by a legacy edit, the theme then resolves with the new value at the bar and its other bars unchanged |
| StateStore.SetThemeLabel | src/lib/state-store.js:221-225 | the override gets the label and keeps every other property and its bars |
| StateStore.Untomb | src/lib/state-store.js:214-216 | the key's tombstone is lifted and no other changes |
| StateStore.AddTheme | src/lib/state-store.js:213-219 | the key's tombstone is lifted and its override becomes a default theme of the kind; no other key changes |
| StateStore.AddThemeResolves | src/lib/state-store.js:213-219 | the added theme resolves to exactly the default theme |
| StateStore.CopyTheme | src/lib/state-store.js:227-238 | nothing happens unless the source resolves; otherwise the target loses its tombstone and its override is the source's resolved section |
| StateStore.CopyThemeResolves | src/lib/state-store.js:227-238 | the copy resolves to what the source did, and every other theme resolves as before |
| StateStore.DeleteTheme | src/lib/state-store.js:240-249 | the key is tombstoned and its override removed; legacy edits and other keys are untouched |
| StateStore.DeleteThemeHides | src/lib/state-store.js:240-249 | a deleted theme is absent from the workspace, and other themes resolve as before |
| StateStore.RenameBar | src/lib/state-store.js:257-274 | nothing happens unless the bar resolves; otherwise the override gets the resolved bars rebuilt with `from` under `to`, keeping the theme's fields and scale, and every other override stays as it was |
| StateStore.RenameBarInPlace | src/lib/state-store.js:257-274 | for a fresh `to`, the theme's bars keep their order and values with only `from` renamed |
| StateStore.DeleteBar | src/lib/state-store.js:276-283 | the bar is removed from the theme's override; the override keeps its fields and scale, and every other override and the rest of the state stay as they were |
| StateStore.DeleteBarRemovesOne | src/lib/state-store.js:276-283 | the theme's bar names lose exactly that name, in the same order, and the other bars keep their values |
| StateStore.MoveBar | src/lib/state-store.js:285-294 | nothing happens unless the bar resolves; otherwise the override gets the resolved bars with the bar swapped `delta` places |
| StateStore.MoveBarBack | src/lib/state-store.js:285-294 | when the first move lands in range and the theme has no legacy edits, moving a bar and moving it back leaves every theme resolving as before |
| StateStore.HasAnyEdits | src/lib/state-store.js:77-88 | true exactly when some key has a legacy edit, an override or a tombstone entry |
| StateStore.ResetEdits | src/lib/state-store.js:90-95 | the three override collections are emptied, so no edits remain, and percent, smoothing, selection and HSL adjustment are kept |
| StateStore.PlainWorkspace | src/lib/state-store.js:129-140 | with no edits the workspace has exactly the document's keys; each section keeps its properties and scale and gets its own bars as colours, unchanged when it already had them |
| StateStore.NoEditsShowsDocument | src/lib/state-store.js:77-95 | without edits the workspace is the document with a colours map on every section (empty where the section had none) |
| StateStore.MigrateLegacyEdits | src/lib/state-store.js:97-124 | with no document or no edits nothing happens; otherwise legacy edits end up empty, and each edit whose theme the document has is written into that theme's override |
| StateStore.MigratePreservesWorkspace | src/lib/state-store.js:97-124 | migration does not change the workspace, when every pending edit belongs to a theme the document has or no override holds |
| StateStore.MigrateResolvesAlike | src/lib/state-store.js:108-122 | key by key, a theme resolves the same before and after migration |
| StateStore.SelectBar | src/lib/state-store.js:194-198 | the bar is selected and the HSL adjustment zeroed; nothing else changes |
| StateStore.FirstBar | src/lib/state-store.js:206-207 | the first bar's name, or "" for a theme without bars |
| StateStore.SelectTheme | src/lib/state-store.js:200-211 | nothing happens when the theme does not resolve; otherwise its first bar is selected and the adjustment zeroed |
| StateStore.SetEditedBarValue | src/lib/state-store.js:296-301 | writes the bar as `setBarValue` does and selects it |
| Draft.BarValueIn | src/ui/hooks/useDraft.js:10-12 | `section?.colors ? colors[bar] : null`, present only for a non-null value |
| Draft.BarValueInWorkspace | src/ui/hooks/useDraft.js:9-12 | a bar has a value in the workspace exactly when it resolves, and the value is the resolved one |
| Draft.StartDraft | src/ui/hooks/useDraft.js:8-24 | no draft when the bar does not resolve; otherwise a clean draft whose snapshot and value are the resolved value and whose shift is zero |
| Draft.CancelDraft | src/ui/hooks/useDraft.js:26 | there is no draft afterwards |
| Draft.ResetDraft | src/ui/hooks/useDraft.js:28-38 | no draft stays none; otherwise the value returns to the snapshot, the shift to zero and the draft becomes clean, keeping its key, bar and snapshot |
| Draft.SetDraftValue | src/ui/hooks/useDraft.js:40-60 | on the draft's own bar only the value changes and the draft becomes dirty; elsewhere a dirty draft is begun from the resolved value, or nothing happens if the bar does not resolve |
| Draft.SetDraftHsl | src/ui/hooks/useDraft.js:62-90 | the value is always the snapshot shifted by the new amounts; with no draft, one is begun on the selected bar, and nothing happens without a selection or a resolving bar |
| Draft.SetDraftHslIdempotent | src/ui/hooks/useDraft.js:87-88 | repeating a shift with the same amounts changes nothing |
| Draft.HslDiscardsSwatchEdits | src/ui/hooks/useDraft.js:87-88 | a shift discards any swatch edit made since the snapshot |
| Draft.ResetUndoesEdits | src/ui/hooks/useDraft.js:28-60 | after a shift or a value change, a reset gives what a reset of the earlier draft gives |
| Draft.StartedIsReset | src/ui/hooks/useDraft.js:8-38 | a freshly started draft is already reset |
| Draft.ConfirmDraft | src/ui/hooks/useDraft.js:92-106 | with no draft nothing happens; otherwise the value is stored with `setEditedBarValue` and the draft ends |
| Draft.ConfirmShows | src/ui/hooks/useDraft.js:92-106 | a confirmed value is what the bar then resolves to, and the bar is selected |
| Draft.MaybePrompt | src/ui/hooks/useDraft.js:108-129 | without a dirty draft, or when the focus stays on the draft's bar or theme, nothing changes; when it moves to another bar, another theme or nothing, yes confirms the draft and no drops it |
| Draft.ResetAllEdits | src/ui/hooks/useDraft.js:131-146 | nothing happens without edits or without confirmation; otherwise the store is reset and the draft restarted on the selection, or dropped |
| Draft.ResetDraftsFromDocument | src/ui/hooks/useDraft.js:131-146 | after a reset, the restarted draft begins from the document's own value |
| App.SelectionInvisible | src/ui/App.jsx:113 | changing only the selection changes how no theme resolves |
| App.ExportDoc | src/ui/App.jsx:20-24 | the download is the committed workspace, key by key, so no draft can appear in it |
| App.Workspace | src/ui/App.jsx:92-98 | the shown workspace equals the export except at the draft's bar, which shows the draft's value, and only when the draft names a theme and bar and that theme resolves |
| App.OnParsed | src/ui/App.jsx:54-57 | a parsed file migrates the legacy edits, keeps the draft, and leaves the export unchanged when every pending edit's theme is in the file or has no override |
| App.SelectBar | src/ui/App.jsx:100-107 | as written: after the prompt the bar is selected and a new draft of it is always started |
| App.ReselectLosesEdit | src/ui/App.jsx:100-107 | re-selecting the bar under edit leaves its unsaved value in neither the draft nor the store |
| App.SelectBarKeepingDraft | src/ui/App.jsx:100-107 | corrected: the same selection and store effect as `selectBar` |
| App.SelectBarKeepsEdits | src/ui/App.jsx:100-107 | with the correction, re-selecting keeps a dirty draft, and selecting elsewhere with a yes stores its value |
| App.ClearSelection | src/ui/App.jsx:109-116 | after the prompt nothing is selected and no draft remains |
| App.DraftForSelection | src/ui/App.jsx:124-129 | either the fallback draft or a clean draft of the selected bar |
| App.SelectTheme | src/ui/App.jsx:118-130 | the theme's first bar is selected with a clean draft when it has a name and a value, and with no draft otherwise |
| App.ThemeLabel | src/ui/App.jsx:144 | a non-blank name gives itself trimmed, a label that starts and ends with no whitespace and that trimming leaves alone; a blank name gives the key's default name |
| App.AddTheme | src/ui/App.jsx:142-152 | the new theme resolves to the default theme with the label, no bars, selected with an empty bar name; the draft is kept and other themes are unchanged |
| App.AddLabelledTheme | src/ui/App.jsx:143-145 | adding then labelling resolves to the default theme with the label, and no other theme changes |
| App.SetThemeLabel | src/ui/App.jsx:154-157 | for a theme that resolves and has no legacy edits, the theme shows the new label and keeps its other properties and bars; other themes and the draft are unchanged |
| App.CopyTheme | src/ui/App.jsx:159-167 | the copy resolves to the source, other themes are unchanged, the copy's first bar is selected, and only a clean draft replaces the old one |
| App.DeleteTheme | src/ui/App.jsx:174-181 | the theme no longer resolves; the selection and draft are cleared exactly when it was the selected theme |
| App.RenameTheme | src/ui/App.jsx:169-172 | whatever the keys, `from` no longer resolves afterwards |
| App.RenameThemeMoves | src/ui/App.jsx:169-172 | afterwards `to` resolves to the old `from`, `from` does not resolve, other themes are unchanged and `to` is selected |
| App.AddBar | src/ui/App.jsx:183-190 | the bar resolves to the default value for the shown theme's style, and is selected with a clean draft of that value; the previous draft is replaced without a prompt, even when dirty |
| App.CopyBar | src/ui/App.jsx:192-201 | nothing happens when the shown source bar is null or missing; otherwise the shown value is written under the new name, which is selected with a clean draft |
| App.CopyBarTakesDraftValue | src/ui/App.jsx:92-98 | the shown value of the bar under edit is the draft's uncommitted value |
| App.RenameBar | src/ui/App.jsx:203-208 | the bars are relabelled in place and the renamed bar is selected with a clean draft of its old value; the previous draft is replaced without a prompt, even when dirty |
| App.DeleteBar | src/ui/App.jsx:210-223 | exactly that bar leaves the list; the first remaining bar is selected with a draft, or the theme with an empty bar name and no draft |
| App.MoveBar | src/ui/App.jsx:225-230 | the bar stays selected with a clean draft of its unchanged value, and no bar's value changes; the previous draft is replaced without a prompt, even when dirty |
| App.MoveBarKeepsValues | src/lib/state-store.js:285-294 | a move changes the order of a theme's bars and no value |

## Left out

- Browser storage (`saveToStorage`, `loadFromStorage`, `src/lib/storage.js`) and `persistStore` are no-ops in the model: they write to local storage and have no effect on the state.
- JSON5 parsing and the file-upload hook are foreign library and I/O code; `OnParsed` takes the parsed document as given.
- React components, the colour-picker hook, the saved-indicator timers and the DOM code of `static/bars/views/editor-view.js` are user interface.
- The numeric HSL conversion inside `adjustHexHsl` is floating-point colour math: it is the parameter `HexColor.HslShift`, applied between the modelled normalise, parse and encode steps.
- Canvas specifics (device pixel ratio, gradient rasterisation, 40×40 bilinear sampling) are drawing primitives; the renderer emits abstract draw commands instead. This includes the canvas ignoring an invalid CSS colour in a solid rect or gradient; only bilinear quads parse their colours, turning an invalid one into black.
- Theme-key order in the workspace object is not modelled (themes are a `map`), and neither is JavaScript's rule that integer-like object keys iterate first (bar maps are plain insertion-ordered lists).
- `structuredClone` and aliasing are replaced by value semantics.
- `defaultNameGsForThemeKey` is imported by `src/ui/App.jsx` from `src/lib/workspace-ops.js`, but that file as modelled here does not define it, so the label is the parameter `defaultLabel`. `BAR_COLOR_STEPS` comes from `src/ui/constants.js`, which is not part of this model; it is the parameter `n`.
- static/bars/hsl.js is not part of this model; the legacy editor's `normalizeHexColor` is taken to be the one in `src/lib/hsl.js`.
- `setPercent` and `setSmooth` only store a number or a flag.
- `window.confirm` becomes the boolean argument `ok`. The `alert` in `confirmDraft`'s error path is not modelled, because no modelled store operation throws.
- Falsy non-string scalars (`0`, `false`, `NaN`) are modelled as their text. Every place that reads them treats that text as an invalid colour anyway.
- BarValues.SwatchChangeIdempotent: stated only for an index inside the edited ramp, because a write past the end leaves holes that the next spread copy turns into nulls.
- Draw.FillRect, Draw.Lerp: computed in exact real arithmetic, where the browser uses doubles, so a fill width or a blended channel can differ by one from the browser's. For example, a room of 100 pixels at fill 0.29 is 28 pixels in the browser, because `100 * 0.29` is just below 29, and 29 in the model. Only the end points and the bounds are stated.
- Theme.TooltipListsColours: the fixed positions are stated only for canonical colours, which are seven characters each. For other texts the layout is the one stated by Theme.TooltipShape and Theme.TooltipLength.
- StateStore.MoveBarBack: stated only for a theme with no legacy edits, because the proof does not follow legacy edits being re-applied over the moved override.
- App.SetThemeLabel: requires that the theme resolves and has no legacy edits. Labelling a theme that does not resolve creates its override from an empty theme, and legacy edits would be layered over the labelled override; the handler's effect is not stated for those cases.
- App.AddTheme: requires that no legacy edits are pending for the new key. Such edits would be layered over the fresh theme.
- App.CopyTheme, App.RenameThemeMoves: the resolution facts need no pending legacy edits for the target key, for the same reason.
- App.RenameBar, App.MoveBar, App.DeleteBar: the bar-list facts need no pending legacy edits for the theme. Legacy edits are re-applied over the rewritten override and can re-add a renamed or deleted bar.
- Behaviour worth noting:
  - `normalizeHexColor` requires the `#`;
  - smooth mode draws N - 1 bands, and none when N is 1;
  - at a fill of 0% no band is drawn at all.
- A section's fields other than `scale` and `colors` are modelled as strings only. A non-string field, such as a numeric `label` in an uploaded document, has no place in the model.

## Findings

| source | as written | input that shows it | evidently intended | confidence | as-written member | corrected member |
|---|---|---|---|---|---|---|
| src/ui/App.jsx:100-107 | `selectBar` always calls `startDraft` after the prompt. The prompt lets a re-selection of the draft's own bar through without asking, so the new draft replaces the dirty one. | Edit a swatch of the selected bar, then click that bar's button or preview again (both call `onSelectBar`). The unsaved colour is gone from the draft and was never stored. | Re-selecting the bar under edit keeps its draft, just as the prompt treats it as "not leaving". | not executed | App.ReselectLosesEdit | App.SelectBarKeepsEdits |

=== FILE: app.dfy ===
/** The editor's event handlers: each is the store operations and draft
    updates it performs, in order, with the last draft written winning. */
module App {
  import opened Wrappers
  import opened JsValues
  import opened OrderedMap
  import opened Document
  import opened HexColor
  import opened BarValues
  import opened StateStore
  import opened Draft
  import opened WorkspaceOps

  datatype Session = Session(st: State, draft: Option<DraftRec>)

  /** Store changes that touch only the selection never change how any
      theme resolves. */
  lemma SelectionInvisible(st: State, base: Doc, sel: Option<Selection>, adjust: Hsl)
    ensures forall k :: Resolve(st.(selected := sel, barAdjust := adjust), base, k) == Resolve(st, base, k)
  {
    forall k ensures Resolve(st.(selected := sel, barAdjust := adjust), base, k) == Resolve(st, base, k) {
      ResolveFrame(st.(selected := sel, barAdjust := adjust), st, base, k);
    }
  }

  /** What the download writes: the committed workspace, theme by theme,
      without the draft. */
  function ExportDoc(s: Session, base: Doc): (ws: Doc)
    ensures forall k :: Lookup(ws, k) == Resolve(s.st, base, k)
  {
    forall k ensures Lookup(BuildWorkspaceData(s.st, base), k) == Resolve(s.st, base, k) {
      BuildMatchesResolve(s.st, base, k);
    }
    BuildWorkspaceData(s.st, base)
  }

  /** Whether the draft is shown over the workspace: it names a theme and a
      bar, and that theme is there. */
  predicate Overlays(s: Session, ws: Doc) {
    && s.draft.Some? && s.draft.value.sectionKey != "" && s.draft.value.barName != ""
    && s.draft.value.sectionKey in ws && ws[s.draft.value.sectionKey].colors.Some?
  }

  /** What the editor shows: the committed workspace with the draft's value
      written over its bar. It differs from the export at that one bar and
      nowhere else. */
  function Workspace(s: Session, base: Doc): (ws: Doc)
    ensures var ex := ExportDoc(s, base);
      && ws.Keys == ex.Keys
      && (!Overlays(s, ex) ==> ws == ex)
      && (Overlays(s, ex) ==>
            var x := s.draft.value;
            && (forall k :: k != x.sectionKey ==> Lookup(ws, k) == Lookup(ex, k))
            && ws[x.sectionKey].fields == ex[x.sectionKey].fields
            && Get(BarsOf(ws[x.sectionKey]), x.barName) == Some(x.value)
            && forall b :: b != x.barName ==> Get(BarsOf(ws[x.sectionKey]), b) == Get(BarsOf(ex[x.sectionKey]), b))
  {
    var ws := BuildWorkspaceData(s.st, base);
    if Overlays(s, ws) then
      var x := s.draft.value;
      var section := ws[x.sectionKey];
      ws[x.sectionKey := section.(colors := Some(Put(section.colors.value, x.barName, x.value)))]
    else ws
  }

  /** A file was read: legacy per-bar edits are folded into overrides. */
  function OnParsed(s: Session, parsed: Option<Doc>): (r: Session)
    ensures r.draft == s.draft
    ensures parsed.Some? ==> r.st.edits == map[]
    ensures parsed.Some? && (forall k :: k in s.st.edits ==> k in parsed.value || k !in s.st.workspaceThemes) ==>
      ExportDoc(r, parsed.value) == ExportDoc(s, parsed.value)
  {
    if parsed.Some? && (forall k :: k in s.st.edits ==> k in parsed.value || k !in s.st.workspaceThemes) then
      MigratePreservesWorkspace(s.st, parsed.value);
      Session(MigrateLegacyEdits(s.st, parsed), s.draft)
    else Session(MigrateLegacyEdits(s.st, parsed), s.draft)
  }

  /** `selectBar(k, bar)` as written: after the prompt, a new draft of the
      bar is always started, so re-selecting the bar being edited replaces a
      dirty draft without asking. */
  function SelectBar(s: Session, base: Doc, k: string, bar: string, ok: bool): (r: Session)
    ensures var p := MaybePrompt(s.st, base, s.draft, Some(k), Some(bar), ok);
      && r.st.selected == Some(Selection(k, bar)) && r.st.barAdjust == NoShift
      && (forall k' :: Resolve(r.st, base, k') == Resolve(p.0, base, k'))
      && r.draft == StartDraft(p.0, base, k, bar)
  {
    var p := MaybePrompt(s.st, base, s.draft, Some(k), Some(bar), ok);
    SelectionInvisible(p.0, base, Some(Selection(k, bar)), NoShift);
    Session(StateStore.SelectBar(p.0, k, bar), StartDraft(p.0, base, k, bar))
  }

  /** Re-selecting the bar under edit after changing its value to `v`
      leaves `v` neither in the draft nor in the store: the edit is gone and
      the user was not asked. */
  lemma ReselectLosesEdit(st: State, base: Doc, k: string, bar: string, v: Value, ok: bool)
    requires Resolves(ResolvedBars(st, base, k), bar)
    requires Get(ResolvedBars(st, base, k), bar) != Some(v)
    ensures var d := SetDraftValue(st, base, StartDraft(st, base, k, bar), k, bar, v);
      && d.Some? && d.value.dirty && d.value.value == v
      && var r := SelectBar(Session(st, d), base, k, bar, ok);
      && r.draft.Some? && r.draft.value.value != v
      && Get(ResolvedBars(r.st, base, k), bar) != Some(v)
  {
    var d := SetDraftValue(st, base, StartDraft(st, base, k, bar), k, bar, v);
    assert !LeavesDraft(d.value, Some(k), Some(bar));
  }

  /** `selectBar(k, bar)` as evidently intended: re-selecting the bar under
      edit keeps its draft. */
  function SelectBarKeepingDraft(s: Session, base: Doc, k: string, bar: string, ok: bool): (r: Session)
    ensures var p := MaybePrompt(s.st, base, s.draft, Some(k), Some(bar), ok);
      && r.st.selected == Some(Selection(k, bar)) && r.st.barAdjust == NoShift
      && (forall k' :: Resolve(r.st, base, k') == Resolve(p.0, base, k'))
  {
    var p := MaybePrompt(s.st, base, s.draft, Some(k), Some(bar), ok);
    SelectionInvisible(p.0, base, Some(Selection(k, bar)), NoShift);
    var keep := p.1.Some? && p.1.value.sectionKey == k && p.1.value.barName == bar;
    Session(StateStore.SelectBar(p.0, k, bar), if keep then p.1 else StartDraft(p.0, base, k, bar))
  }

  /** With the intended `selectBar`, a dirty draft's value survives every
      selection unless the user declines to save it: re-selecting its bar
      keeps the draft, and selecting elsewhere with a yes stores the value. */
  lemma SelectBarKeepsEdits(s: Session, base: Doc, k: string, bar: string, ok: bool)
    requires s.draft.Some? && s.draft.value.dirty
    requires !Tombstoned(s.st, s.draft.value.sectionKey)
    requires s.draft.value.sectionKey !in s.st.edits
    ensures var x := s.draft.value;
      var r := SelectBarKeepingDraft(s, base, k, bar, ok);
      && (k == x.sectionKey && bar == x.barName ==> r.draft == s.draft && r.st == StateStore.SelectBar(s.st, k, bar))
      && ((k != x.sectionKey || bar != x.barName) && ok ==>
            Get(ResolvedBars(r.st, base, x.sectionKey), x.barName) == Some(x.value))
  {
    var x := s.draft.value;
    if (k != x.sectionKey || bar != x.barName) && ok {
      assert LeavesDraft(x, Some(k), Some(bar));
      ConfirmShows(s.st, base, x);
    }
  }

  /** `clearSelection()`: after the prompt, nothing is selected and there is
      no draft. */
  function ClearSelection(s: Session, base: Doc, ok: bool): (r: Session)
    ensures r.st.selected.None? && r.draft.None?
    ensures var p := MaybePrompt(s.st, base, s.draft, None, None, ok);
      r.st == p.0.(selected := None)
  {
    var p := MaybePrompt(s.st, base, s.draft, None, None, ok);
    Session(p.0.(selected := None), None)
  }

  /** The draft a handler starts after selecting a theme: one for the
      selected bar when both names are non-empty, `otherwise` else. */
  function DraftForSelection(st: State, base: Doc, otherwise: Option<DraftRec>): (d: Option<DraftRec>)
    ensures d != otherwise ==> d.None? || (!d.value.dirty && st.selected == Some(Selection(d.value.sectionKey, d.value.barName)))
  {
    match st.selected
    case Some(sel) =>
      if sel.sectionKey != "" && sel.barName != "" then StartDraft(st, base, sel.sectionKey, sel.barName)
      else otherwise
    case None => otherwise
  }

  /** `selectTheme(k)`: when `k` resolves, its first bar is selected and a
      clean draft of it started if it has a non-empty name and a value;
      otherwise there is no draft. */
  function SelectTheme(s: Session, base: Doc, k: string, ok: bool): (r: Session)
    ensures var p := MaybePrompt(s.st, base, s.draft, Some(k), None, ok);
      && (forall k' :: Resolve(r.st, base, k') == Resolve(p.0, base, k'))
      && (Resolve(p.0, base, k).Some? ==>
            var first := FirstBar(ResolvedBars(p.0, base, k));
            && r.st.selected == Some(Selection(k, first))
            && (r.draft.Some? <==> k != "" && first != "" && Resolves(ResolvedBars(p.0, base, k), first))
            && (r.draft.Some? ==>
                  && r.draft.value.sectionKey == k && r.draft.value.barName == first && !r.draft.value.dirty
                  && Get(ResolvedBars(p.0, base, k), first) == Some(r.draft.value.value)))
  {
    var p := MaybePrompt(s.st, base, s.draft, Some(k), None, ok);
    var st' := StateStore.SelectTheme(p.0, base, k);
    SelectionInvisible(p.0, base, st'.selected, st'.barAdjust);
    Session(st', DraftForSelection(st', base, None))
  }

  /** The label `addTheme` gives a new theme: the trimmed name when it is
      not blank, the theme key's default name otherwise. */
  function ThemeLabel(nameGs: string, defaultLabel: string): (nameOut: string)
    ensures Trim(nameGs) != "" ==> nameOut == Trim(nameGs)
    ensures Trim(nameGs) != "" ==> !IsJsSpace(nameOut[0]) && !IsJsSpace(nameOut[|nameOut| - 1])
    ensures Trim(nameGs) != "" ==> Trim(nameOut) == nameOut
    ensures Trim(nameGs) == "" ==> nameOut == defaultLabel
  {
    var trimmed := Trim(nameGs);
    if trimmed != "" then TrimTrimmed(trimmed); trimmed else defaultLabel
  }

  /** `addTheme(k, kind, nameGs)`: `k` becomes a default theme of the kind
      carrying the label, and is selected with no bar. Since a new theme has
      no bars, no draft is started and the previous draft is kept. */
  function AddTheme(s: Session, base: Doc, k: string, kind: string, nameGs: string, defaultLabel: string): (r: Session)
    requires k !in s.st.edits
    ensures Resolve(r.st, base, k).Some?
    ensures var t := Resolve(r.st, base, k).value;
      && Field(t, LabelField) == Some(ThemeLabel(nameGs, defaultLabel))
      && (forall f :: f != LabelField ==> Field(t, f) == Field(CreateDefaultTheme(kind), f))
      && t.colors == Some([])
    ensures r.st.selected == Some(Selection(k, "")) && r.draft == s.draft
    ensures forall k' :: k' != k ==> Resolve(r.st, base, k') == Resolve(s.st, base, k')
  {
    var st2 := StateStore.SetThemeLabel(StateStore.AddTheme(s.st, k, kind), base, k, ThemeLabel(nameGs, defaultLabel));
    AddLabelledTheme(s.st, base, k, kind, ThemeLabel(nameGs, defaultLabel));
    var st3 := StateStore.SelectTheme(st2, base, k);
    SelectionInvisible(st2, base, st3.selected, st3.barAdjust);
    Session(st3, DraftForSelection(st3, base, s.draft))
  }

  /** The store half of `addTheme`: add the theme, then label it. */
  lemma AddLabelledTheme(st: State, base: Doc, k: string, kind: string, nameGs: string)
    requires k !in st.edits
    ensures var st2 := StateStore.SetThemeLabel(StateStore.AddTheme(st, k, kind), base, k, nameGs);
      && Resolve(st2, base, k) == Some(CreateDefaultTheme(kind).(fields := CreateDefaultTheme(kind).fields[LabelField := nameGs]))
      && forall k' :: k' != k ==> Resolve(st2, base, k') == Resolve(st, base, k')
  {
    var st1 := StateStore.AddTheme(st, k, kind);
    var st2 := StateStore.SetThemeLabel(st1, base, k, nameGs);
    var t := CreateDefaultTheme(kind);
    assert Editable(st1, base, k) == t;
    assert st2.workspaceThemes[k] == t.(fields := t.fields[LabelField := nameGs]);
    assert !Tombstoned(st2, k) && k !in st2.edits;
    forall k' | k' != k ensures Resolve(st2, base, k') == Resolve(st, base, k') {
      ResolveFrame(st2, st, base, k');
    }
  }

  /** `setThemeLabel(k, nameGs)`: the theme shows the new label and keeps
      every other property and its bars. */
  function SetThemeLabel(s: Session, base: Doc, k: string, nameGs: string): (r: Session)
    requires ThemeResolves(s.st, base, k) && k !in s.st.edits
    ensures Resolve(r.st, base, k).Some? && Resolve(s.st, base, k).Some?
    ensures var t, t0 := Resolve(r.st, base, k).value, Resolve(s.st, base, k).value;
      && Field(t, LabelField) == Some(nameGs)
      && (forall f :: f != LabelField ==> Field(t, f) == Field(t0, f))
      && t.colors == t0.colors
    ensures forall k' :: k' != k ==> Resolve(r.st, base, k') == Resolve(s.st, base, k')
    ensures r.draft == s.draft
  {
    var st' := StateStore.SetThemeLabel(s.st, base, k, nameGs);
    assert forall k' :: k' != k ==> Resolve(st', base, k') == Resolve(s.st, base, k') by {
      forall k' | k' != k ensures Resolve(st', base, k') == Resolve(s.st, base, k') {
        ResolveFrame(st', s.st, base, k');
      }
    }
    Session(st', s.draft)
  }

  /** `copyTheme(from, to)`: the store copies the theme, then `to` is
      selected. The draft is restarted on the selected bar when there is
      one, and otherwise kept. */
  function CopyTheme(s: Session, base: Doc, from: string, to: string): (r: Session)
    ensures r.draft != s.draft ==> r.draft.None? || !r.draft.value.dirty
    ensures Resolve(s.st, base, from).Some? && to !in s.st.edits ==>
      && Resolve(r.st, base, to) == Resolve(s.st, base, from)
      && (forall k :: k != to ==> Resolve(r.st, base, k) == Resolve(s.st, base, k))
      && r.st.selected == Some(Selection(to, FirstBar(ResolvedBars(s.st, base, from))))
  {
    var st2 := StateStore.SelectTheme(StateStore.CopyTheme(s.st, base, from, to), base, to);
    CopyThenSelect(s.st, base, from, to);
    Session(st2, DraftForSelection(st2, base, s.draft))
  }

  /** The store half of `copyTheme`: copy, then select the copy. */
  lemma CopyThenSelect(st: State, base: Doc, from: string, to: string)
    ensures var st2 := StateStore.SelectTheme(StateStore.CopyTheme(st, base, from, to), base, to);
      Resolve(st, base, from).Some? && to !in st.edits ==>
        && Resolve(st2, base, to) == Resolve(st, base, from)
        && (forall k :: k != to ==> Resolve(st2, base, k) == Resolve(st, base, k))
        && st2.selected == Some(Selection(to, FirstBar(ResolvedBars(st, base, from))))
  {
    var st1 := StateStore.CopyTheme(st, base, from, to);
    var st2 := StateStore.SelectTheme(st1, base, to);
    SelectionInvisible(st1, base, st2.selected, st2.barAdjust);
    if Resolve(st, base, from).Some? && to !in st.edits {
      CopyThemeResolves(st, base, from, to);
      assert ResolvedBars(st1, base, to) == ResolvedBars(st, base, from);
    }
  }

  /** `deleteTheme(k)`: the theme is tombstoned; when it was the selected
      one, the selection and the draft are cleared, and otherwise both are
      kept. */
  function DeleteTheme(s: Session, base: Doc, k: string): (r: Session)
    ensures Resolve(r.st, base, k).None?
    ensures forall k' :: k' != k ==> Resolve(r.st, base, k') == Resolve(s.st, base, k')
    ensures s.st.selected.Some? && s.st.selected.value.sectionKey == k ==> r.st.selected.None? && r.draft.None?
    ensures !(s.st.selected.Some? && s.st.selected.value.sectionKey == k) ==>
      r.st.selected == s.st.selected && r.draft == s.draft
  {
    var st1 := StateStore.DeleteTheme(s.st, k);
    DeleteThemeHides(s.st, base, k);
    BuildMatchesResolve(st1, base, k);
    if st1.selected.Some? && st1.selected.value.sectionKey == k then
      SelectionInvisible(st1, base, None, st1.barAdjust);
      Session(st1.(selected := None), None)
    else Session(st1, s.draft)
  }

  /** `renameTheme(from, to)`: a copy followed by a delete of `from`. */
  function RenameTheme(s: Session, base: Doc, from: string, to: string): (r: Session)
    ensures Resolve(r.st, base, from).None?
  {
    DeleteTheme(CopyTheme(s, base, from, to), base, from)
  }

  /** Renaming a theme moves it: `to` resolves to what `from` did, `from` no
      longer resolves, no other theme changes, and `to` stays selected. */
  lemma RenameThemeMoves(s: Session, base: Doc, from: string, to: string)
    requires from != to
    requires Resolve(s.st, base, from).Some? && to !in s.st.edits
    ensures var r := RenameTheme(s, base, from, to);
      && Resolve(r.st, base, to) == Resolve(s.st, base, from)
      && Resolve(r.st, base, from).None?
      && (forall k :: k != from && k != to ==> Resolve(r.st, base, k) == Resolve(s.st, base, k))
      && r.st.selected == Some(Selection(to, FirstBar(ResolvedBars(s.st, base, from))))
  {
  }

  /** `addBar(k, bar)`: the bar is written with the default value for the
      theme's style as the editor shows it, selected, and a clean draft of it
      started; the previous draft is dropped without a prompt, even when
      dirty. */
  function AddBar(s: Session, base: Doc, k: string, bar: string, n: nat): (r: Session)
    ensures var ws := Workspace(s, base);
      var v := DefaultBarValue(if k in ws then Field(ws[k], StyleField) else None, n);
      && r.st.selected == Some(Selection(k, bar))
      && (!Tombstoned(s.st, k) && (k !in s.st.edits || bar !in Keys(s.st.edits[k])) ==>
            && Get(ResolvedBars(r.st, base, k), bar) == Some(v)
            && r.draft == Some(DraftRec(k, bar, v, v, NoShift, false)))
  {
    var ws := Workspace(s, base);
    var v := DefaultBarValue(if k in ws then Field(ws[k], StyleField) else None, n);
    WriteThenSelect(s.st, base, k, bar, v);
    var st2 := StateStore.SelectBar(SetBarValue(s.st, base, k, bar, v), k, bar);
    Session(st2, StartDraft(st2, base, k, bar))
  }

  /** Writing a bar and then selecting it: the bar is selected and, when the
      write is not hidden by a tombstone or a legacy edit, it shows the value
      written and a clean draft of that value can be started. */
  lemma WriteThenSelect(st: State, base: Doc, k: string, bar: string, v: Value)
    ensures var st2 := StateStore.SelectBar(SetBarValue(st, base, k, bar, v), k, bar);
      && st2.selected == Some(Selection(k, bar))
      && (!Tombstoned(st, k) && (k !in st.edits || bar !in Keys(st.edits[k])) ==>
            && Get(ResolvedBars(st2, base, k), bar) == Some(v)
            && (!v.Nil? ==> StartDraft(st2, base, k, bar) == Some(DraftRec(k, bar, v, v, NoShift, false))))
  {
    var st1 := SetBarValue(st, base, k, bar, v);
    var st2 := StateStore.SelectBar(st1, k, bar);
    SelectionInvisible(st1, base, st2.selected, st2.barAdjust);
    assert Resolve(st2, base, k) == Resolve(st1, base, k);
    if !Tombstoned(st, k) && (k !in st.edits || bar !in Keys(st.edits[k])) {
      SetBarValueResolves(st, base, k, bar, v);
    }
  }

  /** `copyBar(k, from, to)`: nothing happens unless the editor shows a
      value for `from`; otherwise that value (the draft's, when `from` is the
      bar under edit) is written under `to`, which is selected with a clean
      draft. */
  function CopyBar(s: Session, base: Doc, k: string, from: string, to: string): (r: Session)
    ensures BarValueIn(Workspace(s, base), k, from).None? ==> r == s
    ensures BarValueIn(Workspace(s, base), k, from).Some? ==>
      var v := BarValueIn(Workspace(s, base), k, from).value;
      && r.st.selected == Some(Selection(k, to))
      && (!Tombstoned(s.st, k) && (k !in s.st.edits || to !in Keys(s.st.edits[k])) ==>
            && Get(ResolvedBars(r.st, base, k), to) == Some(v)
            && r.draft == Some(DraftRec(k, to, v, v, NoShift, false)))
  {
    match BarValueIn(Workspace(s, base), k, from)
    case None => s
    case Some(v) =>
      WriteThenSelect(s.st, base, k, to, v);
      var st2 := StateStore.SelectBar(SetBarValue(s.st, base, k, to, v), k, to);
      Session(st2, StartDraft(st2, base, k, to))
  }

  /** Copying the bar under edit copies its uncommitted value, not the
      stored one. */
  lemma CopyBarTakesDraftValue(s: Session, base: Doc, to: string)
    requires s.draft.Some? && s.draft.value.sectionKey != "" && s.draft.value.barName != ""
    requires s.draft.value.value != Nil
    requires Resolve(s.st, base, s.draft.value.sectionKey).Some?
    ensures BarValueIn(Workspace(s, base), s.draft.value.sectionKey, s.draft.value.barName) == Some(s.draft.value.value)
  {
    BuildMatchesResolve(s.st, base, s.draft.value.sectionKey);
  }

  /** The renames the handler can show: `from` has a value, `to` is new or
      `from` itself, and no legacy edits for the theme are pending. */
  predicate RenameFits(st: State, base: Doc, k: string, from: string, to: string) {
    && Resolves(ResolvedBars(st, base, k), from)
    && (to == from || to !in Keys(ResolvedBars(st, base, k)))
    && k !in st.edits
  }

  /** `renameBar(k, from, to)`: the store renames the bar, then `to` is
      selected and a draft of it started; the previous draft is dropped
      without a prompt, even when dirty. */
  function RenameBar(s: Session, base: Doc, k: string, from: string, to: string): (r: Session)
    ensures r.st.selected == Some(Selection(k, to))
    ensures forall k' :: k' != k ==> Resolve(r.st, base, k') == Resolve(s.st, base, k')
    ensures RenameFits(s.st, base, k, from, to) ==>
      && ResolvedBars(r.st, base, k) == Relabel(ResolvedBars(s.st, base, k), from, to)
      && r.draft.Some? && r.draft.value.barName == to && !r.draft.value.dirty
      && Get(ResolvedBars(s.st, base, k), from) == Some(r.draft.value.value)
  {
    var st1 := StateStore.RenameBar(s.st, base, k, from, to);
    var st2 := StateStore.SelectBar(st1, k, to);
    SelectionInvisible(st1, base, st2.selected, st2.barAdjust);
    RenameBarStore(s.st, base, k, from, to);
    Session(st2, StartDraft(st2, base, k, to))
  }

  /** The store half of `renameBar`: the theme's bars are relabelled in
      place, so `to` holds what `from` held; no other theme changes. */
  lemma RenameBarStore(st: State, base: Doc, k: string, from: string, to: string)
    ensures forall k' :: k' != k ==> Resolve(StateStore.RenameBar(st, base, k, from, to), base, k') == Resolve(st, base, k')
    ensures RenameFits(st, base, k, from, to) ==>
      && ResolvedBars(StateStore.RenameBar(st, base, k, from, to), base, k) == Relabel(ResolvedBars(st, base, k), from, to)
      && Get(ResolvedBars(StateStore.RenameBar(st, base, k, from, to), base, k), to) == Get(ResolvedBars(st, base, k), from)
  {
    OtherThemesKept(st, StateStore.RenameBar(st, base, k, from, to), base, k);
    if RenameFits(st, base, k, from, to) {
      RenameBarInPlace(st, base, k, from, to);
      RelabelGet(ResolvedBars(st, base, k), from, to);
    }
  }

  /** A store change that writes only the override of `k` leaves every
      other theme as it resolved. */
  lemma OtherThemesKept(st: State, st': State, base: Doc, k: string)
    requires st' == st.(workspaceThemes := st'.workspaceThemes)
    requires forall k' :: k' != k ==> Lookup(st'.workspaceThemes, k') == Lookup(st.workspaceThemes, k')
    ensures forall k' :: k' != k ==> Resolve(st', base, k') == Resolve(st, base, k')
  {
    forall k' | k' != k ensures Resolve(st', base, k') == Resolve(st, base, k') {
      ResolveFrame(st', st, base, k');
    }
  }

  /** `deleteBar(k, bar)`: the bar is removed; the first remaining bar of
      the theme is selected with a draft, or, when none remains, the theme
      with an empty bar name and no draft. */
  function DeleteBar(s: Session, base: Doc, k: string, bar: string): (r: Session)
    ensures forall k' :: k' != k ==> Resolve(r.st, base, k') == Resolve(s.st, base, k')
    ensures var rest := Keys(ResolvedBars(r.st, base, k));
      && (|rest| == 0 ==> r.st.selected == Some(Selection(k, "")) && r.draft.None?)
      && (|rest| > 0 ==> r.st.selected == Some(Selection(k, rest[0])) && r.draft == StartDraft(r.st, base, k, rest[0]))
    ensures ThemeResolves(s.st, base, k) && k !in s.st.edits ==>
      Keys(ResolvedBars(r.st, base, k)) == Without(Keys(ResolvedBars(s.st, base, k)), bar)
  {
    var st1 := StateStore.DeleteBar(s.st, base, k, bar);
    OtherThemesKept(s.st, st1, base, k);
    DeleteBarKeys(s.st, base, k, bar);
    var names := Keys(ResolvedBars(st1, base, k));
    if |names| > 0 then
      var st2 := StateStore.SelectBar(st1, k, names[0]);
      SelectionInvisible(st1, base, st2.selected, st2.barAdjust);
      Session(st2, StartDraft(st2, base, k, names[0]))
    else
      SelectionInvisible(st1, base, Some(Selection(k, "")), st1.barAdjust);
      Session(st1.(selected := Some(Selection(k, ""))), None)
  }

  /** `moveBar(k, bar, delta)`: the bar trades places with the one `delta`
      positions away, stays selected, and a clean draft of its unchanged
      value is started; the previous draft is dropped without a prompt,
      even when dirty. */
  function MoveBar(s: Session, base: Doc, k: string, bar: string, delta: int): (r: Session)
    ensures r.st.selected == Some(Selection(k, bar))
    ensures forall k' :: k' != k ==> Resolve(r.st, base, k') == Resolve(s.st, base, k')
    ensures Resolves(ResolvedBars(s.st, base, k), bar) && k !in s.st.edits ==>
      && (forall b :: Get(ResolvedBars(r.st, base, k), b) == Get(ResolvedBars(s.st, base, k), b))
      && r.draft.Some? && r.draft.value.barName == bar && !r.draft.value.dirty
      && Get(ResolvedBars(s.st, base, k), bar) == Some(r.draft.value.value)
  {
    var st1 := StateStore.MoveBar(s.st, base, k, bar, delta);
    var st2 := StateStore.SelectBar(st1, k, bar);
    SelectionInvisible(st1, base, st2.selected, st2.barAdjust);
    OtherThemesKept(s.st, st1, base, k);
    if Resolves(ResolvedBars(s.st, base, k), bar) && k !in s.st.edits then
      MoveBarKeepsValues(s.st, base, k, bar, delta);
      Session(st2, StartDraft(st2, base, k, bar))
    else Session(st2, StartDraft(st2, base, k, bar))
  }

  /** Moving a bar changes the order of a theme's bars and no value. */
  lemma MoveBarKeepsValues(st: State, base: Doc, k: string, bar: string, delta: int)
    requires Resolves(ResolvedBars(st, base, k), bar) && k !in st.edits
    ensures forall b :: Get(ResolvedBars(StateStore.MoveBar(st, base, k, bar, delta), base, k), b) == Get(ResolvedBars(st, base, k), b)
  {
    var st1 := StateStore.MoveBar(st, base, k, bar, delta);
    SwapKeepsEntries(ResolvedBars(st, base, k), bar, delta);
    assert ResolvedBars(st1, base, k) == SwapKeyOrder(ResolvedBars(st, base, k), bar, delta);
  }

  /** The store half of `deleteBar`: with no pending legacy edits for the
      theme, exactly the deleted name leaves its list of bars. */
  lemma DeleteBarKeys(st: State, base: Doc, k: string, bar: string)
    ensures ThemeResolves(st, base, k) && k !in st.edits ==>
      Keys(ResolvedBars(StateStore.DeleteBar(st, base, k, bar), base, k)) == Without(Keys(ResolvedBars(st, base, k)), bar)
  {
    if ThemeResolves(st, base, k) && k !in st.edits {
      DeleteBarRemovesOne(st, base, k, bar);
    }
  }
}

=== FILE: bar_values.dfy ===
/** Computing a bar's new colour data from an edit: the default value of a
    new bar, a single swatch replacement, and an HSL shift of every colour. */
module BarValues {
  import opened Wrappers
  import opened JsValues
  import opened HexColor

  /** `b` is `a` after `a[i] = x`: the same length unless `i` lies past the
      end (then the gap is left as holes), `x` at `i`, every other element
      as it was. */
  predicate Edited(a: seq<Value>, b: seq<Value>, i: nat, x: Value) {
    && |b| == (if i < |a| then |a| else i + 1)
    && b[i] == x
    && (forall j :: 0 <= j < |a| && j != i ==> b[j] == a[j])
    && (forall j :: |a| <= j < i ==> b[j] == Hole)
  }

  /** The ramps of a pair-shaped value. */
  function Left(v: Value): seq<Value>
    requires IsPair(v)
  {
    v.elems[0].elems
  }

  function Right(v: Value): seq<Value>
    requires IsPair(v)
  {
    v.elems[1].elems
  }

  /** `defaultBarValue`: two all-black ramps of `n` steps for a PS1 theme,
      one all-black ramp otherwise. */
  function DefaultBarValue(style: Option<string>, n: nat): (v: Value)
    ensures IsPs1Style(style) <==> IsPair(v)
    ensures IsPs1Style(style) ==> |v.elems| == 2 && Left(v) == Blacks(n) && Right(v) == Blacks(n)
    ensures !IsPs1Style(style) ==> v.Arr? && v.elems == Blacks(n)
  {
    if IsPs1Style(style) then Arr([Arr(Blacks(n)), Arr(Blacks(n))])
    else Arr(Blacks(n))
  }

  /** A spread copy of ramp `k` of the current value when it is an array
      whose element `k` is an array, otherwise an all-black ramp of `n` steps. */
  function RampOrBlack(current: Value, k: nat, n: nat): seq<Value> {
    if current.Arr? && At(current.elems, k).Arr? then Spread(At(current.elems, k).elems) else Blacks(n)
  }

  /** A spread copy of the current value when it is an array, otherwise an
      all-black ramp of `n` steps. */
  function FlatOrBlack(current: Value, n: nat): seq<Value> {
    if current.Arr? then Spread(current.elems) else Blacks(n)
  }

  /** Element `colorIndex` of one ramp replaced by `x`, the step both the
      current and the legacy swatch editors share. For a PS1 theme
      `ps1RampIndex == 1` edits the right ramp and any other index the left
      one; the other ramp is kept as it was. A value of the wrong shape is
      first replaced by all-black ramps of `n` steps. */
  function ReplaceSwatch(style: Option<string>, current: Value, n: nat, ps1RampIndex: int,
                         colorIndex: nat, x: Value): (r: Value)
    ensures r.Arr?
    ensures IsPs1Style(style) ==> IsPair(r) && |r.elems| == 2
    ensures IsPs1Style(style) && ps1RampIndex == 1 ==>
      && Left(r) == RampOrBlack(current, 0, n)
      && Edited(RampOrBlack(current, 1, n), Right(r), colorIndex, x)
    ensures IsPs1Style(style) && ps1RampIndex != 1 ==>
      && Right(r) == RampOrBlack(current, 1, n)
      && Edited(RampOrBlack(current, 0, n), Left(r), colorIndex, x)
    ensures !IsPs1Style(style) ==> Edited(FlatOrBlack(current, n), r.elems, colorIndex, x)
  {
    if IsPs1Style(style) then
      var left, right := RampOrBlack(current, 0, n), RampOrBlack(current, 1, n);
      if ps1RampIndex == 1 then Arr([Arr(left), Arr(SetAt(right, colorIndex, x))])
      else Arr([Arr(SetAt(left, colorIndex, x)), Arr(right)])
    else
      Arr(SetAt(FlatOrBlack(current, n), colorIndex, x))
  }

  /** Different colours written at the same swatch give different values. */
  lemma ReplaceSwatchInjective(style: Option<string>, current: Value, n: nat, ps1RampIndex: int,
                               colorIndex: nat, x: Value, y: Value)
    requires x != y
    ensures ReplaceSwatch(style, current, n, ps1RampIndex, colorIndex, x)
      != ReplaceSwatch(style, current, n, ps1RampIndex, colorIndex, y)
  {
    var rx := ReplaceSwatch(style, current, n, ps1RampIndex, colorIndex, x);
    var ry := ReplaceSwatch(style, current, n, ps1RampIndex, colorIndex, y);
    if !IsPs1Style(style) {
      assert rx.elems[colorIndex] != ry.elems[colorIndex];
    } else if ps1RampIndex == 1 {
      assert Right(rx)[colorIndex] != Right(ry)[colorIndex];
    } else {
      assert Left(rx)[colorIndex] != Left(ry)[colorIndex];
    }
  }

  /** `applySwatchChange`: colour `colorIndex` of one ramp becomes the
      normalised `colorHex`, black when it does not normalise; the stored
      text is therefore always canonical. */
  function ApplySwatchChange(style: Option<string>, current: Value, n: nat, ps1RampIndex: int,
                             colorIndex: nat, colorHex: string): (r: Value)
    ensures r.Arr?
    ensures IsPs1Style(style) ==> IsPair(r) && |r.elems| == 2
    ensures IsPs1Style(style) && ps1RampIndex == 1 ==>
      && Left(r) == RampOrBlack(current, 0, n)
      && Edited(RampOrBlack(current, 1, n), Right(r), colorIndex, Str(NormalizeOrBlack(colorHex)))
    ensures IsPs1Style(style) && ps1RampIndex != 1 ==>
      && Right(r) == RampOrBlack(current, 1, n)
      && Edited(RampOrBlack(current, 0, n), Left(r), colorIndex, Str(NormalizeOrBlack(colorHex)))
    ensures !IsPs1Style(style) ==>
      Edited(FlatOrBlack(current, n), r.elems, colorIndex, Str(NormalizeOrBlack(colorHex)))
  {
    ReplaceSwatch(style, current, n, ps1RampIndex, colorIndex, Str(NormalizeOrBlack(colorHex)))
  }

  /** The colour element `c` becomes under `map((c) => adjustHexHsl(String(c), ...))`;
      `map` leaves a hole as it is. */
  function AdjustElement(c: Value, d: Hsl, shift: HslShift): (r: Value)
    ensures c == Hole <==> r == Hole
    ensures c != Hole ==> r.Str? && IsCanonical(r.s)
    ensures c != Hole && Normalize(Text(c)).None? ==> r == Str(Black)
  {
    if c == Hole then Hole else Str(AdjustHexHsl(Text(c), d, shift))
  }

  /** Every colour of a ramp shifted: element `i` of the result depends on
      element `i` of the input alone. */
  function AdjustRamp(ramp: seq<Value>, d: Hsl, shift: HslShift): (r: seq<Value>)
    ensures |r| == |ramp|
    ensures forall i :: 0 <= i < |ramp| ==> (r[i] == Hole <==> ramp[i] == Hole)
    ensures forall i :: 0 <= i < |ramp| && ramp[i] != Hole ==> r[i].Str? && IsCanonical(r[i].s)
    ensures forall i :: 0 <= i < |ramp| && ramp[i] != Hole && Normalize(Text(ramp[i])).None? ==> r[i] == Str(Black)
    ensures forall i :: 0 <= i < |ramp| && ramp[i] != Hole ==> r[i] == Str(AdjustHexHsl(Text(ramp[i]), d, shift))
  {
    seq(|ramp|, i requires 0 <= i < |ramp| => AdjustElement(ramp[i], d, shift))
  }

  /** `adjustBarValueAbsolute(value, h, s, l)`: a pair keeps its shape and
      its ramp lengths, a flat array its length, every colour is shifted
      (black when it is not a valid colour), holes stay holes, and any other
      value is returned as it is. */
  function AdjustBarValueAbsolute(v: Value, d: Hsl, shift: HslShift): (r: Value)
    ensures IsPair(v) ==>
      && IsPair(r) && |r.elems| == 2
      && |Left(r)| == |Left(v)| && |Right(r)| == |Right(v)|
      && (forall i :: 0 <= i < |Left(v)| ==> Left(r)[i] == AdjustElement(Left(v)[i], d, shift))
      && (forall i :: 0 <= i < |Right(v)| ==> Right(r)[i] == AdjustElement(Right(v)[i], d, shift))
    ensures v.Arr? && !IsPair(v) ==>
      && r.Arr? && |r.elems| == |v.elems|
      && (forall i :: 0 <= i < |v.elems| ==> r.elems[i] == AdjustElement(v.elems[i], d, shift))
    ensures !v.Arr? ==> r == v
  {
    if IsPair(v) then Arr([Arr(AdjustRamp(Left(v), d, shift)), Arr(AdjustRamp(Right(v), d, shift))])
    else if v.Arr? then Arr(AdjustRamp(v.elems, d, shift))
    else v
  }


  /** An array with no holes, which spreading copies as it is. */
  predicate HoleFree(a: seq<Value>) {
    forall i :: 0 <= i < |a| ==> a[i] != Hole
  }

  lemma SpreadHoleFree(a: seq<Value>)
    ensures HoleFree(Spread(a))
    ensures HoleFree(a) ==> Spread(a) == a
  {
  }

  /** The ramp a swatch change edits, before the edit. */
  function EditedRamp(style: Option<string>, current: Value, n: nat, ps1RampIndex: int): seq<Value> {
    if !IsPs1Style(style) then FlatOrBlack(current, n)
    else if ps1RampIndex == 1 then RampOrBlack(current, 1, n)
    else RampOrBlack(current, 0, n)
  }

  /** Picking the same colour for the same swatch again changes nothing when
      the swatch lies inside its ramp: the first change already gives the
      value the right shape and no holes, so the second one keeps every ramp
      and rewrites an element with what it holds. (Past the end of the ramp
      the first change leaves holes that the second one's spread copy turns
      into undefined entries.) */
  lemma SwatchChangeIdempotent(style: Option<string>, current: Value, n: nat, ps1RampIndex: int,
                               colorIndex: nat, colorHex: string)
    requires colorIndex < |EditedRamp(style, current, n, ps1RampIndex)|
    ensures var once := ApplySwatchChange(style, current, n, ps1RampIndex, colorIndex, colorHex);
      ApplySwatchChange(style, once, n, ps1RampIndex, colorIndex, colorHex) == once
  {
    var x := Str(NormalizeOrBlack(colorHex));
    var once := ApplySwatchChange(style, current, n, ps1RampIndex, colorIndex, colorHex);
    if IsPs1Style(style) {
      var left, right := RampOrBlack(current, 0, n), RampOrBlack(current, 1, n);
      SpreadHoleFree(left);
      SpreadHoleFree(right);
      var l, r := Left(once), Right(once);
      assert HoleFree(l) && HoleFree(r);
      SpreadHoleFree(l);
      SpreadHoleFree(r);
      assert RampOrBlack(once, 0, n) == l && RampOrBlack(once, 1, n) == r by {
        assert At(once.elems, 0) == Arr(l) && At(once.elems, 1) == Arr(r);
      }
      if ps1RampIndex == 1 {
        assert r[colorIndex := x] == r;
      } else {
        assert l[colorIndex := x] == l;
      }
    } else {
      var ramp := FlatOrBlack(current, n);
      SpreadHoleFree(ramp);
      assert HoleFree(once.elems);
      SpreadHoleFree(once.elems);
      assert once.elems[colorIndex := x] == once.elems;
    }
  }
}

=== FILE: document.dfy ===
/** The configuration document: a mapping from theme keys to theme sections. */
module Document {
  import opened Wrappers
  import opened OrderedMap

  /** One theme section of the document. `fields` holds its string-valued
      properties (`style`, `border_light`, `border_dark`, `border_tl`,
      `border_tr`, `border_br`, `border_bl`, `name_gs`); `scale` is the one
      numeric property, passed through untouched; `colors` is the ordered bar
      map, `None` when the section has no `colors` object. */
  datatype Section = Section(fields: map<string, string>, scale: Option<real>, colors: Option<Bars>)

  /** A parsed document, or a resolved workspace: theme key to section. */
  type Doc = map<string, Section>

  const StyleField: string := "style"
  const BorderLight: string := "border_light"
  const BorderDark: string := "border_dark"
  const BorderTl: string := "border_tl"
  const BorderTr: string := "border_tr"
  const BorderBr: string := "border_br"
  const BorderBl: string := "border_bl"
  const LabelField: string := "name_gs"

  /** `section[name]`, `None` when the property is missing. */
  function Field(s: Section, name: string): Option<string> {
    if name in s.fields then Some(s.fields[name]) else None
  }

  /** `section[name] || fallback`: a missing or empty property gives `fallback`. */
  function FieldOr(s: Section, name: string, fallback: string): (r: string)
    ensures name !in s.fields || s.fields[name] == "" ==> r == fallback
    ensures name in s.fields && s.fields[name] != "" ==> r == s.fields[name]
  {
    if name in s.fields && s.fields[name] != "" then s.fields[name] else fallback
  }

  /** `section.colors || {}`. */
  function BarsOf(s: Section): Bars {
    s.colors.GetOr([])
  }
}

=== FILE: draft.dfy ===
/** The uncommitted edit of one bar: a snapshot of the bar when editing
    began, the value being edited, the HSL shift last applied to the
    snapshot, and whether anything changed. */
module Draft {
  import opened Wrappers
  import opened JsValues
  import opened OrderedMap
  import opened Document
  import opened HexColor
  import opened BarValues
  import opened StateStore

  datatype DraftRec = DraftRec(sectionKey: string, barName: string, snapshot: Value, value: Value,
                               hsl: Hsl, dirty: bool)

  /** `section?.colors ? section.colors[bar] : null` in a workspace, `None`
      when that is null or undefined. */
  function BarValueIn(ws: Doc, k: string, bar: string): (r: Option<Value>)
    ensures r.Some? <==> k in ws && ws[k].colors.Some? && Resolves(ws[k].colors.value, bar)
    ensures r.Some? ==> r.value != Nil && Get(ws[k].colors.value, bar) == Some(r.value)
  {
    if k in ws && ws[k].colors.Some? && Resolves(ws[k].colors.value, bar) then Some(ValueOf(ws[k].colors.value, bar))
    else None
  }

  /** In the store's workspace, a bar has a value exactly when it resolves. */
  lemma BarValueInWorkspace(st: State, base: Doc, k: string, bar: string)
    ensures BarValueIn(BuildWorkspaceData(st, base), k, bar).Some? <==> Resolves(ResolvedBars(st, base, k), bar)
    ensures BarValueIn(BuildWorkspaceData(st, base), k, bar).Some? ==>
      Get(ResolvedBars(st, base, k), bar) == Some(BarValueIn(BuildWorkspaceData(st, base), k, bar).value)
  {
    BuildMatchesResolve(st, base, k);
  }

  /** `startDraft(k, bar)`: no draft when the bar does not resolve;
      otherwise a clean draft whose snapshot and value are both the bar's
      resolved value. */
  function StartDraft(st: State, base: Doc, k: string, bar: string): (d: Option<DraftRec>)
    ensures d.None? <==> !Resolves(ResolvedBars(st, base, k), bar)
    ensures d.Some? ==>
      && d.value.sectionKey == k && d.value.barName == bar
      && Get(ResolvedBars(st, base, k), bar) == Some(d.value.snapshot)
      && d.value.value == d.value.snapshot && d.value.hsl == NoShift && !d.value.dirty
  {
    BarValueInWorkspace(st, base, k, bar);
    match BarValueIn(BuildWorkspaceData(st, base), k, bar)
    case None => None
    case Some(v) => Some(DraftRec(k, bar, v, v, NoShift, false))
  }

  /** `cancelDraft()`. */
  function CancelDraft(): (d: Option<DraftRec>)
    ensures d.None?
  {
    None
  }

  /** `resetDraft()`: no draft stays no draft; otherwise the value goes back
      to the snapshot, the shift to zero and the draft becomes clean. */
  function ResetDraft(d: Option<DraftRec>): (r: Option<DraftRec>)
    ensures d.None? <==> r.None?
    ensures d.Some? ==>
      && r.value.sectionKey == d.value.sectionKey && r.value.barName == d.value.barName
      && r.value.snapshot == d.value.snapshot
      && r.value.value == d.value.snapshot && r.value.hsl == NoShift && !r.value.dirty
  {
    match d
    case None => None
    case Some(x) => Some(x.(value := x.snapshot, hsl := NoShift, dirty := false))
  }

  /** `setDraftValue(k, bar, v)`: on the draft's own bar the value is
      replaced and the draft marked dirty; for another bar, or with no draft,
      a dirty draft of that bar is begun from its resolved value, unless the
      bar does not resolve, in which case the draft is left as it was. */
  function SetDraftValue(st: State, base: Doc, d: Option<DraftRec>, k: string, bar: string, v: Value): (r: Option<DraftRec>)
    ensures d.Some? && d.value.sectionKey == k && d.value.barName == bar ==>
      r == Some(d.value.(value := v, dirty := true))
    ensures (d.None? || d.value.sectionKey != k || d.value.barName != bar) ==>
      if !Resolves(ResolvedBars(st, base, k), bar) then r == d
      else
        && r.Some? && r.value.sectionKey == k && r.value.barName == bar
        && Get(ResolvedBars(st, base, k), bar) == Some(r.value.snapshot)
        && r.value.value == v && r.value.hsl == NoShift && r.value.dirty
  {
    if d.None? || d.value.sectionKey != k || d.value.barName != bar then
      BarValueInWorkspace(st, base, k, bar);
      match BarValueIn(BuildWorkspaceData(st, base), k, bar)
      case None => d
      case Some(snapshot) => Some(DraftRec(k, bar, snapshot, v, NoShift, true))
    else
      Some(d.value.(value := v, dirty := true))
  }

  /** `setDraftHsl(h, s, l)`: the value always becomes the snapshot shifted
      by the new amounts, never the current value shifted again. With no
      draft, a draft of the selected bar is begun from its resolved value;
      nothing happens when nothing is selected or the selected bar does not
      resolve. */
  function SetDraftHsl(st: State, base: Doc, d: Option<DraftRec>, hsl: Hsl, shift: HslShift): (r: Option<DraftRec>)
    ensures d.Some? ==>
      r == Some(d.value.(hsl := hsl, value := AdjustBarValueAbsolute(d.value.snapshot, hsl, shift), dirty := true))
    ensures d.None? && st.selected.None? ==> r.None?
    ensures d.None? && st.selected.Some? ==>
      var sel := st.selected.value;
      if !Resolves(ResolvedBars(st, base, sel.sectionKey), sel.barName) then r.None?
      else
        && r.Some? && r.value.sectionKey == sel.sectionKey && r.value.barName == sel.barName
        && Get(ResolvedBars(st, base, sel.sectionKey), sel.barName) == Some(r.value.snapshot)
        && r.value.value == AdjustBarValueAbsolute(r.value.snapshot, hsl, shift)
        && r.value.hsl == hsl && r.value.dirty
  {
    match d
    case Some(x) => Some(x.(hsl := hsl, value := AdjustBarValueAbsolute(x.snapshot, hsl, shift), dirty := true))
    case None =>
      match st.selected
      case None => None
      case Some(sel) =>
        BarValueInWorkspace(st, base, sel.sectionKey, sel.barName);
        match BarValueIn(BuildWorkspaceData(st, base), sel.sectionKey, sel.barName)
        case None => None
        case Some(snapshot) =>
          Some(DraftRec(sel.sectionKey, sel.barName, snapshot, AdjustBarValueAbsolute(snapshot, hsl, shift), hsl, true))
  }

  /** Applying the same shift twice is applying it once. */
  lemma SetDraftHslIdempotent(st: State, base: Doc, d: Option<DraftRec>, hsl: Hsl, shift: HslShift)
    ensures SetDraftHsl(st, base, SetDraftHsl(st, base, d, hsl, shift), hsl, shift) == SetDraftHsl(st, base, d, hsl, shift)
  {
  }

  /** A shift discards any swatch edit made on the draft's bar since the
      snapshot was taken. */
  lemma HslDiscardsSwatchEdits(st: State, base: Doc, x: DraftRec, v: Value, hsl: Hsl, shift: HslShift)
    ensures SetDraftHsl(st, base, SetDraftValue(st, base, Some(x), x.sectionKey, x.barName, v), hsl, shift)
      == SetDraftHsl(st, base, Some(x), hsl, shift)
  {
  }

  /** Resetting undoes every edit of the draft's bar: after any run of
      shifts and value changes on the same bar, a reset gives what a reset
      of the starting draft gives. */
  lemma ResetUndoesEdits(st: State, base: Doc, x: DraftRec, v: Value, hsl: Hsl, shift: HslShift)
    ensures ResetDraft(SetDraftHsl(st, base, Some(x), hsl, shift)) == ResetDraft(Some(x))
    ensures ResetDraft(SetDraftValue(st, base, Some(x), x.sectionKey, x.barName, v)) == ResetDraft(Some(x))
  {
  }

  /** A freshly started draft is already reset. */
  lemma StartedIsReset(st: State, base: Doc, k: string, bar: string)
    ensures ResetDraft(StartDraft(st, base, k, bar)) == StartDraft(st, base, k, bar)
  {
  }

  /** `confirmDraft()`: no draft, nothing happens; otherwise the draft's
      value is written to its bar through `setEditedBarValue` (which also
      selects the bar) and the draft ends. */
  function ConfirmDraft(st: State, base: Doc, d: Option<DraftRec>): (r: (State, Option<DraftRec>))
    ensures d.None? ==> r == (st, d)
    ensures d.Some? ==>
      && r.1.None?
      && r.0 == SetEditedBarValue(st, base, d.value.sectionKey, d.value.barName, d.value.value)
  {
    match d
    case None => (st, d)
    case Some(x) => (SetEditedBarValue(st, base, x.sectionKey, x.barName, x.value), None)
  }

  /** A confirmed value is what the workspace then shows for the bar (unless
      the theme is tombstoned or a legacy edit of the bar sits on top). */
  lemma ConfirmShows(st: State, base: Doc, x: DraftRec)
    requires !Tombstoned(st, x.sectionKey)
    requires x.sectionKey !in st.edits || x.barName !in Keys(st.edits[x.sectionKey])
    ensures var r := ConfirmDraft(st, base, Some(x)).0;
      Get(ResolvedBars(r, base, x.sectionKey), x.barName) == Some(x.value)
      && r.selected == Some(Selection(x.sectionKey, x.barName))
  {
    SetBarValueResolves(st, base, x.sectionKey, x.barName, x.value);
    var r := ConfirmDraft(st, base, Some(x)).0;
    ResolveFrame(r, SetBarValue(st, base, x.sectionKey, x.barName, x.value), base, x.sectionKey);
  }

  /** Whether moving the focus to (`nextKey`, `nextBar`) leaves a dirty
      draft's bar: another bar, nothing at all, or another theme. Re-selecting
      the same bar, or the draft's own theme, does not. */
  predicate LeavesDraft(x: DraftRec, nextKey: Option<string>, nextBar: Option<string>) {
    var switchingBar := nextKey.Some? && nextBar.Some? && (nextKey.value != x.sectionKey || nextBar.value != x.barName);
    var leavingSelection := nextKey.None? && nextBar.None?;
    var switchingThemeOnly := nextKey.Some? && nextBar.None? && nextKey.value != x.sectionKey;
    switchingBar || leavingSelection || switchingThemeOnly
  }

  /** `maybePromptToResolveDraft(nextKey, nextBar)` with `ok` the answer to
      the save prompt. It always lets the caller proceed, so only the new
      state and draft are returned: unchanged without a dirty draft or when
      the focus does not leave it; otherwise the draft is confirmed when the
      answer is yes and dropped when it is no. */
  function MaybePrompt(st: State, base: Doc, d: Option<DraftRec>, nextKey: Option<string>, nextBar: Option<string>,
                       ok: bool): (r: (State, Option<DraftRec>))
    ensures d.None? || !d.value.dirty ==> r == (st, d)
    ensures d.Some? && d.value.dirty && !LeavesDraft(d.value, nextKey, nextBar) ==> r == (st, d)
    ensures d.Some? && d.value.dirty && LeavesDraft(d.value, nextKey, nextBar) ==>
      && r.1.None?
      && (ok ==> r.0 == SetEditedBarValue(st, base, d.value.sectionKey, d.value.barName, d.value.value))
      && (!ok ==> r.0 == st)
  {
    if d.None? || !d.value.dirty then (st, d)
    else if LeavesDraft(d.value, nextKey, nextBar) then
      if ok then ConfirmDraft(st, base, d) else (st, CancelDraft())
    else (st, d)
  }

  /** The editor's whole `resetEdits()`: nothing happens without edits or
      without the user's confirmation `ok`; otherwise the store is reset and
      the draft restarted on the selected bar, or dropped when nothing is
      selected. */
  function ResetAllEdits(st: State, base: Doc, d: Option<DraftRec>, ok: bool): (r: (State, Option<DraftRec>))
    ensures !HasAnyEdits(st) || !ok ==> r == (st, d)
    ensures HasAnyEdits(st) && ok ==>
      && r.0 == ResetEdits(st)
      && (st.selected.None? ==> r.1.None?)
      && (st.selected.Some? ==> r.1 == StartDraft(r.0, base, st.selected.value.sectionKey, st.selected.value.barName))
  {
    if !HasAnyEdits(st) || !ok then (st, d)
    else
      var st' := ResetEdits(st);
      match st'.selected
      case None => (st', None)
      case Some(sel) => (st', StartDraft(st', base, sel.sectionKey, sel.barName))
  }

  /** After a confirmed reset, a restarted draft begins from the document's
      own value of the selected bar. */
  lemma ResetDraftsFromDocument(st: State, base: Doc, d: Option<DraftRec>)
    requires HasAnyEdits(st) && st.selected.Some?
    ensures var r := ResetAllEdits(st, base, d, true);
      r.1.Some? ==>
        BarValueIn(PlainWorkspace(base), r.1.value.sectionKey, r.1.value.barName) == Some(r.1.value.snapshot)
  {
    var st' := ResetEdits(st);
    NoEditsShowsDocument(st', base);
    var sel := st.selected.value;
    BarValueInWorkspace(st', base, sel.sectionKey, sel.barName);
  }
}

=== FILE: draw.dfy ===
/** The bar preview as a list of abstract drawing commands: the frame, the
    black backdrop, and the coloured bands that fill a share of it. */
module Draw {
  import opened Wrappers
  import opened JsValues
  import opened HexColor
  import opened Theme

  datatype Rect = Rect(x: int, y: int, w: int, h: int)

  /** What `drawBarPreview` asks the canvas to paint, in order. Colours are
      bar values as the theme holds them: a bilinear quad parses its corner
      colours (an invalid one becomes black), while solid rects and gradients
      hand theirs to the canvas as CSS colour strings. */
  datatype DrawCmd =
    | SolidRect(rect: Rect, color: Value)
    | VerticalGradient(rect: Rect, top: Value, bottom: Value)
    | BilinearQuad(rect: Rect, tl: Value, tr: Value, br: Value, bl: Value)
  {
    function Area(): Rect {
      match this
      case SolidRect(r, _) => r
      case VerticalGradient(r, _, _) => r
      case BilinearQuad(r, _, _, _, _) => r
    }
  }

  function Max(a: int, b: int): int {
    if a >= b then a else b
  }

  /** `Math.min(1, Math.max(0, x))`. */
  function Clamp01(x: real): (r: real)
    ensures 0.0 <= r <= 1.0
    ensures 0.0 <= x <= 1.0 ==> r == x
    ensures x >= 1.0 ==> r == 1.0
    ensures x <= 0.0 ==> r == 0.0
  {
    if x > 1.0 then 1.0 else if x < 0.0 then 0.0 else x
  }

  /** Border thickness, also used as the padding: one `(n + 4)`-th of the
      height, at least one pixel. */
  function Border(h: int, n: nat): (b: int)
    ensures b >= 1
    ensures b * (n + 4) <= h || b == 1
    ensures h < (b + 1) * (n + 4)
  {
    Max(1, h / (n + 4))
  }

  /** The black backdrop: inset by `border` on every side, never of negative
      size. */
  function InnerRect(w: int, h: int, border: int): (r: Rect)
    ensures r.x == border && r.y == border
    ensures r.w >= 0 && r.h >= 0
    ensures w - 2 * border >= 0 ==> r.w == w - 2 * border
    ensures h - 2 * border >= 0 ==> r.h == h - 2 * border
  {
    Rect(border, border, Max(0, w - border * 2), Max(0, h - border * 2))
  }

  /** The coloured part: inset by `padding` inside the backdrop, and only
      `percent` (clamped to [0, 1]) of its width, rounded down. */
  function FillRect(inner: Rect, padding: int, percent: real): (r: Rect)
    ensures r.x == inner.x + padding && r.y == inner.y + padding
    ensures 0 <= r.h && (inner.h - 2 * padding >= 0 ==> r.h == inner.h - 2 * padding)
    ensures 0 <= r.w <= Max(0, inner.w - 2 * padding)
    ensures percent >= 1.0 ==> r.w == Max(0, inner.w - 2 * padding)
    ensures percent <= 0.0 ==> r.w == 0
  {
    var room := Max(0, inner.w - padding * 2);
    var w := ((room as real) * Clamp01(percent)).Floor;
    assert 0 <= w <= room by {
      assert 0.0 <= (room as real) * Clamp01(percent) <= room as real;
    }
    Rect(inner.x + padding, inner.y + padding, w, Max(0, inner.h - padding * 2))
  }

  /** Where band `i` of `count` starts: `rect.y + floor(i * rect.h / count)`. */
  function BandTop(rect: Rect, i: nat, count: nat): int
    requires count >= 1
  {
    rect.y + (i * rect.h) / count
  }

  /** Where band `i` ends: where the next one starts, and the last one at the
      bottom of the rect. */
  function BandBottom(rect: Rect, i: nat, count: nat): int
    requires count >= 1
  {
    if i == count - 1 then rect.y + rect.h else BandTop(rect, i + 1, count)
  }

  /** The rect band `i` is painted in: full width, at least one pixel high. */
  function Band(rect: Rect, i: nat, count: nat): (r: Rect)
    requires count >= 1
    ensures r.x == rect.x && r.w == rect.w && r.y == BandTop(rect, i, count)
    ensures r.h >= 1
    ensures BandBottom(rect, i, count) - r.y >= 1 ==> r.h == BandBottom(rect, i, count) - r.y
  {
    var y1 := BandTop(rect, i, count);
    Rect(rect.x, y1, rect.w, Max(1, BandBottom(rect, i, count) - y1))
  }

  lemma MulLe(c: nat, x: int, y: int)
    requires x <= y
    ensures c * x <= c * y
  {
    var d: nat := y - x;
    assert c * y == c * x + c * d;
  }

  lemma DivMonotone(a: int, b: int, c: int)
    requires 0 <= a <= b && c > 0
    ensures a / c <= b / c
  {
    var qa, qb := a / c, b / c;
    assert a == c * qa + a % c && 0 <= a % c < c;
    assert b == c * qb + b % c && 0 <= b % c < c;
    if qa > qb {
      MulLe(c, qb + 1, qa);
    }
  }

  /** Division is determined by any quotient and remainder in range. */
  lemma DivUnique(n: int, c: int, q: int, r: int)
    requires c > 0 && n == c * q + r && 0 <= r < c
    ensures n / c == q
  {
    var q', r' := n / c, n % c;
    assert n == c * q' + r' && 0 <= r' < c;
    if q > q' {
      MulLe(c, q' + 1, q);
    } else if q < q' {
      MulLe(c, q + 1, q');
    }
  }

  lemma DivStep(a: int, h: int, c: int)
    requires a >= 0 && h >= c > 0
    ensures (a + h) / c >= a / c + 1
  {
    DivMonotone(a + c, a + h, c);
    var q := a / c;
    assert a == c * q + a % c && 0 <= a % c < c;
    DivUnique(a + c, c, q + 1, a % c);
  }

  lemma ProductMonotone(i: nat, j: nat, h: nat)
    requires i <= j
    ensures i * h <= j * h
  {
    MulLe(h, i, j);
  }

  /** Band tops never decrease and never pass the bottom of the rect. */
  lemma TopsOrdered(rect: Rect, count: nat, i: nat, j: nat)
    requires count >= 1 && rect.h >= 0 && i <= j <= count
    ensures rect.y <= BandTop(rect, i, count) <= BandTop(rect, j, count) <= rect.y + rect.h
  {
    var hi, hj, hc := i * rect.h, j * rect.h, count * rect.h;
    ProductMonotone(i, j, rect.h);
    ProductMonotone(j, count, rect.h);
    DivMonotone(hi, hj, count);
    DivMonotone(hj, hc, count);
    DivUnique(hc, count, rect.h, 0);
  }

  /** The bands run top to bottom without gaps: the first starts at the top
      of the rect, each ends where the next starts, the last ends at the
      bottom, and none leaves the rect. */
  lemma BandsCover(rect: Rect, count: nat)
    requires count >= 1 && rect.h >= 0
    ensures BandTop(rect, 0, count) == rect.y
    ensures BandBottom(rect, count - 1, count) == rect.y + rect.h
    ensures forall i :: 0 <= i < count - 1 ==> BandBottom(rect, i, count) == BandTop(rect, i + 1, count)
    ensures forall i :: 0 <= i < count ==>
      rect.y <= BandTop(rect, i, count) <= BandBottom(rect, i, count) <= rect.y + rect.h
  {
    forall i | 0 <= i < count
      ensures rect.y <= BandTop(rect, i, count) <= BandBottom(rect, i, count) <= rect.y + rect.h
    {
      if i < count - 1 {
        TopsOrdered(rect, count, i, i + 1);
        TopsOrdered(rect, count, i + 1, count);
      } else {
        TopsOrdered(rect, count, i, count);
      }
    }
  }

  /** When the rect has at least one pixel row per band, every band is at
      least a pixel high on its own, so no band is stretched over the next. */
  lemma BandsNotStretched(rect: Rect, count: nat, i: nat)
    requires rect.h >= count >= 1 && i < count
    ensures BandBottom(rect, i, count) - BandTop(rect, i, count) >= 1
    ensures Band(rect, i, count).h == BandBottom(rect, i, count) - BandTop(rect, i, count)
  {
    var hi, hn := i * rect.h, (i + 1) * rect.h;
    assert hn == hi + rect.h;
    DivStep(hi, rect.h, count);
    if i == count - 1 {
      DivUnique(hn, count, rect.h, 0);
    }
  }

  /** Total height of the first `k` bands. */
  function HeightSum(rect: Rect, count: nat, k: nat): int
    requires k <= count
  {
    if k == 0 then 0 else HeightSum(rect, count, k - 1) + Band(rect, k - 1, count).h
  }

  /** With at least one pixel row per band, the first `k` bands together are
      exactly as high as the distance from the top to the end of band
      `k - 1`. */
  lemma {:induction false} HeightsTelescope(rect: Rect, count: nat, k: nat)
    requires rect.h >= count >= 1 && 1 <= k <= count
    ensures HeightSum(rect, count, k) == BandBottom(rect, k - 1, count) - rect.y
  {
    BandsNotStretched(rect, count, k - 1);
    if k > 1 {
      HeightsTelescope(rect, count, k - 1);
    }
  }

  /** With at least one pixel row per band, the bands' heights add up to the
      rect's height exactly: they tile it. */
  lemma BandsTile(rect: Rect, count: nat)
    requires rect.h >= count >= 1
    ensures HeightSum(rect, count, count) == rect.h
  {
    HeightsTelescope(rect, count, count);
  }

  /** How many bands a ramp of `n` steps is drawn as: one per step, or one
      per pair of neighbouring steps when blending. */
  function BandCount(smooth: bool, n: nat): (c: nat)
    ensures c <= n
    ensures !smooth ==> c >= n
    ensures smooth && c > 0 ==> c + 1 <= n
    ensures smooth && n >= 2 ==> c + 1 >= n
  {
    if !smooth then n else if n == 0 then 0 else n - 1
  }

  /** `Math.round(x)` for the values the renderer rounds. */
  function Round(x: real): int {
    (x + 0.5).Floor
  }

  /** `lerpRgba(a, b, t)`: each channel moved the clamped share `t` of the way
      from `a` to `b`, then rounded. */
  function Lerp(a: Rgba, b: Rgba, t: real): (r: Rgba)
    ensures WholeChannels(a) && WholeChannels(b) ==> WholeChannels(r)
    ensures WholeChannels(a) && WholeChannels(b) ==>
      && Between(r.r, a.r, b.r) && Between(r.g, a.g, b.g)
      && Between(r.b, a.b, b.b) && Between(r.a, a.a, b.a)
  {
    var tt := Clamp01(t);
    Rgba(Blend(a.r, b.r, tt), Blend(a.g, b.g, tt), Blend(a.b, b.b, tt), Blend(a.a, b.a, tt))
  }

  /** `v` lies on the closed segment from `x` to `y`, whichever way it runs. */
  predicate Between(v: real, x: real, y: real) {
    (x <= v <= y) || (y <= v <= x)
  }

  /** One channel moved the share `tt` of the way from `x` to `y`, rounded:
      a whole number, and for whole ends and a share in [0, 1] one on the
      segment between them. */
  function Blend(x: real, y: real, tt: real): (v: real)
    ensures v.Floor as real == v
    ensures x.Floor as real == x && y.Floor as real == y && 0.0 <= tt <= 1.0 ==> Between(v, x, y)
  {
    var m := x * (1.0 - tt) + y * tt;
    if x.Floor as real == x && y.Floor as real == y && 0.0 <= tt <= 1.0 then
      MixBetween(x, y, tt);
      RoundBetween(m, x, y);
      Round(m) as real
    else
      Round(m) as real
  }

  /** The unrounded mix lies between its ends. */
  lemma MixBetween(x: real, y: real, tt: real)
    requires 0.0 <= tt <= 1.0
    ensures Between(x * (1.0 - tt) + y * tt, x, y)
  {
    var m := x * (1.0 - tt) + y * tt;
    if x <= y {
      assert m == x + (y - x) * tt;
      var p := ShareOf(y - x, tt);
      assert x <= x + p <= y;
    } else {
      assert m == y + (x - y) * (1.0 - tt);
      var p := ShareOf(x - y, 1.0 - tt);
      assert y <= y + p <= x;
    }
  }

  /** A share in [0, 1] of a non-negative amount is at most that amount. */
  lemma ShareOf(d: real, tt: real) returns (p: real)
    requires 0.0 <= d && 0.0 <= tt <= 1.0
    ensures p == d * tt
    ensures 0.0 <= p <= d
  {
    p := d * tt;
    assert d * (1.0 - tt) >= 0.0;
    assert p == d - d * (1.0 - tt);
  }

  /** Rounding a value between two whole numbers stays between them. */
  lemma RoundBetween(m: real, x: real, y: real)
    requires x.Floor as real == x && y.Floor as real == y
    requires Between(m, x, y)
    ensures Between(Round(m) as real, x, y)
  {
    var lo := if x <= y then x else y;
    var hi := if x <= y then y else x;
    assert lo <= m <= hi;
    RoundWithin(m, lo.Floor, hi.Floor);
  }

  /** Rounding never leaves a range with whole ends. */
  lemma RoundWithin(m: real, lo: int, hi: int)
    requires lo as real <= m <= hi as real
    ensures lo <= Round(m) <= hi
  {
    var f := (m + 0.5).Floor;
    assert f as real <= m + 0.5 < f as real + 1.0;
    assert (lo as real) - 0.5 < f as real;
    assert f as real <= (hi as real) + 0.5;
  }

  /** Rounding a whole number leaves it as it is. */
  lemma RoundWhole(x: real)
    requires x.Floor as real == x
    ensures Round(x) as real == x
  {
    var k := x.Floor;
    var f := (x + 0.5).Floor;
    assert f as real <= x + 0.5 < f as real + 1.0;
    assert k as real == x;
    assert f == k;
  }

  predicate WholeChannels(c: Rgba) {
    IsByte(c.r) && IsByte(c.g) && IsByte(c.b) && IsByte(c.a)
  }

  /** At and beyond the ends of the blend, the result is exactly the colour
      at that end. */
  lemma LerpEndpoints(a: Rgba, b: Rgba, t: real)
    requires WholeChannels(a) && WholeChannels(b)
    ensures t <= 0.0 ==> Lerp(a, b, t) == a
    ensures t >= 1.0 ==> Lerp(a, b, t) == b
  {
    var tt := Clamp01(t);
    assert Lerp(a, b, t) == Rgba(Blend(a.r, b.r, tt), Blend(a.g, b.g, tt), Blend(a.b, b.b, tt), Blend(a.a, b.a, tt));
    if t <= 0.0 || t >= 1.0 {
      BlendAtEnds(a.r, b.r, tt);
      BlendAtEnds(a.g, b.g, tt);
      BlendAtEnds(a.b, b.b, tt);
      BlendAtEnds(a.a, b.a, tt);
    }
  }

  /** One channel of the blend at its two ends. */
  lemma BlendAtEnds(x: real, y: real, tt: real)
    requires x.Floor as real == x && y.Floor as real == y
    ensures tt == 0.0 ==> Blend(x, y, tt) == x
    ensures tt == 1.0 ==> Blend(x, y, tt) == y
  {
    if tt == 0.0 {
      assert x * (1.0 - tt) + y * tt == x;
      RoundWhole(x);
    } else if tt == 1.0 {
      assert x * (1.0 - tt) + y * tt == y;
      RoundWhole(y);
    }
  }

  /** `mixColors(c0, c1, percent)`: parse both colours, blend, write as hex. */
  function Mix(c0: Value, c1: Value, percent: real): (s: string)
    ensures IsCanonical(s)
  {
    RgbaToHex(Lerp(Parse(Text(c0)), Parse(Text(c1)), percent))
  }

  lemma ParseIsBytes(s: string)
    ensures WholeChannels(Parse(s))
  {
    assert (255.0).Floor == 255;
  }

  /** Encoding what parsing produced gives the normalised colour back, and
      black for a text normalisation rejects. */
  lemma EncodeParsed(s: string)
    ensures RgbaToHex(Parse(s)) == NormalizeOrBlack(s)
  {
    if Normalize(s).Some? {
      ParseThenEncode(s);
    } else {
      BlackEncodes();
    }
  }

  /** Opaque black is written `#000000`. */
  lemma BlackEncodes()
    ensures RgbaToHex(OpaqueBlack) == Black
  {
    ChannelOfByte(0);
    assert Channel(0.0) == "00";
  }

  /** A full bar blends all the way to the right colour, an empty one stays
      at the left colour: each as normalisation writes it, or black. */
  lemma MixEndpoints(c0: Value, c1: Value, percent: real)
    ensures percent >= 1.0 ==> Mix(c0, c1, percent) == NormalizeOrBlack(Text(c1))
    ensures percent <= 0.0 ==> Mix(c0, c1, percent) == NormalizeOrBlack(Text(c0))
  {
    ParseIsBytes(Text(c0));
    ParseIsBytes(Text(c1));
    LerpEndpoints(Parse(Text(c0)), Parse(Text(c1)), percent);
    EncodeParsed(Text(c0));
    EncodeParsed(Text(c1));
  }

  /** The frame: four blended corners for PS1, a light outline under a dark
      one for PC; then the black backdrop. */
  function Frame(t: RenderTheme, w: int, h: int, border: int): (cmds: seq<DrawCmd>)
    ensures |cmds| == if t.Ps1Theme? then 2 else 3
    ensures cmds[|cmds| - 1] == SolidRect(InnerRect(w, h, border), Str(Black))
    ensures forall i :: 0 <= i < |cmds| - 1 ==> cmds[i].Area().x == cmds[i].Area().y == (if i == 0 then 0 else border)
    ensures t.Ps1Theme? ==>
      cmds[0] == BilinearQuad(Rect(0, 0, w, h), Str(OrDefault(t.borderTl, Black)), Str(OrDefault(t.borderTr, Black)),
                              Str(OrDefault(t.borderBr, Black)), Str(OrDefault(t.borderBl, Black)))
    ensures t.PcTheme? ==>
      && cmds[0] == SolidRect(Rect(0, 0, w, h), Str(OrDefault(t.borderLight, PcLightDefault)))
      && cmds[1] == SolidRect(Rect(border, border, w - border, h - border), Str(OrDefault(t.borderDark, PcDarkDefault)))
  {
    var outline :=
      if t.Ps1Theme? then
        [BilinearQuad(Rect(0, 0, w, h), Str(OrDefault(t.borderTl, Black)), Str(OrDefault(t.borderTr, Black)),
                      Str(OrDefault(t.borderBr, Black)), Str(OrDefault(t.borderBl, Black)))]
      else
        [SolidRect(Rect(0, 0, w, h), Str(OrDefault(t.borderLight, PcLightDefault))),
         SolidRect(Rect(border, border, w - border, h - border), Str(OrDefault(t.borderDark, PcDarkDefault)))];
    outline + [SolidRect(InnerRect(w, h, border), Str(Black))]
  }

  /** `s || fallback` for a string. */
  function OrDefault(s: string, fallback: string): string {
    if s == "" then fallback else s
  }

  /** Band `i` of the fill. PC: one solid step, or step `i` fading into step
      `i + 1`. PS1: the left ramp's colour on the left edge, blended towards
      the right ramp's by `percent` on the right edge, again per step or per
      pair of neighbouring steps. */
  function BandCmd(t: RenderTheme, fill: Rect, percent: real, smooth: bool, n: nat, i: nat): DrawCmd
    requires i < BandCount(smooth, n)
  {
    var count := BandCount(smooth, n);
    var r := Band(fill, i, count);
    match t
    case PcTheme(_, _, ramp) =>
      if smooth then VerticalGradient(r, At(ramp, i), At(ramp, i + 1)) else SolidRect(r, At(ramp, i))
    case Ps1Theme(_, _, _, _, left, right) =>
      if smooth then
        BilinearQuad(r, At(left, i), Str(Mix(At(left, i), At(right, i), percent)),
                     Str(Mix(At(left, i + 1), At(right, i + 1), percent)), At(left, i + 1))
      else
        var edge := Str(Mix(At(left, i), At(right, i), percent));
        BilinearQuad(r, At(left, i), edge, edge, At(left, i))
  }

  /** Whether any band is drawn: the fill must have area, and a PC ramp
      must have exactly `n` steps. (A PS1 theme's ramps are arrays by
      construction, so the renderer's check that they are never fails.) */
  predicate DrawsBands(t: RenderTheme, fill: Rect, n: nat) {
    fill.w > 0 && fill.h > 0 && (t.PcTheme? ==> |t.ramp| == n)
  }

  /** `drawBarPreview(canvas, theme, percent, smooth, n)` on a canvas of
      `w` by `h` CSS pixels. */
  function DrawBarPreview(t: RenderTheme, percent: real, smooth: bool, w: int, h: int, n: nat): (cmds: seq<DrawCmd>)
    ensures var border := Border(h, n);
      var fill := FillRect(InnerRect(w, h, border), border, percent);
      var frame := Frame(t, w, h, border);
      && |frame| <= |cmds| && cmds[..|frame|] == frame
      && |cmds| == |frame| + (if DrawsBands(t, fill, n) then BandCount(smooth, n) else 0)
      && (forall i :: 0 <= i < |cmds| - |frame| ==> cmds[|frame| + i].Area() == Band(fill, i, BandCount(smooth, n)))
  {
    var border := Border(h, n);
    var fill := FillRect(InnerRect(w, h, border), border, percent);
    var frame := Frame(t, w, h, border);
    if !DrawsBands(t, fill, n) then frame
    else frame + seq(BandCount(smooth, n), i requires 0 <= i < BandCount(smooth, n) => BandCmd(t, fill, percent, smooth, n, i))
  }

  /** The colours of band `i`. PC: a solid step, or step `i` fading into
      step `i + 1`. PS1: the left ramp's colour on the left edge and, on the
      right edge, the left colour blended towards the right one by the
      percentage, which is the right ramp's colour itself at 100%. (At 0%
      the fill is empty and no band is drawn.) */
  lemma BandColours(t: RenderTheme, percent: real, smooth: bool, w: int, h: int, n: nat, i: nat)
    requires DrawsBands(t, FillRect(InnerRect(w, h, Border(h, n)), Border(h, n), percent), n)
    requires i < BandCount(smooth, n)
    ensures var cmds := DrawBarPreview(t, percent, smooth, w, h, n);
      var k := |Frame(t, w, h, Border(h, n))| + i;
      && k < |cmds|
      && (t.PcTheme? && !smooth ==> cmds[k].SolidRect? && cmds[k].color == At(t.ramp, i))
      && (t.PcTheme? && smooth ==>
            cmds[k].VerticalGradient? && cmds[k].top == At(t.ramp, i) && cmds[k].bottom == At(t.ramp, i + 1))
      && (t.Ps1Theme? && !smooth ==>
            && cmds[k].BilinearQuad? && cmds[k].tl == cmds[k].bl == At(t.left, i)
            && cmds[k].tr == cmds[k].br == Str(Mix(At(t.left, i), At(t.right, i), percent))
            && (percent >= 1.0 ==> cmds[k].tr == Str(NormalizeOrBlack(Text(At(t.right, i))))))
      && (t.Ps1Theme? && smooth ==>
            && cmds[k].BilinearQuad? && cmds[k].tl == At(t.left, i) && cmds[k].bl == At(t.left, i + 1)
            && cmds[k].tr == Str(Mix(At(t.left, i), At(t.right, i), percent))
            && cmds[k].br == Str(Mix(At(t.left, i + 1), At(t.right, i + 1), percent)))
  {
    var fill := FillRect(InnerRect(w, h, Border(h, n)), Border(h, n), percent);
    BandAt(t, percent, smooth, w, h, n, i);
    BandCmdColours(t, fill, percent, smooth, n, i);
  }

  /** Band `i` sits right after the frame. */
  lemma BandAt(t: RenderTheme, percent: real, smooth: bool, w: int, h: int, n: nat, i: nat)
    requires DrawsBands(t, FillRect(InnerRect(w, h, Border(h, n)), Border(h, n), percent), n)
    requires i < BandCount(smooth, n)
    ensures var cmds := DrawBarPreview(t, percent, smooth, w, h, n);
      var k := |Frame(t, w, h, Border(h, n))| + i;
      && k < |cmds|
      && cmds[k] == BandCmd(t, FillRect(InnerRect(w, h, Border(h, n)), Border(h, n), percent), percent, smooth, n, i)
  {
    var border := Border(h, n);
    var fill := FillRect(InnerRect(w, h, border), border, percent);
    var frame := Frame(t, w, h, border);
    var cmds := DrawBarPreview(t, percent, smooth, w, h, n);
    assert cmds == frame + seq(BandCount(smooth, n), j requires 0 <= j < BandCount(smooth, n) => BandCmd(t, fill, percent, smooth, n, j));
  }

  /** The colours `BandCmd` gives band `i`, per theme kind and mode. */
  lemma BandCmdColours(t: RenderTheme, fill: Rect, percent: real, smooth: bool, n: nat, i: nat)
    requires i < BandCount(smooth, n)
    ensures var c := BandCmd(t, fill, percent, smooth, n, i);
      && (t.PcTheme? && !smooth ==> c.SolidRect? && c.color == At(t.ramp, i))
      && (t.PcTheme? && smooth ==> c.VerticalGradient? && c.top == At(t.ramp, i) && c.bottom == At(t.ramp, i + 1))
      && (t.Ps1Theme? && !smooth ==>
            && c.BilinearQuad? && c.tl == c.bl == At(t.left, i)
            && c.tr == c.br == Str(Mix(At(t.left, i), At(t.right, i), percent))
            && (percent >= 1.0 ==> c.tr == Str(NormalizeOrBlack(Text(At(t.right, i))))))
      && (t.Ps1Theme? && smooth ==>
            && c.BilinearQuad? && c.tl == At(t.left, i) && c.bl == At(t.left, i + 1)
            && c.tr == Str(Mix(At(t.left, i), At(t.right, i), percent))
            && c.br == Str(Mix(At(t.left, i + 1), At(t.right, i + 1), percent)))
  {
    if t.Ps1Theme? {
      MixEndpoints(At(t.left, i), At(t.right, i), percent);
    }
  }
}

=== FILE: editor_view.dfy ===
/** The pure helpers of the older standalone editor page: its swatch edit,
    which stores the picked text without normalising it, and its own copies
    of the hex parser and encoder. */
module EditorView {
  import opened Wrappers
  import opened JsValues
  import opened OrderedMap
  import opened Document
  import opened HexColor
  import opened BarValues

  /** `section && section.colors ? section.colors[barName] : null`. */
  function CurrentBar(section: Option<Section>, barName: string): (r: Value)
    ensures section.None? || section.value.colors.None? ==> r == Nil
    ensures section.Some? && section.value.colors.Some? ==>
      (barName !in Keys(section.value.colors.value) ==> r == Nil)
      && (barName in Keys(section.value.colors.value) ==> r == ValueOf(section.value.colors.value, barName))
  {
    if section.Some? && section.value.colors.Some? then
      Get(section.value.colors.value, barName).GetOr(Nil)
    else Nil
  }

  /** The legacy `applySwatchChange`: a missing bar gives back the missing
      value itself; otherwise the same single-element replacement as the
      current editor, except that `colorHex` is stored exactly as given. */
  function LegacyApplySwatchChange(section: Option<Section>, barName: string, ps1RampIndex: int,
                                   colorIndex: nat, colorHex: string, n: nat): (r: Value)
    ensures CurrentBar(section, barName) == Nil ==> r == Nil
    ensures CurrentBar(section, barName) != Nil ==>
      var style := Field(section.value, StyleField);
      var current := CurrentBar(section, barName);
      && r.Arr?
      && (IsPs1Style(style) ==> IsPair(r) && |r.elems| == 2)
      && (IsPs1Style(style) && ps1RampIndex == 1 ==>
            Left(r) == RampOrBlack(current, 0, n)
            && Edited(RampOrBlack(current, 1, n), Right(r), colorIndex, Str(colorHex)))
      && (IsPs1Style(style) && ps1RampIndex != 1 ==>
            Right(r) == RampOrBlack(current, 1, n)
            && Edited(RampOrBlack(current, 0, n), Left(r), colorIndex, Str(colorHex)))
      && (!IsPs1Style(style) ==> Edited(FlatOrBlack(current, n), r.elems, colorIndex, Str(colorHex)))
  {
    var current := CurrentBar(section, barName);
    if current == Nil then current
    else ReplaceSwatch(Field(section.value, StyleField), current, n, ps1RampIndex, colorIndex, Str(colorHex))
  }

  /** The two swatch editors agree exactly when the picked text is already
      canonical; for any other text the current editor stores its normal
      form (or black) where the legacy one stores the text itself. */
  lemma LegacyAgreesOnCanonical(section: Section, barName: string, ps1RampIndex: int,
                                colorIndex: nat, colorHex: string, n: nat)
    requires CurrentBar(Some(section), barName) != Nil
    ensures var legacy := LegacyApplySwatchChange(Some(section), barName, ps1RampIndex, colorIndex, colorHex, n);
      var current := ApplySwatchChange(Field(section, StyleField), CurrentBar(Some(section), barName), n,
                                       ps1RampIndex, colorIndex, colorHex);
      legacy == current <==> IsCanonical(colorHex)
  {
    if IsCanonical(colorHex) {
      LegacyMatches(section, barName, ps1RampIndex, colorIndex, colorHex, n);
    } else {
      LegacyDiffers(section, barName, ps1RampIndex, colorIndex, colorHex, n);
    }
  }

  lemma LegacyMatches(section: Section, barName: string, ps1RampIndex: int,
                      colorIndex: nat, colorHex: string, n: nat)
    requires CurrentBar(Some(section), barName) != Nil && IsCanonical(colorHex)
    ensures LegacyApplySwatchChange(Some(section), barName, ps1RampIndex, colorIndex, colorHex, n)
      == ApplySwatchChange(Field(section, StyleField), CurrentBar(Some(section), barName), n,
                           ps1RampIndex, colorIndex, colorHex)
  {
    NormalizeCanonical(colorHex);
    var style, cur := Field(section, StyleField), CurrentBar(Some(section), barName);
    assert LegacyApplySwatchChange(Some(section), barName, ps1RampIndex, colorIndex, colorHex, n)
      == ReplaceSwatch(style, cur, n, ps1RampIndex, colorIndex, Str(colorHex));
    assert ApplySwatchChange(style, cur, n, ps1RampIndex, colorIndex, colorHex)
      == ReplaceSwatch(style, cur, n, ps1RampIndex, colorIndex, Str(NormalizeOrBlack(colorHex)));
  }

  lemma LegacyDiffers(section: Section, barName: string, ps1RampIndex: int,
                      colorIndex: nat, colorHex: string, n: nat)
    requires CurrentBar(Some(section), barName) != Nil && !IsCanonical(colorHex)
    ensures LegacyApplySwatchChange(Some(section), barName, ps1RampIndex, colorIndex, colorHex, n)
      != ApplySwatchChange(Field(section, StyleField), CurrentBar(Some(section), barName), n,
                           ps1RampIndex, colorIndex, colorHex)
  {
    var style, cur := Field(section, StyleField), CurrentBar(Some(section), barName);
    assert NormalizeOrBlack(colorHex) != colorHex;
    assert LegacyApplySwatchChange(Some(section), barName, ps1RampIndex, colorIndex, colorHex, n)
      == ReplaceSwatch(style, cur, n, ps1RampIndex, colorIndex, Str(colorHex));
    assert ApplySwatchChange(style, cur, n, ps1RampIndex, colorIndex, colorHex)
      == ReplaceSwatch(style, cur, n, ps1RampIndex, colorIndex, Str(NormalizeOrBlack(colorHex)));
    ReplaceSwatchInjective(style, cur, n, ps1RampIndex, colorIndex, Str(colorHex), Str(NormalizeOrBlack(colorHex)));
  }

  /** The legacy `hexToRgb`: normalise (black when invalid), then read the
      three bytes with full alpha. */
  function LegacyHexToRgb(hex: string): (c: Rgba)
    ensures Normalize(hex).None? ==> c == OpaqueBlack
    ensures IsByte(c.r) && IsByte(c.g) && IsByte(c.b) && c.a == 255.0
  {
    var normalized := NormalizeOrBlack(hex);
    if !IsHexColor(normalized) then OpaqueBlack
    else Rgba(ByteAt(normalized, 1) as real, ByteAt(normalized, 3) as real, ByteAt(normalized, 5) as real, 255.0)
  }

  /** The legacy parser is the library's `parseHexColor` under another name. */
  lemma LegacyHexToRgbIsParse(hex: string)
    ensures LegacyHexToRgb(hex) == Parse(hex)
  {
    if Normalize(hex).None? {
      assert NormalizeOrBlack(hex) == Black;
      assert ByteAt(Black, 1) == 0 && ByteAt(Black, 3) == 0 && ByteAt(Black, 5) == 0;
    }
  }

  /** The legacy `rgbToHex`: each channel truncated, clamped and written as
      two lower-case hex digits. */
  function LegacyRgbToHex(r: real, g: real, b: real): (s: string)
    ensures IsCanonical(s)
    ensures Normalize(s) == Some(s)
  {
    var s := "#" + Channel(r) + Channel(g) + Channel(b);
    NormalizeCanonical(s);
    s
  }

  /** The legacy encoder is the library's `rgbToHex`, so a byte triple it
      writes parses back to itself. */
  lemma LegacyRgbToHexRoundTrip(r: int, g: int, b: int)
    requires 0 <= r <= 255 && 0 <= g <= 255 && 0 <= b <= 255
    ensures LegacyRgbToHex(r as real, g as real, b as real) == RgbToHex(r as real, g as real, b as real)
    ensures LegacyHexToRgb(LegacyRgbToHex(r as real, g as real, b as real)) == Rgba(r as real, g as real, b as real, 255.0)
  {
    EncodeThenParse(r, g, b);
    LegacyHexToRgbIsParse(LegacyRgbToHex(r as real, g as real, b as real));
  }
}

=== FILE: hex_color.dfy ===
/** Hex colour strings: normalisation to the canonical `#rrggbb` form,
    parsing into channels and encoding channels back to hex. All of it is
    exact string and integer logic. */
module HexColor {
  import opened Wrappers
  import opened JsValues

  /** Red, green, blue and alpha channels, as JavaScript numbers. */
  datatype Rgba = Rgba(r: real, g: real, b: real, a: real)

  /** A hue/saturation/lightness triple or delta (degrees, percent, percent). */
  datatype Hsl = Hsl(h: real, s: real, l: real)

  const OpaqueBlack: Rgba := Rgba(0.0, 0.0, 0.0, 255.0)
  const NoShift: Hsl := Hsl(0.0, 0.0, 0.0)

  /** The characters String.prototype.trim strips: ECMAScript WhiteSpace and
      LineTerminator code points. */
  predicate IsJsSpace(c: char) {
    || c == '\t' || c == '\n' || c == '\U{000B}' || c == '\U{000C}' || c == '\r' || c == ' '
    || c == '\U{00A0}' || c == '\U{1680}' || ('\U{2000}' <= c <= '\U{200A}')
    || c == '\U{2028}' || c == '\U{2029}' || c == '\U{202F}' || c == '\U{205F}'
    || c == '\U{3000}' || c == '\U{FEFF}'
  }

  /** What remains after the leading white space: a suffix of `s` that
      starts with a visible character, everything before it blank. */
  function TrimStart(s: string): (r: string)
    ensures |r| <= |s| && r == s[|s| - |r|..]
    ensures r == [] || !IsJsSpace(r[0])
    ensures forall i :: 0 <= i < |s| - |r| ==> IsJsSpace(s[i])
  {
    if |s| > 0 && IsJsSpace(s[0]) then TrimStart(s[1..]) else s
  }

  /** What remains before the trailing white space: a prefix of `s` that
      ends with a visible character, everything after it blank. */
  function TrimEnd(s: string): (r: string)
    ensures |r| <= |s| && r == s[..|r|]
    ensures r == [] || !IsJsSpace(r[|r| - 1])
    ensures forall i :: |r| <= i < |s| ==> IsJsSpace(s[i])
  {
    if |s| > 0 && IsJsSpace(s[|s| - 1]) then TrimEnd(s[..|s| - 1]) else s
  }

  /** `s.trim()`: neither end of the result is white space. */
  function Trim(s: string): (r: string)
    ensures r == [] || (!IsJsSpace(r[0]) && !IsJsSpace(r[|r| - 1]))
  {
    TrimEnd(TrimStart(s))
  }

  /** Text with no white space at either end is its own trim, so trimming
      twice is trimming once. */
  lemma TrimTrimmed(t: string)
    requires t == [] || (!IsJsSpace(t[0]) && !IsJsSpace(t[|t| - 1]))
    ensures Trim(t) == t
  {
  }

  predicate IsHexDigit(c: char) {
    ('0' <= c <= '9') || ('a' <= c <= 'f') || ('A' <= c <= 'F')
  }

  predicate IsLowerHexDigit(c: char) {
    ('0' <= c <= '9') || ('a' <= c <= 'f')
  }

  /** The text matches `^#[0-9a-fA-F]{6}$`: a mandatory `#` and exactly six
      hex digits in any case. */
  predicate IsHexColor(t: string) {
    |t| == 7 && t[0] == '#' && forall i :: 1 <= i < 7 ==> IsHexDigit(t[i])
  }

  /** The canonical form: `#` and six lower-case hex digits. */
  predicate IsCanonical(t: string) {
    |t| == 7 && t[0] == '#' && forall i :: 1 <= i < 7 ==> IsLowerHexDigit(t[i])
  }

  /** `normalizeHexColor(s)`: the trimmed text folded to lower case when it
      is a hex colour, `None` (null) otherwise. */
  function Normalize(s: string): (r: Option<string>)
    ensures r.Some? <==> IsHexColor(Trim(s))
    ensures r.Some? ==> IsCanonical(r.value)
    ensures r.Some? ==> Lower(r.value) == Lower(Trim(s))
  {
    var t := Trim(s);
    if IsHexColor(t) then Some("#" + Lower(t[1..])) else None
  }

  /** `normalizeHexColor(c) || "#000000"`. */
  function NormalizeOrBlack(s: string): (r: string)
    ensures IsCanonical(r)
  {
    Normalize(s).GetOr(Black)
  }

  lemma CanonicalIsTrimmed(t: string)
    requires IsCanonical(t)
    ensures Trim(t) == t
  {
    assert !IsJsSpace(t[0]);
    assert TrimStart(t) == t;
    assert !IsJsSpace(t[6]);
  }

  /** A canonical colour normalises to itself. */
  lemma NormalizeCanonical(t: string)
    requires IsCanonical(t)
    ensures Normalize(t) == Some(t)
  {
    CanonicalIsTrimmed(t);
    var tail := t[1..];
    assert forall i :: 0 <= i < |tail| ==> LowerChar(tail[i]) == tail[i];
    assert Lower(tail) == tail;
    assert t == "#" + tail;
  }

  /** Normalisation is idempotent on its results. */
  lemma NormalizeIdempotent(s: string)
    requires Normalize(s).Some?
    ensures Normalize(Normalize(s).value) == Normalize(s)
  {
    NormalizeCanonical(Normalize(s).value);
  }

  /** `Number.parseInt(c, 16)` of one hex digit. */
  function DigitValue(c: char): (v: nat)
    requires IsHexDigit(c)
    ensures v < 16
  {
    if '0' <= c <= '9' then c as int - '0' as int
    else if 'a' <= c <= 'f' then c as int - 'a' as int + 10
    else c as int - 'A' as int + 10
  }

  /** The lower-case hex digit of `n`, as `toString(16)` writes it. */
  function HexDigit(n: nat): (c: char)
    requires n < 16
    ensures IsLowerHexDigit(c)
  {
    "0123456789abcdef"[n]
  }

  lemma DigitRoundTrip(c: char)
    requires IsLowerHexDigit(c)
    ensures HexDigit(DigitValue(c)) == c
  {
  }

  lemma HexDigitRoundTrip(n: nat)
    requires n < 16
    ensures DigitValue(HexDigit(n)) == n
  {
  }

  /** The byte written by the two hex digits at `t[i]`, `t[i + 1]`. */
  function ByteAt(t: string, i: nat): (v: int)
    requires i + 1 < |t| && IsHexDigit(t[i]) && IsHexDigit(t[i + 1])
    ensures 0 <= v <= 255
  {
    16 * DigitValue(t[i]) + DigitValue(t[i + 1])
  }

  /** A channel holding a whole number from 0 to 255. */
  predicate IsByte(x: real) {
    x.Floor as real == x && 0.0 <= x <= 255.0
  }

  /** `parseHexColor(s)`: the channels of a valid colour with full alpha, and
      opaque black for anything normalisation rejects. */
  function Parse(s: string): (c: Rgba)
    ensures Normalize(s).None? ==> c == OpaqueBlack
    ensures IsByte(c.r) && IsByte(c.g) && IsByte(c.b) && c.a == 255.0
  {
    match Normalize(s)
    case None => OpaqueBlack
    case Some(n) =>
      // The second pattern, on the already normalised text, always matches.
      if !IsCanonical(n) then OpaqueBlack
      else Rgba(ByteAt(n, 1) as real, ByteAt(n, 3) as real, ByteAt(n, 5) as real, 255.0)
  }

  /** JavaScript's `x | 0`: truncation toward zero, then wrap-around into the
      signed 32-bit range. */
  function ToInt32(x: real): (v: int)
    ensures -0x8000_0000 <= v < 0x8000_0000
    ensures 0.0 <= x < 2147483648.0 ==> v as real <= x < v as real + 1.0
    ensures -2147483648.0 < x < 0.0 ==> v as real - 1.0 < x <= v as real
  {
    var t := if x >= 0.0 then x.Floor else -((-x).Floor);
    var m := t % 0x1_0000_0000;
    if m >= 0x8000_0000 then m - 0x1_0000_0000 else m
  }

  /** `Math.min(255, Math.max(0, v))`. */
  function ClampByte(v: int): (b: int)
    ensures 0 <= b <= 255
    ensures 0 <= v <= 255 ==> b == v
    ensures v < 0 ==> b == 0
    ensures v > 255 ==> b == 255
  {
    if v < 0 then 0 else if v > 255 then 255 else v
  }

  /** `n.toString(16)` for a non-negative integer: lower-case digits, no
      leading zeros. */
  function ToHexString(n: nat): (s: string)
    ensures |s| >= 1
    decreases n
  {
    if n < 16 then [HexDigit(n)] else ToHexString(n / 16) + [HexDigit(n % 16)]
  }

  /** `s.padStart(2, "0")`. */
  function PadStart2(s: string): string {
    if |s| >= 2 then s else seq(2 - |s|, _ => '0') + s
  }

  /** A byte written by `toString(16).padStart(2, "0")` is its two hex digits. */
  lemma {:induction false} ByteDigits(n: nat)
    requires n <= 255
    ensures PadStart2(ToHexString(n)) == [HexDigit(n / 16), HexDigit(n % 16)]
  {
    if n >= 16 {
      assert ToHexString(n / 16) == [HexDigit(n / 16)];
    }
  }

  /** One channel as `rgbaToHex` writes it: truncated, clamped, two digits. */
  function Channel(x: real): (s: string)
    ensures |s| == 2 && IsLowerHexDigit(s[0]) && IsLowerHexDigit(s[1])
  {
    var v := ClampByte(ToInt32(x));
    ByteDigits(v);
    PadStart2(ToHexString(v))
  }

  /** `rgbaToHex(c)`: alpha is dropped, every channel clamped into a byte, so
      the result is always a canonical colour that normalisation accepts
      unchanged. */
  function RgbaToHex(c: Rgba): (s: string)
    ensures IsCanonical(s)
    ensures Normalize(s) == Some(s)
  {
    var s := "#" + Channel(c.r) + Channel(c.g) + Channel(c.b);
    NormalizeCanonical(s);
    s
  }

  /** `rgbToHex(r, g, b)`. */
  function RgbToHex(r: real, g: real, b: real): (s: string)
    ensures IsCanonical(s)
  {
    RgbaToHex(Rgba(r, g, b, 255.0))
  }

  lemma ChannelOfByte(v: int)
    requires 0 <= v <= 255
    ensures Channel(v as real) == [HexDigit(v / 16), HexDigit(v % 16)]
  {
    assert ToInt32(v as real) == v;
    ByteDigits(v);
  }

  lemma ChannelOfDigits(t: string, i: nat)
    requires i + 1 < |t| && IsLowerHexDigit(t[i]) && IsLowerHexDigit(t[i + 1])
    ensures Channel(ByteAt(t, i) as real) == t[i..i + 2]
  {
    var hi, lo := DigitValue(t[i]), DigitValue(t[i + 1]);
    var v := ByteAt(t, i);
    assert v / 16 == hi && v % 16 == lo;
    ChannelOfByte(v);
    DigitRoundTrip(t[i]);
    DigitRoundTrip(t[i + 1]);
  }

  /** Parsing a valid colour and encoding it again gives its normal form. */
  lemma ParseThenEncode(s: string)
    requires Normalize(s).Some?
    ensures RgbaToHex(Parse(s)) == Normalize(s).value
  {
    var n := Normalize(s).value;
    assert Parse(s) == Rgba(ByteAt(n, 1) as real, ByteAt(n, 3) as real, ByteAt(n, 5) as real, 255.0);
    EncodeBytes(n);
  }

  /** A canonical colour is the encoding of its own three bytes. */
  lemma EncodeBytes(n: string)
    requires IsCanonical(n)
    ensures RgbaToHex(Rgba(ByteAt(n, 1) as real, ByteAt(n, 3) as real, ByteAt(n, 5) as real, 255.0)) == n
  {
    var c := Rgba(ByteAt(n, 1) as real, ByteAt(n, 3) as real, ByteAt(n, 5) as real, 255.0);
    assert RgbaToHex(c) == "#" + Channel(c.r) + Channel(c.g) + Channel(c.b);
    ChannelsOf(n);
    CanonicalSplit(n);
  }

  lemma ChannelsOf(n: string)
    requires IsCanonical(n)
    ensures Channel(ByteAt(n, 1) as real) == n[1..3]
    ensures Channel(ByteAt(n, 3) as real) == n[3..5]
    ensures Channel(ByteAt(n, 5) as real) == n[5..7]
  {
    ChannelOfDigits(n, 1);
    ChannelOfDigits(n, 3);
    ChannelOfDigits(n, 5);
  }

  lemma CanonicalSplit(n: string)
    requires IsCanonical(n)
    ensures n == "#" + n[1..3] + n[3..5] + n[5..7]
  {
  }

  /** Encoding byte channels and parsing the result gives the channels back,
      with full alpha. */
  lemma EncodeThenParse(r: int, g: int, b: int)
    requires 0 <= r <= 255 && 0 <= g <= 255 && 0 <= b <= 255
    ensures Parse(RgbToHex(r as real, g as real, b as real)) == Rgba(r as real, g as real, b as real, 255.0)
  {
    var s := RgbToHex(r as real, g as real, b as real);
    ChannelOfByte(r);
    ChannelOfByte(g);
    ChannelOfByte(b);
    NormalizeCanonical(s);
    HexDigitRoundTrip(r / 16);
    HexDigitRoundTrip(r % 16);
    HexDigitRoundTrip(g / 16);
    HexDigitRoundTrip(g % 16);
    HexDigitRoundTrip(b / 16);
    HexDigitRoundTrip(b % 16);
  }

  /** The numeric core of `adjustHexHsl`: RGB to HSL, add the delta, HSL back
      to RGB. Floating-point colour math is not modelled, so the model takes
      it as a parameter. */
  type HslShift = (Rgba, Hsl) -> Rgba

  /** `adjustHexHsl(hex, dh, ds, dl)`: black for a colour normalisation
      rejects, otherwise the shifted colour written as hex. */
  function AdjustHexHsl(hex: string, d: Hsl, shift: HslShift): (r: string)
    ensures IsCanonical(r)
    ensures Normalize(hex).None? ==> r == Black
  {
    match Normalize(hex)
    case None => Black
    case Some(n) =>
      var c := shift(Parse(n), d);
      RgbToHex(c.r, c.g, c.b)
  }
}

=== FILE: js_values.dfy ===
/** The JavaScript values that bar colour data is made of, and the handful of
    built-in array and string operations the editor applies to them. */
module JsValues {
  import opened Wrappers

  /** A JSON-like value as it can appear as a bar's colour data.
      `Nil` stands for null and undefined; `Hole` is an array slot that was
      never assigned (reading it gives undefined, spreading the array turns
      it into undefined, `map` passes it over); `Scalar` is any other value
      that is neither a string nor an array (a number, a boolean, a plain
      object), carried as the text String() gives it. */
  datatype Value = Str(s: string) | Arr(elems: seq<Value>) | Nil | Hole | Scalar(text: string)

  /** The colour every default and every rejected colour falls back to. */
  const Black: string := "#000000"

  /** `Array(n).fill("#000000")`. */
  function Blacks(n: nat): (r: seq<Value>)
    ensures |r| == n
    ensures forall i :: 0 <= i < n ==> r[i] == Str(Black)
  {
    seq(n, _ => Str(Black))
  }

  /** The holes an out-of-range write leaves behind. */
  function Holes(n: nat): (r: seq<Value>)
    ensures |r| == n
    ensures forall i :: 0 <= i < n ==> r[i] == Hole
  {
    seq(n, _ => Hole)
  }

  /** `a[i]` on an array: undefined past the end and at a hole. */
  function At(a: seq<Value>, i: nat): (r: Value)
    ensures r != Hole
    ensures i < |a| && a[i] != Hole ==> r == a[i]
  {
    if i < |a| && a[i] != Hole then a[i] else Nil
  }

  /** `[...a]`: a copy of the array in which every hole has become undefined. */
  function Spread(a: seq<Value>): (r: seq<Value>)
    ensures |r| == |a|
    ensures forall i :: 0 <= i < |a| ==> r[i] != Hole
    ensures forall i :: 0 <= i < |a| && a[i] != Hole ==> r[i] == a[i]
    ensures forall i :: 0 <= i < |a| && a[i] == Hole ==> r[i] == Nil
  {
    seq(|a|, i requires 0 <= i < |a| => At(a, i))
  }

  /** The array after `a[i] = v` (for an index `i >= 0`): in place when `i` is
      inside the array, otherwise the array grows to length `i + 1` and the
      gap is filled with holes. */
  function SetAt(a: seq<Value>, i: nat, v: Value): (r: seq<Value>)
    ensures |r| == if i < |a| then |a| else i + 1
    ensures r[i] == v
    ensures forall j :: 0 <= j < |a| && j != i ==> r[j] == a[j]
    ensures forall j :: |a| <= j < i ==> r[j] == Hole
  {
    if i < |a| then a[i := v] else a + Holes(i - |a|) + [v]
  }

  /** `Array.isArray(v)`. */
  predicate IsArray(v: Value) {
    v.Arr?
  }

  /** `Array.isArray(v) && Array.isArray(v[0]) && Array.isArray(v[1])`: the
      shape test every PS1 code path applies to a bar value. */
  predicate IsPair(v: Value) {
    v.Arr? && IsArray(At(v.elems, 0)) && IsArray(At(v.elems, 1))
  }

  /** The text a value turns into when it is handed to colour normalisation,
      i.e. `String(v || "")`. Arrays render as their elements joined by commas
      (holes and null as empty text). Falsy numbers and booleans would render
      as "" rather than "0"/"false", but the normaliser rejects both texts, so
      the difference is never observable. */
  function Text(v: Value): string
    decreases v, 1
  {
    match v
    case Str(s) => s
    case Nil => ""
    case Hole => ""
    case Scalar(t) => t
    case Arr(es) => Join(es, ",", v)
  }

  /** `es.join(sep)`: holes and null render as empty text. `whole` only carries
      the termination argument: `es` are the elements of `whole`. */
  function Join(es: seq<Value>, sep: string, ghost whole: Value): string
    requires forall e :: e in es ==> e < whole
    decreases whole, 0, |es|
  {
    if |es| == 0 then ""
    else
      var init, last := es[..|es| - 1], es[|es| - 1];
      assert last in es;
      assert forall e :: e in init ==> e in es;
      Join(init, sep, whole) + (if |es| == 1 then "" else sep) + Text(last)
  }

  /** `es.join(sep)` for a top-level array. */
  function JoinAll(es: seq<Value>, sep: string): string {
    Join(es, sep, Arr(es))
  }

  /** ASCII lower-casing. String.prototype.toLowerCase maps no character
      outside ASCII to 'p', 's', '1' or a hex digit, so ASCII folding decides
      every comparison the editor makes after lower-casing. */
  function Lower(s: string): (r: string)
    ensures |r| == |s|
    ensures forall i :: 0 <= i < |s| ==> r[i] == LowerChar(s[i])
  {
    seq(|s|, i requires 0 <= i < |s| => LowerChar(s[i]))
  }

  function LowerChar(c: char): char {
    if 'A' <= c <= 'Z' then (c as int + 32) as char else c
  }

  /** `String(style || "").toLowerCase() === "ps1"`, the only test that picks
      the dual-ramp variant. */
  predicate IsPs1Style(style: Option<string>) {
    Lower(style.GetOr("")) == "ps1"
  }
}

=== FILE: ordered_map.dfy ===
/** A theme's `colors` object: bar names mapped to colour data, in insertion
    order. JavaScript objects keep string keys in insertion order, assignment
    to an existing key keeps its position, assignment to a new key appends and
    `delete` removes the key. Integer-like keys, which JavaScript would move to
    the front, are not distinguished. */
module OrderedMap {
  import opened Wrappers
  import opened JsValues

  predicate DistinctKeys(b: seq<(string, Value)>) {
    forall i, j :: 0 <= i < j < |b| ==> b[i].0 != b[j].0
  }

  /** An ordered bar map: an association list whose keys are pairwise distinct. */
  type Bars = b: seq<(string, Value)> | DistinctKeys(b) witness []

  /** `Object.keys(b)`. */
  function Keys(b: seq<(string, Value)>): (ks: seq<string>)
    ensures |ks| == |b|
    ensures forall i :: 0 <= i < |b| ==> ks[i] == b[i].0
  {
    seq(|b|, i requires 0 <= i < |b| => b[i].0)
  }

  /** `Object.keys(b).indexOf(k)`: the first position holding `k`, or -1. */
  function IndexOf(b: seq<(string, Value)>, k: string): (i: int)
    ensures -1 <= i < |b|
    ensures 0 <= i ==> b[i].0 == k
    ensures 0 <= i ==> forall j :: 0 <= j < i ==> b[j].0 != k
    ensures i < 0 <==> k !in Keys(b)
  {
    if |b| == 0 then -1
    else if b[0].0 == k then 0
    else
      var j := IndexOf(b[1..], k);
      assert Keys(b) == [b[0].0] + Keys(b[1..]);
      if j < 0 then -1 else j + 1
  }

  /** In a map with distinct keys, the key at position `i` is found at `i`. */
  lemma IndexOfAt(b: Bars, i: nat)
    requires i < |b|
    ensures IndexOf(b, b[i].0) == i
  {
  }

  /** `b[k]`, with `None` for a missing key. */
  function Get(b: Bars, k: string): (r: Option<Value>)
    ensures r.None? <==> k !in Keys(b)
  {
    var i := IndexOf(b, k);
    if i < 0 then None else Some(b[i].1)
  }

  /** `b[k] != null`: the key is present and its value is neither null nor undefined. */
  predicate Resolves(b: Bars, k: string) {
    Get(b, k).Some? && !Get(b, k).value.Nil?
  }

  /** `b[k]` for a key known to be present. */
  function ValueOf(b: Bars, k: string): Value
    requires k in Keys(b)
  {
    Get(b, k).value
  }

  /** The map after `b[k] = v`. */
  function Put(b: Bars, k: string, v: Value): (r: Bars)
    ensures Get(r, k) == Some(v)
    ensures forall k' :: k' != k ==> Get(r, k') == Get(b, k')
    ensures Keys(r) == if k in Keys(b) then Keys(b) else Keys(b) + [k]
    ensures k !in Keys(b) ==> r == b + [(k, v)]
  {
    var i := IndexOf(b, k);
    if i >= 0 then
      var r := b[i := (k, v)];
      assert Keys(r) == Keys(b);
      forall k' | k' != k
        ensures Get(r, k') == Get(b, k')
      {
        if k' in Keys(b) {
          var j := IndexOf(b, k');
          IndexOfAt(r, j);
        }
      }
      r
    else
      var r := b + [(k, v)];
      assert Keys(r) == Keys(b) + [k];
      IndexOfAt(r, |b|);
      forall k' | k' != k
        ensures Get(r, k') == Get(b, k')
      {
        if k' in Keys(b) {
          var j := IndexOf(b, k');
          IndexOfAt(r, j);
        }
      }
      r
  }

  /** `for (const [k, v] of Object.entries(e)) b[k] = v`: every entry of `e`
      written over `b`, in `e`'s order. */
  function PutAll(b: Bars, e: Bars): (r: Bars)
    ensures forall k :: Get(r, k) == if k in Keys(e) then Get(e, k) else Get(b, k)
    decreases |e|
  {
    if |e| == 0 then b
    else
      var init, last := e[..|e| - 1], e[|e| - 1];
      assert Keys(e) == Keys(init) + [last.0];
      var r := Put(PutAll(b, init), last.0, last.1);
      forall k ensures Get(r, k) == if k in Keys(e) then Get(e, k) else Get(b, k) {
        if k == last.0 {
          IndexOfAt(e, |e| - 1);
        } else if k in Keys(init) {
          var j := IndexOf(init, k);
          IndexOfAt(e, j);
        }
      }
      r
  }

  /** `ks` with every occurrence of `k` left out, order kept. */
  function Without(ks: seq<string>, k: string): seq<string> {
    if |ks| == 0 then []
    else if ks[0] == k then Without(ks[1..], k)
    else [ks[0]] + Without(ks[1..], k)
  }

  lemma {:induction false} WithoutAbsent(ks: seq<string>, k: string)
    requires k !in ks
    ensures Without(ks, k) == ks
  {
    if |ks| > 0 {
      WithoutAbsent(ks[1..], k);
      assert ks == [ks[0]] + ks[1..];
    }
  }

  lemma {:induction false} WithoutOnce(ks: seq<string>, k: string, i: nat)
    requires i < |ks| && ks[i] == k
    requires forall j :: 0 <= j < |ks| && j != i ==> ks[j] != k
    ensures Without(ks, k) == ks[..i] + ks[i + 1..]
  {
    if i == 0 {
      WithoutAbsent(ks[1..], k);
    } else {
      WithoutOnce(ks[1..], k, i - 1);
      assert ks[..i] == [ks[0]] + ks[1..][..i - 1];
      assert ks[i + 1..] == ks[1..][i..];
    }
  }

  /** Cutting position `i` out of a map keeps the keys distinct and every other entry's value. */
  lemma CutFacts(b: Bars, i: nat)
    requires i < |b|
    ensures DistinctKeys(b[..i] + b[i + 1..])
    ensures Keys(b[..i] + b[i + 1..]) == Keys(b)[..i] + Keys(b)[i + 1..]
  {
    var r := b[..i] + b[i + 1..];
    forall p, q | 0 <= p < q < |r|
      ensures r[p].0 != r[q].0
    {
      var p' := if p < i then p else p + 1;
      var q' := if q < i then q else q + 1;
      assert r[p] == b[p'] && r[q] == b[q'];
    }
  }

  /** The map after `delete b[k]`: exactly that key leaves, the others keep
      their values and their relative order. */
  function Remove(b: Bars, k: string): (r: Bars)
    ensures Get(r, k).None?
    ensures forall k' :: k' != k ==> Get(r, k') == Get(b, k')
    ensures Keys(r) == Without(Keys(b), k)
  {
    var i := IndexOf(b, k);
    if i < 0 then
      WithoutAbsent(Keys(b), k);
      b
    else
      CutFacts(b, i);
      var r: Bars := b[..i] + b[i + 1..];
      WithoutOnce(Keys(b), k, i);
      RemoveGet(b, i, r);
      r
  }

  lemma RemoveGet(b: Bars, i: nat, r: Bars)
    requires i < |b| && r == b[..i] + b[i + 1..]
    ensures forall k' :: k' != b[i].0 ==> Get(r, k') == Get(b, k')
  {
    forall k' | k' != b[i].0
      ensures Get(r, k') == Get(b, k')
    {
      if k' in Keys(b) {
        RemoveGetPresent(b, i, r, k');
      } else {
        RemoveGetAbsent(b, i, r, k');
      }
    }
  }

  lemma RemoveGetPresent(b: Bars, i: nat, r: Bars, k': string)
    requires i < |b| && r == b[..i] + b[i + 1..]
    requires k' != b[i].0 && k' in Keys(b)
    ensures Get(r, k') == Get(b, k')
  {
    var j := IndexOf(b, k');
    if j < i {
      assert r[j] == b[j];
      IndexOfAt(r, j);
    } else {
      assert r[j - 1] == b[j];
      IndexOfAt(r, j - 1);
    }
  }

  lemma RemoveGetAbsent(b: Bars, i: nat, r: Bars, k': string)
    requires i < |b| && r == b[..i] + b[i + 1..]
    requires k' !in Keys(b)
    ensures Get(r, k').None?
  {
    forall m | 0 <= m < |r|
      ensures r[m].0 != k'
    {
      if m < i {
        assert r[m] == b[m];
      } else {
        assert r[m] == b[m + 1];
      }
    }
  }

  /** The name an entry carries after `from` is renamed to `to`. */
  function Renamed(name: string, from: string, to: string): string {
    if name == from then to else name
  }

  /** The loop of `renameBar`: a fresh object filled entry by entry in order,
      `from`'s value going in under `to`. */
  function Rename(b: Bars, from: string, to: string): (r: Bars)
    ensures forall k :: k != from && k != to ==> Get(r, k) == Get(b, k)
    ensures from != to ==> Get(r, from).None?
    ensures from in Keys(b) ==> Get(r, to).Some?
    decreases |b|
  {
    if |b| == 0 then []
    else
      var last := b[|b| - 1];
      var prev := Rename(b[..|b| - 1], from, to);
      RenameStep(b, prev, from, to);
      Put(prev, Renamed(last.0, from, to), last.1)
  }

  /** One entry more: if the rename of all but the last entry has the
      rename's properties, writing the last entry under its new name keeps
      them. */
  lemma RenameStep(b: Bars, prev: Bars, from: string, to: string)
    requires |b| > 0
    requires forall k :: k != from && k != to ==> Get(prev, k) == Get(b[..|b| - 1], k)
    requires from != to ==> Get(prev, from).None?
    requires from in Keys(b[..|b| - 1]) ==> Get(prev, to).Some?
    ensures var r := Put(prev, Renamed(b[|b| - 1].0, from, to), b[|b| - 1].1);
      && (forall k :: k != from && k != to ==> Get(r, k) == Get(b, k))
      && (from != to ==> Get(r, from).None?)
      && (from in Keys(b) ==> Get(r, to).Some?)
  {
    var last := b[|b| - 1];
    var name := Renamed(last.0, from, to);
    var r := Put(prev, name, last.1);
    forall k | k != from && k != to
      ensures Get(r, k) == Get(b, k)
    {
      GetLast(b, k);
    }
    if from in Keys(b) {
      GetLast(b, from);
    }
  }

  /** Looking a key up in a map splits into its last entry and the rest. */
  lemma GetLast(b: Bars, k: string)
    requires |b| > 0
    ensures Get(b, k) == if k == b[|b| - 1].0 then Some(b[|b| - 1].1) else Get(b[..|b| - 1], k)
  {
    var init: Bars := b[..|b| - 1];
    if k == b[|b| - 1].0 {
      IndexOfAt(b, |b| - 1);
    } else if k in Keys(init) {
      var j := IndexOf(init, k);
      assert init[j] == b[j];
      IndexOfAt(b, j);
    } else {
      forall i | 0 <= i < |b|
        ensures b[i].0 != k
      {
        if i < |init| {
          assert b[i] == init[i];
        }
      }
    }
  }

  /** `b` with `from` relabelled `to` in place: the reference shape of a rename. */
  function Relabel(b: seq<(string, Value)>, from: string, to: string): (r: seq<(string, Value)>)
    ensures |r| == |b|
    ensures forall i :: 0 <= i < |b| ==> r[i] == (Renamed(b[i].0, from, to), b[i].1)
  {
    seq(|b|, i requires 0 <= i < |b| => (Renamed(b[i].0, from, to), b[i].1))
  }

  /** When `to` is fresh, renaming keeps every entry at its position and
      every value, and changes only the one key. */
  lemma {:induction false} RenameInPlace(b: Bars, from: string, to: string)
    requires to == from || to !in Keys(b)
    ensures Rename(b, from, to) == Relabel(b, from, to)
    decreases |b|
  {
    if |b| > 0 {
      var init, last := b[..|b| - 1], b[|b| - 1];
      if to != from {
        FreshInPrefix(b, to);
      }
      RenameInPlace(init, from, to);
      var name := Renamed(last.0, from, to);
      var prev := Rename(init, from, to);
      RelabelledLastFresh(b, from, to);
      assert name !in Keys(prev);
      assert Rename(b, from, to) == Put(prev, name, last.1);
      RelabelSnoc(b, from, to);
    }
  }

  lemma FreshInPrefix(b: Bars, to: string)
    requires |b| > 0 && to !in Keys(b)
    ensures to !in Keys(b[..|b| - 1])
  {
  }

  lemma RelabelledLastFresh(b: Bars, from: string, to: string)
    requires |b| > 0
    requires to == from || to !in Keys(b)
    ensures Renamed(b[|b| - 1].0, from, to) !in Keys(Relabel(b[..|b| - 1], from, to))
  {
  }

  lemma RelabelSnoc(b: Bars, from: string, to: string)
    requires |b| > 0
    ensures Relabel(b, from, to)
         == Relabel(b[..|b| - 1], from, to) + [(Renamed(b[|b| - 1].0, from, to), b[|b| - 1].1)]
  {
  }

  /** After an in-place rename to a fresh name, `to` holds what `from` held. */
  lemma RelabelGet(b: Bars, from: string, to: string)
    requires from in Keys(b)
    requires to == from || to !in Keys(b)
    ensures DistinctKeys(Relabel(b, from, to))
    ensures Get(Relabel(b, from, to), to) == Get(b, from)
  {
    RenameInPlace(b, from, to);
    var r: Bars := Relabel(b, from, to);
    var i := IndexOf(b, from);
    assert r[i] == (to, b[i].1);
    IndexOfAt(r, i);
  }
}

=== FILE: state_store.dfy ===
/** The editor's persistent state and the layered workspace it resolves: the
    loaded document underneath, whole-theme overrides on top, legacy per-bar
    edits over those, and tombstones hiding deleted themes. */
module StateStore {
  import opened Wrappers
  import opened JsValues
  import opened OrderedMap
  import opened Document
  import opened HexColor
  import opened WorkspaceOps

  datatype Selection = Selection(sectionKey: string, barName: string)

  /** The store's state. `edits` are legacy per-bar overrides by theme key,
      `workspaceThemes` whole-theme overrides, `deletedThemes` tombstones
      (a key counts as deleted when its flag is true). */
  datatype State = State(
    percent: real,
    smooth: bool,
    selected: Option<Selection>,
    edits: map<string, Bars>,
    workspaceThemes: map<string, Section>,
    deletedThemes: map<string, bool>,
    barAdjust: Hsl)

  /** `createDefaultState()`. */
  const DefaultState: State := State(1.0, false, None, map[], map[], map[], NoShift)

  /** `deletedThemes[k]` is truthy. */
  predicate Tombstoned(st: State, k: string) {
    k in st.deletedThemes && st.deletedThemes[k]
  }

  /** `{ ...section, colors: { ...(section.colors || {}) } }`: every property
      kept and a `colors` map guaranteed. */
  function WithColors(s: Section): (r: Section)
    ensures r.fields == s.fields && r.scale == s.scale
    ensures r.colors == Some(BarsOf(s))
    ensures s.colors.Some? ==> r == s
  {
    s.(colors := Some(BarsOf(s)))
  }

  /** `m[k]`, `None` when absent. */
  function Lookup(m: map<string, Section>, k: string): Option<Section> {
    if k in m then Some(m[k]) else None
  }

  /** `buildWorkspaceData(baseData)`, pass by pass: the untombstoned
      document sections, then the untombstoned whole-theme overrides in
      their place, then the legacy bar edits of every theme that is there. */
  function BuildWorkspaceData(st: State, base: Doc): (ws: Doc)
    ensures forall k :: Tombstoned(st, k) ==> k !in ws
    ensures forall k :: k in ws <==> (k in base || k in st.workspaceThemes) && !Tombstoned(st, k)
    ensures forall k :: k in ws ==> ws[k].colors.Some?
  {
    var fromBase := map k | k in base && !Tombstoned(st, k) :: WithColors(base[k]);
    var overridden := map k | k in fromBase.Keys + st.workspaceThemes.Keys && !Tombstoned(st, k) ::
      if k in st.workspaceThemes then WithColors(st.workspaceThemes[k]) else fromBase[k];
    map k | k in overridden ::
      if k in st.edits then overridden[k].(colors := Some(PutAll(BarsOf(overridden[k]), st.edits[k])))
      else overridden[k]
  }

  /** The section a theme key resolves to, read off one key at a time: hidden
      when tombstoned; otherwise the whole-theme override if there is one,
      else the document's section; then the key's legacy bar edits written
      over its bars. */
  function Resolve(st: State, base: Doc, k: string): Option<Section> {
    if Tombstoned(st, k) then None
    else
      var layer := if k in st.workspaceThemes then Some(st.workspaceThemes[k]) else Lookup(base, k);
      match layer
      case None => None
      case Some(s) =>
        var bars := if k in st.edits then PutAll(BarsOf(s), st.edits[k]) else BarsOf(s);
        Some(s.(colors := Some(bars)))
  }

  /** The passes of `buildWorkspaceData` resolve every key by the per-key
      layering rule: an override replaces the document's section wholesale,
      legacy edits go on top, and edits for keys that do not resolve are
      ignored. */
  lemma BuildMatchesResolve(st: State, base: Doc, k: string)
    ensures Lookup(BuildWorkspaceData(st, base), k) == Resolve(st, base, k)
  {
  }

  /** Two states that resolve every key alike build the same workspace. */
  lemma SameResolution(st1: State, st2: State, base: Doc)
    requires forall k :: Resolve(st1, base, k) == Resolve(st2, base, k)
    ensures BuildWorkspaceData(st1, base) == BuildWorkspaceData(st2, base)
  {
    var a, b := BuildWorkspaceData(st1, base), BuildWorkspaceData(st2, base);
    forall k ensures Lookup(a, k) == Lookup(b, k) {
      BuildMatchesResolve(st1, base, k);
      BuildMatchesResolve(st2, base, k);
    }
    LookupExtensional(a, b);
  }

  lemma LookupExtensional(a: map<string, Section>, b: map<string, Section>)
    requires forall k :: Lookup(a, k) == Lookup(b, k)
    ensures a == b
  {
    assert forall k :: k in a <==> k in b by {
      forall k ensures k in a <==> k in b {
        assert Lookup(a, k).Some? == Lookup(b, k).Some?;
      }
    }
    forall k | k in a ensures a[k] == b[k] {
      assert Lookup(a, k) == Lookup(b, k);
    }
  }

  /** Legacy edits for a theme that does not resolve have no effect. */
  lemma UnresolvedEditsIgnored(st: State, base: Doc, k: string)
    requires Tombstoned(st, k) || (k !in base && k !in st.workspaceThemes)
    ensures BuildWorkspaceData(st.(edits := st.edits - {k}), base) == BuildWorkspaceData(st, base)
  {
    SameResolution(st.(edits := st.edits - {k}), st, base);
  }

  /** What `ensureEditableTheme(k)` leaves in `workspaceThemes[k]`: the
      existing override, else a copy of the document's section, else an
      empty theme; in every case with a `colors` map. */
  function Editable(st: State, base: Doc, k: string): (s: Section)
    ensures s.colors.Some?
    ensures k in st.workspaceThemes ==>
      var o := st.workspaceThemes[k];
      s.fields == o.fields && s.scale == o.scale && s.colors == Some(BarsOf(o))
    ensures k !in st.workspaceThemes && k in base ==>
      s.fields == base[k].fields && s.scale == base[k].scale && s.colors == Some(BarsOf(base[k]))
    ensures k !in st.workspaceThemes && k !in base ==> s == Section(map[], None, Some([]))
  {
    if k in st.workspaceThemes then WithColors(st.workspaceThemes[k])
    else if k in base then WithColors(base[k])
    else Section(map[], None, Some([]))
  }

  /** `ensureEditableTheme(k)`: the override for `k` is made to exist. */
  function EnsureEditable(st: State, base: Doc, k: string): (r: State)
    ensures k in r.workspaceThemes && r.workspaceThemes[k].colors.Some?
    ensures k in st.workspaceThemes && st.workspaceThemes[k].colors.Some? ==>
      r.workspaceThemes[k] == st.workspaceThemes[k]
    ensures k in st.workspaceThemes ==> r.workspaceThemes[k] == WithColors(st.workspaceThemes[k])
    ensures k !in st.workspaceThemes && k in base ==>
      && r.workspaceThemes[k].fields == base[k].fields && r.workspaceThemes[k].scale == base[k].scale
      && r.workspaceThemes[k].colors == Some(BarsOf(base[k]))
    ensures k !in st.workspaceThemes && k !in base ==> r.workspaceThemes[k] == Section(map[], None, Some([]))
    ensures forall k' :: k' != k ==> Lookup(r.workspaceThemes, k') == Lookup(st.workspaceThemes, k')
    ensures r == st.(workspaceThemes := r.workspaceThemes)
  {
    st.(workspaceThemes := st.workspaceThemes[k := Editable(st, base, k)])
  }

  /** A theme key that shows in the workspace: in the document or
      overridden, and not tombstoned. */
  predicate ThemeResolves(st: State, base: Doc, k: string) {
    !Tombstoned(st, k) && (k in base || k in st.workspaceThemes)
  }

  /** Making a theme editable never changes what a theme that already
      resolves looks like. */
  lemma EnsureEditableInvisible(st: State, base: Doc, k: string)
    requires ThemeResolves(st, base, k)
    ensures BuildWorkspaceData(EnsureEditable(st, base, k), base) == BuildWorkspaceData(st, base)
  {
    var st' := EnsureEditable(st, base, k);
    forall k' ensures Resolve(st', base, k') == Resolve(st, base, k') {
      if k' == k {
        ResolveOfCopy(st, base, k);
      }
    }
    SameResolution(st', st, base);
  }

  lemma ResolveOfCopy(st: State, base: Doc, k: string)
    requires ThemeResolves(st, base, k)
    ensures Resolve(EnsureEditable(st, base, k), base, k) == Resolve(st, base, k)
  {
    var s := if k in st.workspaceThemes then st.workspaceThemes[k] else base[k];
    assert Editable(st, base, k) == WithColors(s);
    assert BarsOf(WithColors(s)) == BarsOf(s);
  }

  /** The override for `k` made editable and given the bar map `bars`. */
  function WithBars(st: State, base: Doc, k: string, bars: Bars): (r: State)
    ensures k in r.workspaceThemes
    ensures r.workspaceThemes[k].colors == Some(bars)
    ensures r.workspaceThemes[k].fields == Editable(st, base, k).fields
    ensures r.workspaceThemes[k].scale == Editable(st, base, k).scale
    ensures r.workspaceThemes[k] == Editable(st, base, k).(colors := Some(bars))
    ensures forall k' :: k' != k ==> Lookup(r.workspaceThemes, k') == Lookup(st.workspaceThemes, k')
    ensures r == st.(workspaceThemes := r.workspaceThemes)
  {
    st.(workspaceThemes := st.workspaceThemes[k := Editable(st, base, k).(colors := Some(bars))])
  }

  /** How a key resolves depends only on that key's tombstone, override and
      legacy edits. */
  lemma ResolveFrame(st1: State, st2: State, base: Doc, k: string)
    requires Tombstoned(st1, k) == Tombstoned(st2, k)
    requires Lookup(st1.workspaceThemes, k) == Lookup(st2.workspaceThemes, k)
    requires (k in st1.edits <==> k in st2.edits) && (k in st1.edits ==> st1.edits[k] == st2.edits[k])
    ensures Resolve(st1, base, k) == Resolve(st2, base, k)
  {
  }

  /** The bars theme `k` resolves to, empty when it does not resolve. */
  function ResolvedBars(st: State, base: Doc, k: string): Bars {
    match Resolve(st, base, k)
    case None => []
    case Some(s) => BarsOf(s)
  }

  /** `buildWorkspaceData(baseData)[k]?.colors`, empty when the theme is not
      in the workspace: the bars theme `k` resolves to. */
  function WorkspaceBars(st: State, base: Doc, k: string): (b: Bars)
    ensures b == ResolvedBars(st, base, k)
  {
    BuildMatchesResolve(st, base, k);
    var ws := BuildWorkspaceData(st, base);
    if k in ws then BarsOf(ws[k]) else []
  }

  /** `setBarValue(k, bar, v)`: the bar is written into the theme's override
      (made editable first), in place when it exists and appended otherwise;
      the theme's other data and the rest of the state do not change. */
  function SetBarValue(st: State, base: Doc, k: string, bar: string, v: Value): (r: State)
    ensures k in r.workspaceThemes && Get(BarsOf(r.workspaceThemes[k]), bar) == Some(v)
    ensures forall b :: b != bar ==> Get(BarsOf(r.workspaceThemes[k]), b) == Get(BarsOf(Editable(st, base, k)), b)
    ensures var before := Keys(BarsOf(Editable(st, base, k)));
      Keys(BarsOf(r.workspaceThemes[k])) == if bar in before then before else before + [bar]
    ensures r.workspaceThemes[k].fields == Editable(st, base, k).fields
    ensures r.workspaceThemes[k].scale == Editable(st, base, k).scale
    ensures r.workspaceThemes[k] == Editable(st, base, k).(colors := Some(Put(BarsOf(Editable(st, base, k)), bar, v)))
    ensures forall k' :: k' != k ==> Lookup(r.workspaceThemes, k') == Lookup(st.workspaceThemes, k')
    ensures r == st.(workspaceThemes := r.workspaceThemes)
  {
    WithBars(st, base, k, Put(BarsOf(Editable(st, base, k)), bar, v))
  }

  /** Once written, a bar reads back from the workspace with the written
      value, unless the theme is tombstoned or a legacy edit of the same bar
      still sits on top; the theme's other bars resolve as before. */
  lemma SetBarValueResolves(st: State, base: Doc, k: string, bar: string, v: Value)
    requires !Tombstoned(st, k)
    requires k !in st.edits || bar !in Keys(st.edits[k])
    ensures Resolve(SetBarValue(st, base, k, bar, v), base, k).Some?
    ensures Get(ResolvedBars(SetBarValue(st, base, k, bar, v), base, k), bar) == Some(v)
    ensures ThemeResolves(st, base, k) ==>
      forall b :: b != bar ==> Get(ResolvedBars(SetBarValue(st, base, k, bar, v), base, k), b) == Get(ResolvedBars(st, base, k), b)
  {
  }

  /** `setThemeLabel(k, label)`: the theme's override, made editable, gets
      the label; its bars are those it already had. */
  function SetThemeLabel(st: State, base: Doc, k: string, nameGs: string): (r: State)
    ensures k in r.workspaceThemes && Field(r.workspaceThemes[k], LabelField) == Some(nameGs)
    ensures r.workspaceThemes[k].colors == Editable(st, base, k).colors
    ensures forall f :: f != LabelField ==> Field(r.workspaceThemes[k], f) == Field(Editable(st, base, k), f)
    ensures forall k' :: k' != k ==> Lookup(r.workspaceThemes, k') == Lookup(st.workspaceThemes, k')
    ensures r == st.(workspaceThemes := r.workspaceThemes)
  {
    var ed := Editable(st, base, k);
    st.(workspaceThemes := st.workspaceThemes[k := ed.(fields := ed.fields[LabelField := nameGs])])
  }

  /** `delete deletedThemes[k]` when its flag is set. */
  function Untomb(d: map<string, bool>, k: string): (r: map<string, bool>)
    ensures !(k in r && r[k])
    ensures forall k' :: k' != k ==> (k' in r <==> k' in d) && (k' in r ==> r[k'] == d[k'])
  {
    if k in d && d[k] then d - {k} else d
  }

  /** `addTheme(k, kind)`: any tombstone on `k` is lifted and `k` is
      overridden by a default theme of the kind. */
  function AddTheme(st: State, k: string, kind: string): (r: State)
    ensures !Tombstoned(r, k) && forall k' :: k' != k ==> Tombstoned(r, k') == Tombstoned(st, k')
    ensures Lookup(r.workspaceThemes, k) == Some(CreateDefaultTheme(kind))
    ensures forall k' :: k' != k ==> Lookup(r.workspaceThemes, k') == Lookup(st.workspaceThemes, k')
    ensures r == st.(deletedThemes := r.deletedThemes, workspaceThemes := r.workspaceThemes)
  {
    st.(deletedThemes := Untomb(st.deletedThemes, k),
        workspaceThemes := st.workspaceThemes[k := CreateDefaultTheme(kind)])
  }

  /** After adding, the theme resolves to the default theme (with no bars
      unless legacy edits for the key are still pending). */
  lemma AddThemeResolves(st: State, base: Doc, k: string, kind: string)
    requires k !in st.edits
    ensures Resolve(AddTheme(st, k, kind), base, k) == Some(CreateDefaultTheme(kind))
  {
  }

  /** `copyTheme(from, to)`: nothing happens unless `from` resolves;
      otherwise any tombstone on `to` is lifted and `to` is overridden by the
      resolved section of `from`. */
  function CopyTheme(st: State, base: Doc, from: string, to: string): (r: State)
    ensures from !in BuildWorkspaceData(st, base) ==> r == st
    ensures from in BuildWorkspaceData(st, base) ==>
      && !Tombstoned(r, to)
      && Lookup(r.workspaceThemes, to) == Lookup(BuildWorkspaceData(st, base), from)
      && (forall k' :: k' != to ==> Tombstoned(r, k') == Tombstoned(st, k'))
      && (forall k' :: k' != to ==> Lookup(r.workspaceThemes, k') == Lookup(st.workspaceThemes, k'))
    ensures r == st.(deletedThemes := r.deletedThemes, workspaceThemes := r.workspaceThemes)
  {
    var ws := BuildWorkspaceData(st, base);
    if from !in ws then st
    else st.(deletedThemes := Untomb(st.deletedThemes, to), workspaceThemes := st.workspaceThemes[to := ws[from]])
  }

  /** A copy resolves to exactly what its source resolved to (unless legacy
      edits for the target are pending), and every other theme resolves as
      before. */
  lemma CopyThemeResolves(st: State, base: Doc, from: string, to: string)
    requires Resolve(st, base, from).Some? && to !in st.edits
    ensures Resolve(CopyTheme(st, base, from, to), base, to) == Resolve(st, base, from)
    ensures forall k :: k != to ==> Resolve(CopyTheme(st, base, from, to), base, k) == Resolve(st, base, k)
  {
    var r := CopyTheme(st, base, from, to);
    BuildMatchesResolve(st, base, from);
    var s := Resolve(st, base, from).value;
    assert Lookup(r.workspaceThemes, to) == Some(s);
    assert WithColors(s) == s;
    forall k | k != to ensures Resolve(r, base, k) == Resolve(st, base, k) {
      ResolveFrame(r, st, base, k);
    }
  }

  /** `deleteTheme(k)`: tombstone `k` and drop its override; legacy edits
      stay. */
  function DeleteTheme(st: State, k: string): (r: State)
    ensures Tombstoned(r, k) && k !in r.workspaceThemes
    ensures forall k' :: k' != k ==> Tombstoned(r, k') == Tombstoned(st, k')
    ensures forall k' :: k' != k ==> Lookup(r.workspaceThemes, k') == Lookup(st.workspaceThemes, k')
    ensures r == st.(deletedThemes := r.deletedThemes, workspaceThemes := r.workspaceThemes)
  {
    st.(deletedThemes := st.deletedThemes[k := true], workspaceThemes := st.workspaceThemes - {k})
  }

  /** A deleted theme is gone from the workspace, whatever the document,
      the overrides or the legacy edits hold, and every other theme resolves
      as before. */
  lemma DeleteThemeHides(st: State, base: Doc, k: string)
    ensures k !in BuildWorkspaceData(DeleteTheme(st, k), base)
    ensures forall k' :: k' != k ==> Resolve(DeleteTheme(st, k), base, k') == Resolve(st, base, k')
  {
  }

  /** `renameBar(k, from, to)`: nothing happens unless `from` resolves to a
      value in theme `k`; otherwise the theme's override gets the resolved
      bars rebuilt in order with `from` written under `to`. */
  function RenameBar(st: State, base: Doc, k: string, from: string, to: string): (r: State)
    ensures !Resolves(ResolvedBars(st, base, k), from) ==> r == st
    ensures Resolves(ResolvedBars(st, base, k), from) ==>
      && k in r.workspaceThemes
      && r.workspaceThemes[k].colors == Some(Rename(ResolvedBars(st, base, k), from, to))
      && r.workspaceThemes[k].fields == Editable(st, base, k).fields
      && r.workspaceThemes[k].scale == Editable(st, base, k).scale
      && r.workspaceThemes[k] == Editable(st, base, k).(colors := Some(Rename(ResolvedBars(st, base, k), from, to)))
      && forall k' :: k' != k ==> Lookup(r.workspaceThemes, k') == Lookup(st.workspaceThemes, k')
    ensures r == st.(workspaceThemes := r.workspaceThemes)
  {
    var bars := WorkspaceBars(st, base, k);
    if !Resolves(bars, from) then st
    else WithBars(st, base, k, Rename(bars, from, to))
  }

  /** Renaming a bar to a fresh name keeps every bar at its position with
      its value and changes only that one name. */
  lemma RenameBarInPlace(st: State, base: Doc, k: string, from: string, to: string)
    requires Resolves(ResolvedBars(st, base, k), from)
    requires to == from || to !in Keys(ResolvedBars(st, base, k))
    requires k !in st.edits
    ensures ResolvedBars(RenameBar(st, base, k, from, to), base, k) == Relabel(ResolvedBars(st, base, k), from, to)
  {
    var b := ResolvedBars(st, base, k);
    ResolveAsEditable(st, base, k);
    var r := RenameBar(st, base, k, from, to);
    assert r.workspaceThemes[k].colors == Some(Rename(b, from, to));
    ResolveAsEditable(r, base, k);
    assert ResolvedBars(r, base, k) == Rename(b, from, to);
    RenameInPlace(b, from, to);
  }

  /** `deleteBar(k, bar)`: the bar is removed from the theme's override,
      made editable first; the theme's other data and the rest of the state
      do not change. */
  function DeleteBar(st: State, base: Doc, k: string, bar: string): (r: State)
    ensures k in r.workspaceThemes && r.workspaceThemes[k].colors == Some(Remove(BarsOf(Editable(st, base, k)), bar))
    ensures r.workspaceThemes[k].fields == Editable(st, base, k).fields
    ensures r.workspaceThemes[k].scale == Editable(st, base, k).scale
    ensures r.workspaceThemes[k] == Editable(st, base, k).(colors := Some(Remove(BarsOf(Editable(st, base, k)), bar)))
    ensures forall k' :: k' != k ==> Lookup(r.workspaceThemes, k') == Lookup(st.workspaceThemes, k')
    ensures r == st.(workspaceThemes := r.workspaceThemes)
  {
    WithBars(st, base, k, Remove(BarsOf(Editable(st, base, k)), bar))
  }

  /** Deleting a bar from a resolving theme without legacy edits removes
      exactly that bar: the other bars keep their order and values. */
  lemma DeleteBarRemovesOne(st: State, base: Doc, k: string, bar: string)
    requires ThemeResolves(st, base, k) && k !in st.edits
    ensures Keys(ResolvedBars(DeleteBar(st, base, k, bar), base, k)) == Without(Keys(ResolvedBars(st, base, k)), bar)
    ensures Get(ResolvedBars(DeleteBar(st, base, k, bar), base, k), bar).None?
    ensures forall b :: b != bar ==> Get(ResolvedBars(DeleteBar(st, base, k, bar), base, k), b) == Get(ResolvedBars(st, base, k), b)
  {
    assert BarsOf(Editable(st, base, k)) == ResolvedBars(st, base, k);
  }

  /** `moveBar(k, bar, delta)`: nothing happens unless the bar resolves to a
      value in theme `k`; otherwise the theme's override gets the resolved
      bars with `bar` swapped `delta` places. */
  function MoveBar(st: State, base: Doc, k: string, bar: string, delta: int): (r: State)
    ensures !Resolves(ResolvedBars(st, base, k), bar) ==> r == st
    ensures Resolves(ResolvedBars(st, base, k), bar) ==>
      && k in r.workspaceThemes
      && r.workspaceThemes[k].colors == Some(SwapKeyOrder(ResolvedBars(st, base, k), bar, delta))
      && forall k' :: k' != k ==> Lookup(r.workspaceThemes, k') == Lookup(st.workspaceThemes, k')
    ensures r == st.(workspaceThemes := r.workspaceThemes)
  {
    var bars := WorkspaceBars(st, base, k);
    if !Resolves(bars, bar) then st
    else WithBars(st, base, k, SwapKeyOrder(bars, bar, delta))
  }

  /** Moving a bar and then moving it back gives every theme its old
      resolved form, provided the first move took place and no legacy edits
      for the theme are pending. */
  lemma MoveBarBack(st: State, base: Doc, k: string, bar: string, delta: int)
    requires Resolves(ResolvedBars(st, base, k), bar) && k !in st.edits
    requires 0 <= IndexOf(ResolvedBars(st, base, k), bar) + delta < |ResolvedBars(st, base, k)|
    ensures forall k' :: Resolve(MoveBar(MoveBar(st, base, k, bar, delta), base, k, bar, -delta), base, k') == Resolve(st, base, k')
  {
    forall k' ensures Resolve(MoveBar(MoveBar(st, base, k, bar, delta), base, k, bar, -delta), base, k') == Resolve(st, base, k') {
      if k' == k {
        MoveBarBackHere(st, base, k, bar, delta);
      } else {
        MoveTwiceFrame(st, base, k, bar, delta, k');
      }
    }
  }

  /** Two moves in theme `k` change how no other theme resolves. */
  lemma MoveTwiceFrame(st: State, base: Doc, k: string, bar: string, delta: int, other: string)
    requires other != k
    ensures Resolve(MoveBar(MoveBar(st, base, k, bar, delta), base, k, bar, -delta), base, other) == Resolve(st, base, other)
  {
    var once := MoveBar(st, base, k, bar, delta);
    var twice := MoveBar(once, base, k, bar, -delta);
    assert twice.deletedThemes == st.deletedThemes && twice.edits == st.edits;
    assert Lookup(twice.workspaceThemes, other) == Lookup(once.workspaceThemes, other) == Lookup(st.workspaceThemes, other);
    ResolveFrame(twice, st, base, other);
  }

  /** The moved theme itself gets its old resolved form back. */
  lemma MoveBarBackHere(st: State, base: Doc, k: string, bar: string, delta: int)
    requires Resolves(ResolvedBars(st, base, k), bar) && k !in st.edits
    requires 0 <= IndexOf(ResolvedBars(st, base, k), bar) + delta < |ResolvedBars(st, base, k)|
    ensures Resolve(MoveBar(MoveBar(st, base, k, bar, delta), base, k, bar, -delta), base, k) == Resolve(st, base, k)
  {
    var b := ResolvedBars(st, base, k);
    var ed := Editable(st, base, k);
    ResolveAsEditable(st, base, k);
    var once := MoveBar(st, base, k, bar, delta);
    MoveBarWrites(st, base, k, bar, delta);
    SwapKeepsEntries(b, bar, delta);
    SwapBackRestores(b, bar, delta);
    assert once.workspaceThemes[k] == ed.(colors := Some(SwapKeyOrder(b, bar, delta)));
    var twice := MoveBar(once, base, k, bar, -delta);
    MoveBarWrites(once, base, k, bar, -delta);
    assert Editable(once, base, k) == once.workspaceThemes[k];
    assert twice.workspaceThemes[k] == ed;
    ResolveAsEditable(twice, base, k);
  }

  /** Without a tombstone or legacy edits, a theme that has a section
      resolves to its editable form. */
  lemma ResolveAsEditable(st: State, base: Doc, k: string)
    requires !Tombstoned(st, k) && k !in st.edits
    ensures (k in st.workspaceThemes || k in base) ==> Resolve(st, base, k) == Some(Editable(st, base, k))
    ensures !(k in st.workspaceThemes || k in base) ==> Resolve(st, base, k).None?
  {
  }

  /** A move that takes place leaves the theme's override as its editable
      form with the swapped bars, which is also what the theme resolves to
      when no legacy edits are pending. */
  lemma MoveBarWrites(st: State, base: Doc, k: string, bar: string, delta: int)
    requires Resolves(ResolvedBars(st, base, k), bar) && k !in st.edits
    ensures Editable(st, base, k).colors == Some(ResolvedBars(st, base, k))
    ensures MoveBar(st, base, k, bar, delta).workspaceThemes[k]
      == Editable(st, base, k).(colors := Some(SwapKeyOrder(ResolvedBars(st, base, k), bar, delta)))
    ensures ResolvedBars(MoveBar(st, base, k, bar, delta), base, k) == SwapKeyOrder(ResolvedBars(st, base, k), bar, delta)
  {
  }

  /** `hasAnyEdits()`: any legacy edit map, override or tombstone entry
      exists (a tombstone counts even when its flag is false). */
  predicate HasAnyEdits(st: State): (b: bool)
    ensures b <==> exists k :: k in st.edits || k in st.workspaceThemes || k in st.deletedThemes
  {
    |st.edits| > 0 || |st.workspaceThemes| > 0 || |st.deletedThemes| > 0
  }

  /** `resetEdits()`: all three override collections emptied; the preview
      settings, the selection and the HSL adjustment stay. */
  function ResetEdits(st: State): (r: State)
    ensures !HasAnyEdits(r)
    ensures r.percent == st.percent && r.smooth == st.smooth
    ensures r.selected == st.selected && r.barAdjust == st.barAdjust
  {
    st.(edits := map[], workspaceThemes := map[], deletedThemes := map[])
  }

  /** `{ ...section, colors: { ...(section.colors || {}) } }` for every
      section of the document. */
  function PlainWorkspace(base: Doc): (ws: Doc)
    ensures ws.Keys == base.Keys
    ensures forall k :: k in base ==> ws[k].fields == base[k].fields && ws[k].scale == base[k].scale
    ensures forall k :: k in base ==> ws[k].colors == Some(BarsOf(base[k]))
    ensures forall k :: k in base && base[k].colors.Some? ==> ws[k] == base[k]
  {
    map k | k in base :: WithColors(base[k])
  }

  /** A state without edits shows the document as it is, so after a reset
      the workspace is the plain document again. */
  lemma NoEditsShowsDocument(st: State, base: Doc)
    requires !HasAnyEdits(st)
    ensures BuildWorkspaceData(st, base) == PlainWorkspace(base)
  {
    assert st.edits == map[] && st.workspaceThemes == map[] && st.deletedThemes == map[];
    forall k ensures Lookup(BuildWorkspaceData(st, base), k) == Lookup(PlainWorkspace(base), k) {
      BuildMatchesResolve(st, base, k);
    }
    LookupExtensional(BuildWorkspaceData(st, base), PlainWorkspace(base));
  }

  /** The theme keys `migrateLegacyEdits(base)` moves into overrides: those
      with a non-empty legacy edit map and a section in the document. */
  function Migrated(st: State, base: Doc): set<string> {
    set k | k in st.edits && |st.edits[k]| > 0 && k in base
  }

  /** `migrateLegacyEdits(baseData)`: with a document loaded and legacy
      edits pending, every non-empty edit map of a theme the document has is
      written over that theme's (editable) override; then all legacy edits
      are dropped, including those for themes the document lacks. */
  function MigrateLegacyEdits(st: State, base: Option<Doc>): (r: State)
    ensures base.None? || |st.edits| == 0 ==> r == st
    ensures base.Some? ==> r.edits == map[]
    ensures base.Some? && |st.edits| > 0 ==>
      && (forall k :: k in Migrated(st, base.value) ==>
            && k in r.workspaceThemes
            && r.workspaceThemes[k] == Editable(st, base.value, k).(colors := Some(PutAll(BarsOf(Editable(st, base.value, k)), st.edits[k]))))
      && (forall k :: k !in Migrated(st, base.value) ==> Lookup(r.workspaceThemes, k) == Lookup(st.workspaceThemes, k))
    ensures r == st.(edits := r.edits, workspaceThemes := r.workspaceThemes)
  {
    if base.None? || |st.edits| == 0 then st
    else
      var doc := base.value;
      var moved := Migrated(st, doc);
      st.(workspaceThemes := map k | k in st.workspaceThemes.Keys + moved ::
            if k in moved then
              var ed := Editable(st, doc, k);
              ed.(colors := Some(PutAll(BarsOf(ed), st.edits[k])))
            else st.workspaceThemes[k],
          edits := map[])
  }

  /** Migration does not change the workspace, as long as every legacy edit
      belongs to a theme the document has or to one that does not resolve
      anyway (an edit of a theme that exists only as an override is
      dropped, and would change it). */
  lemma MigratePreservesWorkspace(st: State, base: Doc)
    requires forall k :: k in st.edits ==> k in base || k !in st.workspaceThemes
    ensures BuildWorkspaceData(MigrateLegacyEdits(st, Some(base)), base) == BuildWorkspaceData(st, base)
  {
    var r := MigrateLegacyEdits(st, Some(base));
    if |st.edits| > 0 {
      forall k ensures Resolve(r, base, k) == Resolve(st, base, k) {
        MigrateResolvesAlike(st, base, k);
      }
      SameResolution(r, st, base);
    }
  }

  lemma MigrateResolvesAlike(st: State, base: Doc, k: string)
    requires |st.edits| > 0
    requires k in st.edits ==> k in base || k !in st.workspaceThemes
    ensures Resolve(MigrateLegacyEdits(st, Some(base)), base, k) == Resolve(st, base, k)
  {
    if k in Migrated(st, base) {
      MigratedResolvesAlike(st, base, k);
    } else {
      UnmigratedResolvesAlike(st, base, k);
    }
  }

  /** A theme whose edits migration moves resolves as before: the edits
      now sit in its override instead of on top of it. */
  lemma MigratedResolvesAlike(st: State, base: Doc, k: string)
    requires |st.edits| > 0 && k in Migrated(st, base)
    ensures Resolve(MigrateLegacyEdits(st, Some(base)), base, k) == Resolve(st, base, k)
  {
    var r := MigrateLegacyEdits(st, Some(base));
    MigratedOverride(st, base, k);
    OverrideResolves(st, r, base, k);
  }

  /** A theme whose full resolution has been written as its override, with
      no legacy edits and the same tombstone, resolves as before. */
  lemma OverrideResolves(st: State, r: State, base: Doc, k: string)
    requires r.deletedThemes == st.deletedThemes && k !in r.edits
    requires k in r.workspaceThemes && r.workspaceThemes[k].colors.Some?
    requires !Tombstoned(st, k) ==> Resolve(st, base, k) == Some(r.workspaceThemes[k])
    ensures Resolve(r, base, k) == Resolve(st, base, k)
  {
    var w := r.workspaceThemes[k];
    assert WithColors(w) == w;
  }

  /** The override migration writes for a moved theme is what the theme
      resolved to before. */
  lemma MigratedOverride(st: State, base: Doc, k: string)
    requires |st.edits| > 0 && k in Migrated(st, base)
    ensures var r := MigrateLegacyEdits(st, Some(base));
      && k in r.workspaceThemes && r.workspaceThemes[k].colors.Some?
      && (!Tombstoned(st, k) ==> Resolve(st, base, k) == Some(r.workspaceThemes[k]))
  {
    var r := MigrateLegacyEdits(st, Some(base));
    var layer := if k in st.workspaceThemes then st.workspaceThemes[k] else base[k];
    var ed := Editable(st, base, k);
    assert ed == WithColors(layer);
    assert BarsOf(ed) == BarsOf(layer);
    assert r.workspaceThemes[k] == layer.(colors := Some(PutAll(BarsOf(layer), st.edits[k])));
  }

  /** A theme whose edits migration drops, or that has none, resolves as
      before, provided dropped edits belonged to a theme that did not
      resolve. */
  lemma UnmigratedResolvesAlike(st: State, base: Doc, k: string)
    requires |st.edits| > 0 && k !in Migrated(st, base)
    requires k in st.edits ==> k in base || k !in st.workspaceThemes
    ensures Resolve(MigrateLegacyEdits(st, Some(base)), base, k) == Resolve(st, base, k)
  {
    var r := MigrateLegacyEdits(st, Some(base));
    assert Tombstoned(r, k) == Tombstoned(st, k);
    assert Lookup(r.workspaceThemes, k) == Lookup(st.workspaceThemes, k) && k !in r.edits;
    if k in st.edits && |st.edits[k]| == 0 {
      assert st.edits[k] == [];
    }
  }

  /** `selectBar(k, bar)`: select the bar and zero the HSL adjustment. */
  function SelectBar(st: State, k: string, bar: string): (r: State)
    ensures r.selected == Some(Selection(k, bar)) && r.barAdjust == NoShift
    ensures r == st.(selected := r.selected, barAdjust := r.barAdjust)
  {
    st.(selected := Some(Selection(k, bar)), barAdjust := NoShift)
  }

  /** The name of the first bar, or "" when there is none. */
  function FirstBar(b: Bars): (name: string)
    ensures |b| > 0 ==> name in Keys(b) && IndexOf(b, name) == 0
    ensures |b| == 0 ==> name == ""
  {
    if |b| > 0 then IndexOfAt(b, 0); b[0].0 else ""
  }

  /** `selectTheme(k)`: nothing happens unless `k` resolves; otherwise its
      first bar (or "" when it has none) is selected and the HSL adjustment
      zeroed. */
  function SelectTheme(st: State, base: Doc, k: string): (r: State)
    ensures Resolve(st, base, k).None? ==> r == st
    ensures Resolve(st, base, k).Some? ==>
      && r.selected == Some(Selection(k, FirstBar(ResolvedBars(st, base, k))))
      && r.barAdjust == NoShift
    ensures r == st.(selected := r.selected, barAdjust := r.barAdjust)
  {
    BuildMatchesResolve(st, base, k);
    var ws := BuildWorkspaceData(st, base);
    if k !in ws then st
    else st.(selected := Some(Selection(k, FirstBar(BarsOf(ws[k])))), barAdjust := NoShift)
  }

  /** `setEditedBarValue(k, bar, v)`: write the bar as `setBarValue` does
      and select it; the HSL adjustment is left as it is. */
  function SetEditedBarValue(st: State, base: Doc, k: string, bar: string, v: Value): (r: State)
    ensures r.selected == Some(Selection(k, bar))
    ensures k in r.workspaceThemes && Get(BarsOf(r.workspaceThemes[k]), bar) == Some(v)
    ensures r.workspaceThemes == SetBarValue(st, base, k, bar, v).workspaceThemes
    ensures r == st.(selected := r.selected, workspaceThemes := r.workspaceThemes)
  {
    SetBarValue(st, base, k, bar, v).(selected := Some(Selection(k, bar)))
  }
}

=== FILE: theme.dfy ===
/** Projecting a theme section and one bar's value onto what the preview
    draws, and the hover text that lists a bar's colours. */
module Theme {
  import opened Wrappers
  import opened JsValues
  import opened Document
  import opened HexColor
  import opened BarValues

  const PcLightDefault: string := "#ffffff"
  const PcDarkDefault: string := "#404040"

  /** What the preview of one bar draws: the PC kind has a two-tone border
      and one ramp, the PS1 kind four corner colours and two ramps. */
  datatype RenderTheme =
    | PcTheme(borderLight: string, borderDark: string, ramp: seq<Value>)
    | Ps1Theme(borderTl: string, borderTr: string, borderBr: string, borderBl: string,
               left: seq<Value>, right: seq<Value>)

  /** `buildThemeFromSection(section, barValue, n)`: never fails. A PS1
      section whose bar value is not a pair of arrays gets two all-black
      ramps; a PC section whose bar value is not an array gets one. Ramps
      that are present pass through as they are, whatever their length.
      Missing or empty border properties take their defaults. */
  function BuildThemeFromSection(section: Section, barValue: Value, n: nat): (t: RenderTheme)
    ensures t.Ps1Theme? <==> IsPs1Style(Field(section, StyleField))
    ensures t.Ps1Theme? ==>
      && t.borderTl == FieldOr(section, BorderTl, Black)
      && t.borderTr == FieldOr(section, BorderTr, Black)
      && t.borderBr == FieldOr(section, BorderBr, Black)
      && t.borderBl == FieldOr(section, BorderBl, Black)
    ensures t.Ps1Theme? && IsPair(barValue) ==> t.left == Left(barValue) && t.right == Right(barValue)
    ensures t.Ps1Theme? && !IsPair(barValue) ==> t.left == Blacks(n) && t.right == Blacks(n)
    ensures t.PcTheme? ==>
      && t.borderLight == FieldOr(section, BorderLight, PcLightDefault)
      && t.borderDark == FieldOr(section, BorderDark, PcDarkDefault)
      && (barValue.Arr? ==> t.ramp == barValue.elems)
      && (!barValue.Arr? ==> t.ramp == Blacks(n))
  {
    if IsPs1Style(Field(section, StyleField)) then
      var ramps := if IsPair(barValue) then (Left(barValue), Right(barValue)) else (Blacks(n), Blacks(n));
      Ps1Theme(FieldOr(section, BorderTl, Black), FieldOr(section, BorderTr, Black),
               FieldOr(section, BorderBr, Black), FieldOr(section, BorderBl, Black), ramps.0, ramps.1)
    else
      PcTheme(FieldOr(section, BorderLight, PcLightDefault), FieldOr(section, BorderDark, PcDarkDefault),
              if barValue.Arr? then barValue.elems else Blacks(n))
  }

  /** A freshly added bar previews as all-black ramps of the configured
      number of steps, whichever kind the theme is. */
  lemma NewBarPreviewsBlack(section: Section, n: nat)
    ensures var t := BuildThemeFromSection(section, DefaultBarValue(Field(section, StyleField), n), n);
      if t.Ps1Theme? then t.left == Blacks(n) && t.right == Blacks(n) else t.ramp == Blacks(n)
  {
  }

  /** After a swatch change inside its ramp, the preview shows the picked
      colour (normalised, or black) at that step of the edited ramp and
      leaves the other ramp of a PS1 theme as it was projected before. */
  lemma SwatchChangeShows(section: Section, current: Value, n: nat, ps1RampIndex: int,
                          colorIndex: nat, colorHex: string)
    requires colorIndex < |EditedRamp(Field(section, StyleField), current, n, ps1RampIndex)|
    ensures var style := Field(section, StyleField);
      var t := BuildThemeFromSection(section, ApplySwatchChange(style, current, n, ps1RampIndex, colorIndex, colorHex), n);
      var shown := Str(NormalizeOrBlack(colorHex));
      && (t.PcTheme? ==> t.ramp[colorIndex] == shown)
      && (t.Ps1Theme? && ps1RampIndex == 1 ==> t.right[colorIndex] == shown && t.left == RampOrBlack(current, 0, n))
      && (t.Ps1Theme? && ps1RampIndex != 1 ==> t.left[colorIndex] == shown && t.right == RampOrBlack(current, 1, n))
  {
  }

  /** `describeThemeTooltip(barName, theme)`: the bar name on the first line,
      then the ramp's colours separated by spaces, the two PS1 ramps
      separated by " | ". */
  function DescribeThemeTooltip(barName: string, t: RenderTheme): (r: string)
    ensures |r| > |barName| && r[..|barName| + 1] == barName + "\n"
  {
    var head := barName + "\n";
    var body := if t.Ps1Theme? then JoinAll(t.left, " ") + " | " + JoinAll(t.right, " ") else JoinAll(t.ramp, " ");
    HeadKept(head, body);
    head + body
  }

  /** For ramps of any texts, the tooltip is the bar name's line followed by
      the ramp's texts with a single space between neighbours, as the
      front-built reference join spells them; a PS1 tooltip has the left
      ramp's, then " | ", then the right ramp's. */
  lemma TooltipShape(barName: string, t: RenderTheme)
    ensures t.PcTheme? ==> DescribeThemeTooltip(barName, t) == barName + "\n" + Spaced(Texts(t.ramp), " ")
    ensures t.Ps1Theme? ==>
      DescribeThemeTooltip(barName, t) == barName + "\n" + Spaced(Texts(t.left), " ") + " | " + Spaced(Texts(t.right), " ")
  {
    if t.Ps1Theme? {
      PairSpaced(barName + "\n", t.left, t.right);
    } else {
      JoinIsSpaced(t.ramp, " ");
    }
  }

  lemma HeadKept(head: string, body: string)
    ensures (head + body)[..|head|] == head
  {
  }

  lemma PairSpaced(head: string, left: seq<Value>, right: seq<Value>)
    ensures head + (JoinAll(left, " ") + " | " + JoinAll(right, " "))
      == head + Spaced(Texts(left), " ") + " | " + Spaced(Texts(right), " ")
  {
    JoinIsSpaced(left, " ");
    JoinIsSpaced(right, " ");
  }

  /** How long a tooltip is, for ramps of any texts: the name's line, each
      colour's text, and one separator character per colour after the
      first, plus the PS1 " | " (three characters in place of one space). */
  lemma TooltipLength(barName: string, t: RenderTheme)
    ensures t.PcTheme? && |t.ramp| >= 1 ==>
      |DescribeThemeTooltip(barName, t)| == |barName| + TotalLength(Texts(t.ramp)) + |t.ramp|
    ensures t.PcTheme? && |t.ramp| == 0 ==> DescribeThemeTooltip(barName, t) == barName + "\n"
    ensures t.Ps1Theme? && |t.left| >= 1 && |t.right| >= 1 ==>
      |DescribeThemeTooltip(barName, t)|
        == |barName| + TotalLength(Texts(t.left)) + TotalLength(Texts(t.right)) + |t.left| + |t.right| + 2
  {
    TooltipShape(barName, t);
    if t.PcTheme? && |t.ramp| >= 1 {
      SpacedLength(Texts(t.ramp), " ");
    } else if t.Ps1Theme? && |t.left| >= 1 && |t.right| >= 1 {
      SpacedLength(Texts(t.left), " ");
      SpacedLength(Texts(t.right), " ");
    } else if t.PcTheme? {
      assert Texts(t.ramp) == [];
    }
  }

  /** Every element of the ramp is a canonical colour text. */
  predicate AllCanonical(ramp: seq<Value>) {
    forall i :: 0 <= i < |ramp| ==> ramp[i].Str? && IsCanonical(ramp[i].s)
  }

  /** `text` shows the colours of `ramp` in order, one every eight
      characters from `offset` on, each but the last followed by a space. */
  predicate Lists(text: string, offset: nat, ramp: seq<Value>)
    requires AllCanonical(ramp)
  {
    && offset + 8 * |ramp| <= |text| + 1
    && (forall i :: 0 <= i < |ramp| ==> text[offset + 8 * i .. offset + 8 * i + 7] == ramp[i].s)
    && (forall i :: 0 <= i < |ramp| - 1 ==> text[offset + 8 * i .. offset + 8 * i + 8] == ramp[i].s + " ")
  }

  /** The text a join produces does not depend on the termination witness. */
  lemma {:induction false} JoinWitness(es: seq<Value>, sep: string, w1: Value, w2: Value)
    requires forall e :: e in es ==> e < w1
    requires forall e :: e in es ==> e < w2
    ensures Join(es, sep, w1) == Join(es, sep, w2)
    decreases |es|
  {
    if |es| > 0 {
      var init := es[..|es| - 1];
      assert forall e :: e in init ==> e in es;
      JoinWitness(init, sep, w1, w2);
    }
  }

  /** Joining one more element appends the separator and its text. */
  lemma JoinSnoc(es: seq<Value>, sep: string)
    requires |es| >= 2
    ensures JoinAll(es, sep) == JoinAll(es[..|es| - 1], sep) + sep + Text(es[|es| - 1])
  {
    var init := es[..|es| - 1];
    assert forall e :: e in init ==> e in es;
    JoinWitness(init, sep, Arr(es), Arr(init));
  }

  /** The texts of a ramp's elements, in order. */
  function Texts(es: seq<Value>): (ws: seq<string>)
    ensures |ws| == |es|
    ensures forall i :: 0 <= i < |es| ==> ws[i] == Text(es[i])
  {
    seq(|es|, i requires 0 <= i < |es| => Text(es[i]))
  }

  /** Words with `sep` between neighbours, built from the front: the first
      word, then for each further word the separator and that word. */
  function Spaced(ws: seq<string>, sep: string): string {
    if |ws| == 0 then ""
    else if |ws| == 1 then ws[0]
    else ws[0] + sep + Spaced(ws[1..], sep)
  }

  /** The words' lengths added up. */
  function TotalLength(ws: seq<string>): nat {
    if |ws| == 0 then 0 else |ws[0]| + TotalLength(ws[1..])
  }

  /** A spaced text holds every word and one separator fewer than words. */
  lemma {:induction false} SpacedLength(ws: seq<string>, sep: string)
    requires |ws| >= 1
    ensures |Spaced(ws, sep)| == TotalLength(ws) + (|ws| - 1) * |sep|
    decreases |ws|
  {
    if |ws| >= 2 {
      SpacedLength(ws[1..], sep);
      assert (|ws| - 1) * |sep| == (|ws| - 2) * |sep| + |sep|;
    }
  }

  /** Adding a word at the back of a spaced text appends a separator (when
      there was a word before) and the word. */
  lemma {:induction false} SpacedSnoc(ws: seq<string>, w: string, sep: string)
    ensures Spaced(ws + [w], sep) == Spaced(ws, sep) + (if |ws| == 0 then "" else sep) + w
    decreases |ws|
  {
    if |ws| == 0 {
      assert ws + [w] == [w];
    } else if |ws| == 1 {
      assert (ws + [w])[1..] == [w];
    } else {
      assert (ws + [w])[1..] == ws[1..] + [w];
      SpacedSnoc(ws[1..], w, sep);
    }
  }

  /** `es.join(sep)` puts the separator between neighbouring texts, as the
      front-built reference does. */
  lemma {:induction false} JoinIsSpaced(es: seq<Value>, sep: string)
    ensures JoinAll(es, sep) == Spaced(Texts(es), sep)
    decreases |es|
  {
    if |es| == 1 {
      assert JoinAll(es, sep) == Join([], sep, Arr(es)) + "" + Text(es[0]);
    } else if |es| >= 2 {
      var init := es[..|es| - 1];
      JoinSnoc(es, sep);
      JoinIsSpaced(init, sep);
      assert Texts(es) == Texts(init) + [Text(es[|es| - 1])];
      SpacedSnoc(Texts(init), Text(es[|es| - 1]), sep);
    }
  }

  lemma SliceLeft(a: string, b: string, i: nat, j: nat)
    requires i <= j <= |a|
    ensures (a + b)[i..j] == a[i..j]
  {
  }

  /** One more canonical colour after a space keeps every earlier one in
      place and puts the new one eight characters further on. */
  lemma ListsSnoc(head: string, init: seq<Value>, c: string)
    requires AllCanonical(init) && IsCanonical(c) && |init| >= 1
    requires |head| == 8 * |init| - 1 && Lists(head, 0, init)
    ensures AllCanonical(init + [Str(c)])
    ensures |head + " " + c| == 8 * |init + [Str(c)]| - 1
    ensures Lists(head + " " + c, 0, init + [Str(c)])
  {
    var es := init + [Str(c)];
    var text := head + " " + c;
    assert AllCanonical(es);
    forall i | 0 <= i < |es|
      ensures text[8 * i .. 8 * i + 7] == es[i].s
    {
      if i < |init| {
        SliceLeft(head, " " + c, 8 * i, 8 * i + 7);
        assert head + " " + c == head + (" " + c);
      } else {
        assert text[8 * i .. 8 * i + 7] == c;
      }
    }
  }

  /** Canonical colours joined with single spaces sit at every eighth
      character, and the text is eight characters per colour less the last
      separator. */
  lemma {:induction false} JoinCanonical(es: seq<Value>)
    requires AllCanonical(es) && |es| >= 1
    ensures |JoinAll(es, " ")| == 8 * |es| - 1
    ensures Lists(JoinAll(es, " "), 0, es)
    decreases |es|
  {
    var last := es[|es| - 1];
    if |es| == 1 {
      assert es[..0] == [];
      assert Join([], " ", Arr(es)) == "";
      assert Join(es, " ", Arr(es)) == Join([], " ", Arr(es)) + "" + Text(last);
    } else {
      var init := es[..|es| - 1];
      assert AllCanonical(init);
      JoinCanonical(init);
      JoinSnoc(es, " ");
      ListsSnoc(JoinAll(init, " "), init, last.s);
      assert init + [Str(last.s)] == es;
    }
  }

  /** A tooltip for canonical ramps lists every colour of every ramp in
      order, each at a fixed position after the bar name's line and
      followed by a space within its ramp; the two PS1 ramps are separated
      by " | ", and the text ends with the last colour. */
  lemma TooltipListsColours(barName: string, t: RenderTheme)
    requires t.PcTheme? ==> AllCanonical(t.ramp) && |t.ramp| >= 1
    requires t.Ps1Theme? ==> AllCanonical(t.left) && AllCanonical(t.right) && |t.left| >= 1 && |t.right| >= 1
    ensures t.PcTheme? ==>
      && Lists(DescribeThemeTooltip(barName, t), |barName| + 1, t.ramp)
      && |DescribeThemeTooltip(barName, t)| == |barName| + 8 * |t.ramp|
    ensures t.Ps1Theme? ==>
      && |DescribeThemeTooltip(barName, t)| == |barName| + 8 * |t.left| + 8 * |t.right| + 2
      && Lists(DescribeThemeTooltip(barName, t), |barName| + 1, t.left)
      && DescribeThemeTooltip(barName, t)[|barName| + 8 * |t.left| .. |barName| + 8 * |t.left| + 3] == " | "
      && Lists(DescribeThemeTooltip(barName, t), |barName| + 8 * |t.left| + 3, t.right)
  {
    if t.PcTheme? {
      PcTooltipLists(barName, t);
    } else {
      Ps1TooltipLists(barName, t);
    }
  }

  lemma PcTooltipLists(barName: string, t: RenderTheme)
    requires t.PcTheme? && AllCanonical(t.ramp) && |t.ramp| >= 1
    ensures Lists(DescribeThemeTooltip(barName, t), |barName| + 1, t.ramp)
    ensures |DescribeThemeTooltip(barName, t)| == |barName| + 8 * |t.ramp|
  {
    JoinCanonical(t.ramp);
    var body := JoinAll(t.ramp, " ");
    assert DescribeThemeTooltip(barName, t) == barName + "\n" + body;
    ListsAfter(barName + "\n", body, t.ramp);
  }

  lemma Ps1TooltipLists(barName: string, t: RenderTheme)
    requires t.Ps1Theme? && AllCanonical(t.left) && AllCanonical(t.right) && |t.left| >= 1 && |t.right| >= 1
    ensures |DescribeThemeTooltip(barName, t)| == |barName| + 8 * |t.left| + 8 * |t.right| + 2
    ensures Lists(DescribeThemeTooltip(barName, t), |barName| + 1, t.left)
    ensures DescribeThemeTooltip(barName, t)[|barName| + 8 * |t.left| .. |barName| + 8 * |t.left| + 3] == " | "
    ensures Lists(DescribeThemeTooltip(barName, t), |barName| + 8 * |t.left| + 3, t.right)
  {
    var l, rr := JoinAll(t.left, " "), JoinAll(t.right, " ");
    assert Lists(l, 0, t.left) && |l| == 8 * |t.left| - 1 by {
      JoinCanonical(t.left);
    }
    assert Lists(rr, 0, t.right) && |rr| == 8 * |t.right| - 1 by {
      JoinCanonical(t.right);
    }
    var r := DescribeThemeTooltip(barName, t);
    assert r == barName + "\n" + (l + " | " + rr) by {
      Ps1TooltipText(barName, t);
    }
    PairLists(r, barName, l, rr, t.left, t.right);
  }

  lemma Ps1TooltipText(barName: string, t: RenderTheme)
    requires t.Ps1Theme?
    ensures DescribeThemeTooltip(barName, t) == barName + "\n" + (JoinAll(t.left, " ") + " | " + JoinAll(t.right, " "))
  {
  }

  /** Two listings joined by " | " behind the name's line: each keeps its
      colours, shifted to where it now starts. */
  lemma PairLists(text: string, barName: string, l: string, rr: string, left: seq<Value>, right: seq<Value>)
    requires AllCanonical(left) && AllCanonical(right) && |left| >= 1 && |right| >= 1
    requires Lists(l, 0, left) && |l| == 8 * |left| - 1
    requires Lists(rr, 0, right) && |rr| == 8 * |right| - 1
    requires text == barName + "\n" + (l + " | " + rr)
    ensures |text| == |barName| + 8 * |left| + 8 * |right| + 2
    ensures Lists(text, |barName| + 1, left)
    ensures text[|barName| + 8 * |left| .. |barName| + 8 * |left| + 3] == " | "
    ensures Lists(text, |barName| + 8 * |left| + 3, right)
  {
    var head := barName + "\n";
    ListsBefore(l, " | " + rr, left);
    assert l + " | " + rr == l + (" | " + rr);
    ListsAfter(head, l + (" | " + rr), left);
    assert text == (head + l + " | ") + rr;
    ListsAfter(head + l + " | ", rr, right);
    assert text[|head| + |l| .. |head| + |l| + 3] == " | ";
  }

  /** A listing keeps its colours when text is put in front, shifted by the
      length of that text. */
  lemma ListsAfter(prefix: string, text: string, es: seq<Value>)
    requires AllCanonical(es) && Lists(text, 0, es)
    ensures Lists(prefix + text, |prefix|, es)
  {
    forall i | 0 <= i < |es|
      ensures (prefix + text)[|prefix| + 8 * i .. |prefix| + 8 * i + 7] == es[i].s
    {
      assert (prefix + text)[|prefix| + 8 * i .. |prefix| + 8 * i + 7] == text[8 * i .. 8 * i + 7];
    }
  }

  /** A listing keeps its colours when text is put after it. */
  lemma ListsBefore(text: string, suffix: string, es: seq<Value>)
    requires AllCanonical(es) && Lists(text, 0, es) && |text| == 8 * |es| - 1
    ensures Lists(text + suffix, 0, es)
  {
    forall i | 0 <= i < |es|
      ensures (text + suffix)[8 * i .. 8 * i + 7] == es[i].s
    {
      SliceLeft(text, suffix, 8 * i, 8 * i + 7);
    }
  }
}

=== FILE: workspace_ops.dfy ===
/** Default theme sections and the bar reordering primitive. */
module WorkspaceOps {
  import opened Wrappers
  import opened JsValues
  import opened OrderedMap
  import opened Document

  /** The section a newly added theme starts with: a PS1 theme (kind "ps1" in
      any letter case) gets four black corners, anything else a PC theme with
      a white light border and a dark grey dark border; both start with scale
      1 and no bars. */
  function CreateDefaultTheme(kind: string): (r: Section)
    ensures r.scale == Some(1.0) && r.colors == Some([])
    ensures Lower(kind) == "ps1" ==>
      r.fields == map[StyleField := "ps1", BorderTl := Black, BorderTr := Black,
                      BorderBl := Black, BorderBr := Black]
    ensures Lower(kind) != "ps1" ==>
      r.fields == map[StyleField := "pc", BorderLight := "#ffffff", BorderDark := "#404040"]
    ensures IsPs1Style(Field(r, StyleField)) <==> Lower(kind) == "ps1"
  {
    if Lower(kind) == "ps1" then
      Section(map[StyleField := "ps1", BorderTl := Black, BorderTr := Black,
                  BorderBl := Black, BorderBr := Black], Some(1.0), Some([]))
    else
      Section(map[StyleField := "pc", BorderLight := "#ffffff", BorderDark := "#404040"],
              Some(1.0), Some([]))
  }

  predicate DistinctSeq(ks: seq<string>) {
    forall i, j :: 0 <= i < j < |ks| ==> ks[i] != ks[j]
  }

  /** `const out = {}; for (const k of ks) out[k] = b[k];`. */
  function FromKeys(ks: seq<string>, b: Bars): Bars
    requires forall k :: k in ks ==> k in Keys(b)
    decreases |ks|
  {
    if |ks| == 0 then []
    else
      var init, k := ks[..|ks| - 1], ks[|ks| - 1];
      assert forall x :: x in init ==> x in ks;
      Put(FromKeys(init, b), k, ValueOf(b, k))
  }

  /** `ks` paired with their values in `b`, in order. */
  function Pairs(ks: seq<string>, b: Bars): (r: seq<(string, Value)>)
    requires forall k :: k in ks ==> k in Keys(b)
    ensures |r| == |ks|
    ensures forall i :: 0 <= i < |ks| ==> r[i] == (ks[i], ValueOf(b, ks[i]))
  {
    seq(|ks|, i requires 0 <= i < |ks| => (ks[i], ValueOf(b, ks[i])))
  }

  lemma PairsSnoc(ks: seq<string>, b: Bars)
    requires |ks| > 0 && DistinctSeq(ks)
    requires forall k :: k in ks ==> k in Keys(b)
    ensures var init := ks[..|ks| - 1];
      && (forall k :: k in init ==> k in Keys(b))
      && DistinctKeys(Pairs(init, b))
      && Put(Pairs(init, b), ks[|ks| - 1], ValueOf(b, ks[|ks| - 1])) == Pairs(ks, b)
  {
    var init, k := ks[..|ks| - 1], ks[|ks| - 1];
    assert forall x :: x in init ==> x in ks;
    PrefixDistinct(ks);
    PairsDistinct(init, b);
    var prev: Bars := Pairs(init, b);
    assert k !in Keys(prev) by {
      forall i | 0 <= i < |init| ensures init[i] != k {
        assert init[i] == ks[i];
      }
    }
    assert prev + [(k, ValueOf(b, k))] == Pairs(ks, b);
  }

  lemma PrefixDistinct(ks: seq<string>)
    requires |ks| > 0 && DistinctSeq(ks)
    ensures DistinctSeq(ks[..|ks| - 1])
  {
  }

  /** Pairing distinct keys with their values gives a map with those keys. */
  lemma PairsDistinct(ks: seq<string>, b: Bars)
    requires forall k :: k in ks ==> k in Keys(b)
    requires DistinctSeq(ks)
    ensures Keys(Pairs(ks, b)) == ks
    ensures DistinctKeys(Pairs(ks, b))
  {
    var p := Pairs(ks, b);
    forall i, j | 0 <= i < j < |p| ensures p[i].0 != p[j].0 {
      assert p[i].0 == ks[i] && p[j].0 == ks[j];
    }
  }

  /** Rebuilding from distinct keys lists exactly those keys, in that order,
      each with its value in `b`. */
  lemma {:induction false} FromKeysInOrder(ks: seq<string>, b: Bars)
    requires forall k :: k in ks ==> k in Keys(b)
    requires DistinctSeq(ks)
    ensures FromKeys(ks, b) == Pairs(ks, b)
    decreases |ks|
  {
    if |ks| > 0 {
      var init, k := ks[..|ks| - 1], ks[|ks| - 1];
      assert forall x :: x in init ==> x in ks;
      FromKeysInOrder(init, b);
      PairsSnoc(ks, b);
    }
  }

  /** `b` with the entries at positions `i` and `j` exchanged. */
  function Exchange(b: seq<(string, Value)>, i: nat, j: nat): seq<(string, Value)>
    requires i < |b| && j < |b|
  {
    b[i := b[j]][j := b[i]]
  }

  /** `swapKeyOrderInObject(b, key, delta)`: a missing key or a target
      position outside the map leaves the map as it is; otherwise the entry of
      `key` and the entry `delta` places away trade positions and nothing else
      moves. */
  function SwapKeyOrder(b: Bars, key: string, delta: int): (r: Bars)
    ensures key !in Keys(b) ==> r == b
    ensures key in Keys(b) && !(0 <= IndexOf(b, key) + delta < |b|) ==> r == b
    ensures key in Keys(b) && 0 <= IndexOf(b, key) + delta < |b| ==>
      r == Exchange(b, IndexOf(b, key), IndexOf(b, key) + delta)
  {
    var keys := Keys(b);
    var idx := IndexOf(b, key);
    if idx < 0 then b
    else
      var next := idx + delta;
      if next < 0 || next >= |keys| then b
      else
        var reordered := keys[idx := keys[next]][next := keys[idx]];
        RebuildSwapped(b, idx, next);
        FromKeys(reordered, b)
  }

  /** Rebuilding from the key list with two positions traded gives `b` with
      those two entries traded. */
  lemma RebuildSwapped(b: Bars, idx: nat, next: nat)
    requires idx < |b| && next < |b|
    ensures var reordered := Keys(b)[idx := Keys(b)[next]][next := Keys(b)[idx]];
      && (forall k :: k in reordered ==> k in Keys(b))
      && FromKeys(reordered, b) == Exchange(b, idx, next)
  {
    var reordered := Keys(b)[idx := Keys(b)[next]][next := Keys(b)[idx]];
    ReorderedFacts(b, idx, next);
    FromKeysInOrder(reordered, b);
    PairsExchange(b, idx, next);
  }

  lemma ReorderedFacts(b: Bars, idx: nat, next: nat)
    requires idx < |b| && next < |b|
    ensures var reordered := Keys(b)[idx := Keys(b)[next]][next := Keys(b)[idx]];
      && (forall k :: k in reordered ==> k in Keys(b))
      && DistinctSeq(reordered)
  {
    var keys := Keys(b);
    var reordered := keys[idx := keys[next]][next := keys[idx]];
    forall k | k in reordered ensures k in keys {
      var p :| 0 <= p < |reordered| && reordered[p] == k;
      assert reordered[p] == keys[if p == idx then next else if p == next then idx else p];
    }
    forall p, q | 0 <= p < q < |reordered| ensures reordered[p] != reordered[q] {
      var p' := if p == idx then next else if p == next then idx else p;
      var q' := if q == idx then next else if q == next then idx else q;
      assert reordered[p] == b[p'].0 && reordered[q] == b[q'].0;
    }
  }

  lemma PairsExchange(b: Bars, idx: nat, next: nat)
    requires idx < |b| && next < |b|
    requires forall k :: k in Keys(b)[idx := Keys(b)[next]][next := Keys(b)[idx]] ==> k in Keys(b)
    ensures Pairs(Keys(b)[idx := Keys(b)[next]][next := Keys(b)[idx]], b) == Exchange(b, idx, next)
  {
    var keys := Keys(b);
    var reordered := keys[idx := keys[next]][next := keys[idx]];
    var p := Pairs(reordered, b);
    forall i | 0 <= i < |b| ensures p[i] == Exchange(b, idx, next)[i] {
      var j := if i == idx then next else if i == next then idx else i;
      assert reordered[i] == b[j].0;
      IndexOfAt(b, j);
    }
  }

  /** Moving a bar keeps the same bars with the same values. */
  lemma SwapKeepsEntries(b: Bars, key: string, delta: int)
    ensures forall k :: Get(SwapKeyOrder(b, key, delta), k) == Get(b, k)
  {
    var r := SwapKeyOrder(b, key, delta);
    if key in Keys(b) && 0 <= IndexOf(b, key) + delta < |b| {
      var i, j := IndexOf(b, key), IndexOf(b, key) + delta;
      assert r == Exchange(b, i, j);
      forall k ensures Get(r, k) == Get(b, k) {
        ExchangeGet(b, r, i, j, k);
      }
    } else {
      assert r == b;
    }
  }

  /** Trading two positions changes no key's value. */
  lemma ExchangeGet(b: Bars, r: Bars, i: nat, j: nat, k: string)
    requires i < |b| && j < |b| && r == Exchange(b, i, j)
    ensures Get(r, k) == Get(b, k)
  {
    if k in Keys(b) {
      var p := IndexOf(b, k);
      var p' := if p == i then j else if p == j then i else p;
      assert r[p'] == b[p];
      IndexOfAt(r, p');
    } else {
      forall q | 0 <= q < |r| ensures r[q].0 != k {
        var q' := if q == i then j else if q == j then i else q;
        assert r[q] == b[q'];
      }
    }
  }

  /** A move that took place is undone by the opposite move. (A move that
      was refused is not: moving the first bar up is a no-op, but moving it
      down afterwards is not.) */
  lemma SwapBackRestores(b: Bars, key: string, delta: int)
    requires key in Keys(b) && 0 <= IndexOf(b, key) + delta < |b|
    ensures SwapKeyOrder(SwapKeyOrder(b, key, delta), key, -delta) == b
  {
    var idx := IndexOf(b, key);
    var next := idx + delta;
    var r := SwapKeyOrder(b, key, delta);
    IndexOfAt(r, next);
    ExchangeTwice(b, idx, next);
  }

  lemma ExchangeTwice(b: seq<(string, Value)>, i: nat, j: nat)
    requires i < |b| && j < |b|
    ensures Exchange(Exchange(b, i, j), j, i) == b
  {
  }
}

=== FILE: wrappers.dfy ===
/** The optional-value datatype shared by every module of the model. */
module Wrappers {

  /** `None` plays the part of JavaScript's null/undefined wherever the
      source tests `x == null`. */
  datatype Option<+T> = None | Some(value: T) {

    /** The wrapped value, or `default` when there is none (JavaScript's `x ?? default`). */
    function GetOr(default: T): T {
      match this
      case Some(v) => v
      case None => default
    }
  }
}
